=== FILE: README.md ===
# Product search catalogue, modelled in Dafny

This project models the product catalogue of the App Engine product-search
demo. A product lives in two places:

- a document in the product search index, keyed by the product id, whose
  fields are the core fields (pid, updated, name, description, category,
  average rating, price) plus the fields its category asks for;
- a `Product` entity in the datastore holding the price, the category, the
  document id, the running average rating and the review count.

Reviews are datastore entities that point at a product. Submitting a review
stores the review and defers a task that folds its rating into the product's
running average (`utils.updateAverageRating`). In immediate mode that task
defers a reindex of the product's document. In batch mode the product is only
flagged, and an admin sweep later rewrites the ratings of all flagged
products (`Product.updateProdDocsWithNewRating`). Deleting a product removes
the entity at once and defers the deletion of its reviews and its document.
The search handler turns request parameters into a query: a category
restriction, a rating band, a sort and a page. The project also covers the
helpers of the Java `TextSearchServlet`: action dispatch, document add, tag
tokenising, search-result rendering and failed-id reporting on delete.

## How the system is represented

- Module layout follows the source files: `Errors`, `Config`, `Categories`,
  `Models`, `Docs`, `Utils`, `Handlers`, `AdminHandlers` and
  `TextSearchServlet`.
- `Search` models the search service as a map from document id to document.
- `Text` holds the string helpers Python and Java supply: `strip`, `int()`,
  `float()`, `int(x)` truncation and `Integer.parseInt`.
- `Optional` holds the `Option` type.
- `docs.py` and `models.py` import each other. So the two `Product`
  classmethods that reindex documents live in their own module, `Reindex`.
- `Deferred` runs the tasks the handlers defer. Tasks are values in an outbox
  (`seq<Task>`), so "a deferred task runs later" means "the caller runs it with
  `Deferred.Run`".
- A datastore transaction is one pure function from world to world, so it
  either happens entirely or not at all.
- Exceptions are the `Errors.Exception` datatype. It covers the application's
  own classes (`Error`, `NotFoundError`, `OperationFailedError`) and the
  built-in exceptions the code lets escape (`KeyError`, `TypeError`,
  `AttributeError`, `UnicodeEncodeError`, `NumberFormatException`,
  `IllegalArgumentException`, and an HTTP abort).
- Python 2 strings come in two kinds, `Text.Kind`. The CSV reader yields byte
  strings and a web request yields unicode strings. The two kinds disagree
  on what `strip()` removes, on which characters `int()` and `float()` accept,
  and on whether `str()` and `urllib.urlencode` can encode the value.
- Results from the outside world are parameters:
  - the reply of an index `put`, `delete` or `search`;
  - whether a `put` or `delete` whose result the code discards went through.
    The wrappers `Product.add` and `removeDocById` log a `search.Error` and
    carry on, so a failed write changes nothing and raises nothing
    (`Search.WriteReply`);
  - the current date, as a day number;
  - the logged-in user;
  - a freshly generated pid;
  - an allocated review id.

## Model

Source paths are relative to the repository root.

| member | source | states |
|---|---|---|
| Errors.MessageThroughBase | product_search_python/errors.py:20-32 | a NotFoundError or OperationFailedError is caught both by its own class and by the base `Error`, and the message survives |
| Errors.SubclassesDisjoint | product_search_python/errors.py:27-32 | `except OperationFailedError` does not catch a NotFoundError, and the reverse |
| Categories.BooksSchema | product_search_python/categories.py:35-39 | the books category asks for publisher, pages, author, title and isbn |
| Categories.TelevisionsSchema | product_search_python/categories.py:32-34 | the hd televisions category asks for size, brand and tv_type |
| Categories.FieldTypes | product_search_python/categories.py:32-40 | `pages` and `size` are the only number fields, no category repeats a field name, and every category has at least one field |
| Categories.TreeMatchesRegistry | product_search_python/categories.py:23-26 | the category tree is a root with exactly two leaf children, and those children are exactly the categories that have a field schema |
| Text.Strip | product_search_python/docs.py:459-460 | for either kind of string, stripping keeps a contiguous piece of the input with only that kind's whitespace dropped before and after it; the result neither starts nor ends with whitespace, and an already stripped string is unchanged |
| Text.StrippedAtUnique | product_search_python/docs.py:459-460 | two slices of a string that each are the string with whitespace dropped from both ends, and each non-empty with non-whitespace ends, are the same slice |
| Text.StripContained | product_search_python/docs.py:459-460 | the stripped string occurs inside the input |
| Text.UnicodeStripsMore | product_search_python/docs.py:459-460 | every byte-string whitespace character is unicode whitespace, and a trailing no-break space is kept by a byte string's strip but removed by a unicode string's |
| Text.NumberBytes | product_search_python/handlers.py:415-421 | a byte string reaches the number parser as it is; a unicode string reaches it exactly when every character is whitespace or a code point from 1 to 255, with each whitespace character turned into a space |
| Text.SpaceAfterSign | product_search_python/handlers.py:415-421 | `int()` allows whitespace between the sign and the digits: "- 3" reads as -3 |
| Text.UnicodeSpaceInNumber | product_search_python/handlers.py:415-421 | in a unicode string a no-break space counts as whitespace around the number and after its sign |
| Text.ParseIntBytesMeans | product_search_python/handlers.py:274-278 | `int()` of a byte string succeeds exactly when the stripped string is digits, or a sign, optional whitespace and digits, and then gives that literal's value |
| Text.ParseIntMeans | product_search_python/handlers.py:274-278 | `int()` of a string of either kind gives `v` exactly when the string re-encodes to bytes for the parser and those bytes strip to an integer literal of value `v` |
| Text.ParseUnsignedDecimalMeans | product_search_python/docs.py:463-468 | the unsigned decimal reader accepts exactly digits, or digits around a single point with at least one digit in all, and gives the whole part plus the fraction digits over the matching power of ten |
| Text.ParseFloatBytesMeans | product_search_python/docs.py:463-468 | `float()` of a byte string succeeds exactly when the stripped string is an unsigned decimal with at most one sign directly in front, and gives its signed value |
| Text.ParseFloatMeans | product_search_python/docs.py:463-468 | `float()` of a string of either kind gives `x` exactly when the string re-encodes to bytes for the parser and those bytes strip to a decimal literal of value `x` |
| Text.ParseFloatOfIntToString | product_search_python/docs.py:463-468 | `float()` of any rendered integer gives that integer, from a byte string and from a unicode string |
| Text.StripKeeps | product_search_python/handlers.py:285 | a piece of a string that starts with a non-space character is still inside the stripped string when the string ends with a non-space character |
| Text.ParseIntOfIntToString | product_search_python/handlers.py:411-419 | reading back any rendered integer with `int()` gives that integer, from a byte string and from a unicode string, so a rating written into a link parses back to the same rating |
| Text.NatToString | product_search_python/handlers.py:425-428 | rendering a natural number gives a non-empty string of decimal digits whose value is that number |
| Text.TruncToInt | product_search_python/docs.py:320 | `int(x)` on a float truncates toward zero: for a non-negative value the result is the largest integer not above it, and for a negative value the smallest integer not below it |
| Text.ParseJavaInt | java/src/com/google/appengine/demos/search/TextSearchServlet.java:120-124 | `Integer.parseInt` accepts exactly an optional sign followed by at least one ASCII digit whose value lies in the 32-bit range, and gives that value; whitespace anywhere is rejected |
| Text.ParseJavaIntOfIntToString | java/src/com/google/appengine/demos/search/TextSearchServlet.java:120-124 | parsing back a rendered integer gives it when it lies in the 32-bit range and is rejected otherwise |
| Search.Put | product_search_python/docs.py:127-133 | putting documents adds exactly their ids to the index and keeps every stored document under its own id |
| Search.PutKeepsOthers | product_search_python/docs.py:127-133 | a put leaves every document whose id it does not mention unchanged |
| Search.PutLastWins | product_search_python/docs.py:127-133 | when a put names an id more than once, the index ends with the last document given for it |
| Models.PutMulti | product_search_python/docs.py:515 | a batch put stores exactly the batch's ids on top of the existing keys |
| Models.PutMultiLastWins | product_search_python/docs.py:515 | for an id the batch names more than once, the last entity given for it is stored |
| Models.PutMultiKeepsOthers | product_search_python/docs.py:515 | a batch put leaves every product it does not name unchanged |
| Models.ProductReviews | product_search_python/models.py:123-129 | a product's reviews are exactly the stored reviews that point at it, are active and have been folded into its rating, unchanged |
| Models.DeleteReviews | product_search_python/models.py:204-211 | deleting by product id removes exactly the reviews pointing at that product and keeps all others unchanged; an empty id deletes nothing |
| Models.DeleteReviewsIdempotent | product_search_python/models.py:204-211 | deleting a product's reviews twice leaves the same reviews as deleting them once, so a redelivered deletion task does no harm |
| Models.DeleteReviewsLeavesNone | product_search_python/models.py:204-211 | after the deletion no remaining review points at the product, so the product lists no reviews |
| Models.BuildCategory | product_search_python/models.py:62-80 | building a category subtree keeps every category already built and adds the node's own category |
| Models.BuildAllCategories | product_search_python/models.py:51-60 | the category entities are built only when none exist yet, and building never removes a category |
| Models.BuildFromEmpty | product_search_python/models.py:51-87 | building from an empty datastore creates exactly the root plus books and hd televisions, each child with the root as parent |
| Models.CategoryInfoMatchesRegistry | product_search_python/models.py:89-99 | from an empty datastore the categories offered to users are exactly the categories that have a field schema |
| Docs.AllVisible | product_search_python/docs.py:43-44 | a string is all visible printable ASCII exactly when each character lies between `!` and `~` |
| Docs.IsValidDocId | product_search_python/docs.py:69-77 | a document id is legal exactly when every character is visible printable ASCII and it does not start with `!` |
| Docs.IndexNamesAreValid | product_search_python/config.py:21-26 | both configured index names pass the document-id check |
| Docs.FirstIndex | product_search_python/docs.py:61-67 | the field search finds the first field with the given name, or reports that no field has it |
| Docs.GetFieldVal | product_search_python/docs.py:53-59 | a field value is read exactly when the document has exactly one field with that name, and the value read is that field's value |
| Docs.SetFirstField | product_search_python/docs.py:61-67 | setting a field replaces the first field with that name in place and reports whether it found one; without a match the document is unchanged; the number of fields of each name never changes |
| Docs.SetThenGet | product_search_python/docs.py:53-67 | after setting a field that occurs once, reading it gives the value just set |
| Docs.ReadBackUnchanged | product_search_python/docs.py:53-67 | setting one field does not change what is read for any other field name |
| Docs.UpdateRatingInDoc | product_search_python/docs.py:238-249 | a missing document raises OperationFailedError naming the id; otherwise the document keeps its id and field count, only the rating field can change, and a single rating field then reads the new average |
| Docs.StripMarkup | product_search_python/docs.py:371-373 | removing tags never lengthens the text, only keeps characters of the input, leaves text without `<` unchanged, and leaves no `<` followed later by `>` |
| Docs.NormalizeParams | product_search_python/docs.py:453-476 | normalising succeeds exactly when pid, name, category and price are present, pid, name and price are not `None`, and the price parses as a float; pid and name are stripped by their own kind's whitespace, category (`None` read as empty) is copied to category_name, and every other key is kept; a `None` pid, name or price raises AttributeError or TypeError, and every other failure is an OperationFailedError |
| Docs.SpecField | product_search_python/docs.py:395-420 | a category field is built exactly when its value is given and, for a number field, parses, and for a text field passes through `str()`; a `None` number raises TypeError, a non-ASCII unicode text raises UnicodeEncodeError, and every other failure is an OperationFailedError whose message names the field |
| Docs.NonAsciiTextField | product_search_python/docs.py:409-411 | a non-ASCII author from the form (unicode) raises UnicodeEncodeError at its first non-ASCII position, which `except errors.Error` does not catch, while the same author read from a CSV file (bytes) is kept |
| Docs.CategoryFields | product_search_python/docs.py:392-420 | the category fields are built exactly when every schema field is satisfied, one field per schema entry in the dict's iteration order; otherwise the exception is exactly the one the first failing field in that order raises, every field before it being satisfied |
| Docs.TelevisionBrandBeforeSize | product_search_python/docs.py:392-411 | the television schema is walked brand first: a size that does not parse, which alone would be an OperationFailedError, loses to a non-ASCII unicode brand, whose UnicodeEncodeError is raised instead |
| Docs.BuildProductFields | product_search_python/docs.py:380-426 | a missing description is a TypeError from the markup stripping, and an unknown category raises `KeyError('category_name')` |
| Docs.CoreCounts | product_search_python/docs.py:349-378 | each of the seven core field names occurs exactly once in the core field list |
| Docs.CreateDocument | product_search_python/docs.py:428-451 | an empty pid, category or name raises "Missing parameter."; an illegal pid raises "Illegal pid …"; a document is built exactly when those checks pass, the description is present, the category is known and every category field is satisfied, and its id is the pid |
| Docs.CreatedDocumentReadsBack | product_search_python/docs.py:349-378 | a built document reads back its pid, name, stripped description, category and price, and an average rating of 0 |
| Docs.CreatedDocumentSchema | product_search_python/docs.py:380-426 | every field of a built document is a core field or a field of its category's schema |
| Docs.IndexAndStore | product_search_python/docs.py:533-552 | a failed put changes nothing and ends in a TypeError; an empty reply raises OperationFailedError "could not index document" with the store unchanged; otherwise the document is indexed under the pid and, in one step, the product is updated (keeping its ratings) or created with the returned document id; reviews and categories are untouched |
| Docs.BuildProductIndexesDocument | product_search_python/docs.py:517-553 | after a successful build the index holds, under the pid, a document with that pid, price and category, whose rating is the previous document's rating when one existed and 0 otherwise |
| Docs.EmptyParamsRaise | product_search_python/docs.py:453-476 | building from an empty parameter set raises an application error and changes nothing |
| Docs.RowOutcome | product_search_python/docs.py:488-497 | a CSV row yields a document and a fresh entity without a document id exactly when its parameters normalise, it has no cells beyond its named columns, and its document builds; surplus cells raise TypeError |
| Docs.Collect | product_search_python/docs.py:488-499 | the batch keeps, in order, the documents and entities of the rows that built, skips only rows that failed with OperationFailedError, and stops at the first row that failed any other way |
| Docs.BuildProductBatch | product_search_python/docs.py:478-515 | a row error other than OperationFailedError or a failed put leaves the world unchanged; a reply of the wrong length raises "wrong number of results"; otherwise the kept documents are indexed and the kept entities are stored with the returned ids |
| Docs.BatchStoresKeptRows | product_search_python/docs.py:478-515 | each kept row whose pid is not repeated later ends up stored as a fresh product with its parsed price, its category and the id returned for it |
| Docs.ShortRowAbortsBatch | product_search_python/docs.py:488-499 | a CSV row whose pid, name or price is `None`, after rows that built or were skipped, ends the whole batch with that row's exception and no change to the world |
| Docs.RatingsBuckets | product_search_python/docs.py:294-321 | every result is counted in exactly one bucket, the truncated average rating with a missing rating counting as 0 |
| Docs.BucketCountsBounded | product_search_python/docs.py:317-320 | no bucket holds more than all the results, and one holds them all exactly when every result falls in it |
| Docs.RatingsLinks | product_search_python/docs.py:323-347 | no links when there are no buckets; otherwise one link per rating from 1 to 5, in order, each with its bucket's count and an upper bound of rating + 1 below 5 |
| Docs.DictOf | product_search_python/docs.py:218-224 | the sort dictionary has an entry for every option's key, and the last option given for a key wins |
| Docs.SortDictContents | product_search_python/docs.py:165-188 | the sort dictionary maps exactly the five sortable fields to their sort expressions |
| Docs.SortMenuMatchesDict | product_search_python/docs.py:165-224 | every menu entry but relevance has a sort expression on its own field, the sortable fields are the core fields other than pid and description, and rating and date sort descending while the others sort ascending |
| Utils.IntClamp | product_search_python/utils.py:29-40 | clamping keeps a value inside the range unchanged and moves one outside it to the nearer bound; an empty range gives the lower bound |
| Utils.FoldRating | product_search_python/utils.py:49-55 | folding in a rating adds one review, flags the product for reindexing and changes nothing else but the average |
| Utils.FoldRatingTotal | product_search_python/utils.py:51-53 | after folding in a rating, average times review count equals the old total plus the new rating |
| Utils.UpdateAverageRating | product_search_python/utils.py:42-74 | a fresh review of an existing product is marked added, its product's average folds in its rating, and a reindex task is recorded unless in batch mode; in every other case nothing changes and nothing is recorded; the index is never touched |
| Utils.UpdateAverageRatingIdempotent | product_search_python/utils.py:42-74 | a redelivered rating task changes nothing and records nothing |
| Utils.FoldRatingsTotal | product_search_python/utils.py:51-53 | after folding in a list of ratings, the count grows by the list's length and average times count equals the old total plus the ratings' sum |
| Utils.RunningAverageIsMean | product_search_python/utils.py:51-53 | starting from no reviews, the running average after any non-empty list of ratings is their arithmetic mean |
| Utils.AverageStaysInRange | product_search_python/utils.py:51-53 | an average of ratings between 1 and 5 stays between 1 and 5 however many ratings are folded in |
| Utils.FoldStep | product_search_python/utils.py:51-53 | one fold of a rating between 1 and 5 keeps an in-range average in range |
| Utils.ApplyAllMarksReviews | product_search_python/utils.py:42-65 | applying the rating tasks of distinct fresh reviews of one product marks exactly those reviews as added and leaves every other review unchanged |
| Utils.ApplyAllKeepsIndex | product_search_python/utils.py:42-65 | rating tasks never touch the search index |
| Utils.ApplyAllRecordsTasks | product_search_python/utils.py:55-65 | in immediate mode each applied review records one reindex task for its product; batch mode records none |
| Utils.ApplyAllFoldsRatings | product_search_python/utils.py:42-65 | applying the rating tasks of a product's fresh reviews folds exactly their ratings, in order, into that product |
| Utils.SubmittedReviewsAverage | product_search_python/utils.py:42-65 | after the first reviews of a product have been applied, its average is the mean of their ratings and its count is their number |
| Utils.FourThenOne | product_search_python/utils.py:51-53 | a first rating of 4 gives an average of 4.0, and a following rating of 1 gives 2.5 over two reviews |
| Reindex.SweepStep | product_search_python/models.py:140-151 | a clean or missing product is skipped; a flagged product is cleared and its document collected with the new rating exactly when its document can be fetched; otherwise the step raises OperationFailedError |
| Reindex.Sweep | product_search_python/models.py:131-155 | the sweep collects one document per product it clears and never adds or removes products or touches reviews and categories |
| Reindex.SweepOnlyClearsFlags | product_search_python/models.py:140-151 | the sweep changes no product field except the reindex flag, never sets a flag, and leaves products outside the key list unchanged |
| Reindex.SweepCollects | product_search_python/models.py:140-151 | each collected document belongs to a listed product that was flagged, and carries that product's average rating |
| Reindex.SweepCollectsOnce | product_search_python/models.py:140-151 | the sweep collects each product at most once, even when the key list repeats it |
| Reindex.SweepCompletes | product_search_python/models.py:140-151 | when the sweep raises nothing, every listed product ends unflagged and every listed flagged product was collected |
| Reindex.SweepFails | product_search_python/models.py:140-151 | the sweep raises only an OperationFailedError, only when some listed flagged product has no document, and always when that happens |
| Reindex.UpdateProdDocsWithNewRating | product_search_python/models.py:131-155 | the cleared flags are stored whatever happens; the collected documents are put only when the sweep raised nothing and the add went through, and a failed add is swallowed and leaves the index as it was |
| Reindex.SweepConverges | product_search_python/models.py:131-155 | when every listed flagged product has its document and the add goes through, the sweep raises nothing, leaves every listed product unflagged, and indexes for each flagged product a document whose rating reads its average |
| Reindex.SweepFailedAddLeavesStale | product_search_python/models.py:131-155 | when the sweep's add fails, nothing is raised and the index is unchanged, yet every listed product ends unflagged, so the stale documents are never rewritten |
| Reindex.UpdateProdDocWithNewRating | product_search_python/models.py:173-188 | a missing product is an AttributeError with nothing changed; otherwise the flag is cleared, the task succeeds exactly when the document can be fetched, and the document is rewritten with the average exactly when it was fetched and the add went through |
| Reindex.SingleReindexSetsRating | product_search_python/models.py:173-188 | after a reindex whose add goes through, the product is clean, the index stays well formed, and the document's rating reads the product's average |
| Reindex.SingleReindexFailedAdd | product_search_python/models.py:173-188 | when the reindex's add fails, nothing is raised and the product ends unflagged while its document keeps its old content |
| Reindex.SetFirstFieldIdempotent | product_search_python/docs.py:61-67 | setting the same field twice gives the same document as setting it once |
| Reindex.SingleReindexIdempotent | product_search_python/models.py:173-188 | running a reindex task twice gives the same world as running it once |
| Handlers.OffsetReadsBack | product_search_python/handlers.py:274-278 | a rendered offset parses back to itself |
| Handlers.CategoryClause | product_search_python/handlers.py:267-272 | a category restriction is added exactly when a category is chosen; it is a space, the category field's name and a colon, then the category between double quotes, so the category reads back from between the quotes |
| Handlers.RatingFilterReadsBack | product_search_python/handlers.py:415-421 | a rendered integer rating gives a filter exactly when it lies between 1 and 5, and the filter is that rating |
| Handlers.PlanKeepsFilters | product_search_python/handlers.py:263-288 | stripping the assembled query never cuts into its filters: a chosen category's restriction and a valid rating's clause both appear in the query sent to the index |
| Handlers.FilterMatchesBucket | product_search_python/handlers.py:422-428 | the rating clause for `n` selects exactly the averages that fall in sidebar bucket `n` |
| Handlers.RatingClauseExamples | product_search_python/handlers.py:424-428 | a rating below the maximum gives a half-open band clause, and the maximum rating an equality clause |
| Handlers.MenuSortsAreComplete | product_search_python/handlers.py:376-407 | every key the sort menu offers sorts on two different existing expressions, the first on that key |
| Handlers.PaginationLinks | product_search_python/handlers.py:434-455 | a previous link exists exactly when the offset is at least one page, and a next link exactly when the next page stays within the offset limit, this page was full and more results were found |
| Handlers.PrevUndoesNext | product_search_python/handlers.py:434-455 | following the next link and then the previous link returns to the same offset |
| Handlers.NextStaysInBounds | product_search_python/handlers.py:434-455 | a next link never points beyond the offset limit or past the results found |
| Handlers.ParseReviewParams | product_search_python/handlers.py:111-124 | a review without a comment gets the default comment and one without a rating gets 5 |
| Handlers.CheckReview | product_search_python/handlers.py:137-164 | a review is accepted exactly when it has a pid, a comment and an integer rating from 1 to 5; a missing pid and a missing comment are told apart; a bad rating is reported with the rating cleared |
| Handlers.Username | product_search_python/handlers.py:184-187 | an anonymous user is "anonymous"; otherwise the username is the part of the nickname before the first `@`, or the whole nickname when it has none |
| Handlers.CreateAndAddReview | product_search_python/handlers.py:178-210 | for an unknown product the request aborts with nothing changed; otherwise the review is stored unfolded under the allocated id and exactly one rating task is deferred with it |
| Handlers.CreateReview | product_search_python/handlers.py:130-176 | an invalid review or unknown product changes nothing; a valid one stores an unfolded review with the checked rating for the product, leaves products unchanged and defers one rating task |
| AdminHandlers.ImportBatchSize | product_search_python/config.py:45-47 | the import batch size lies between 1 and 100 |
| AdminHandlers.ImportBatches | product_search_python/admin_handlers.py:116-125 | the batches concatenate back to the rows, every batch but the last is full, the last is non-empty, and there are as many batches as the row count divided by the batch size, rounded up |
| AdminHandlers.Columns | product_search_python/admin_handlers.py:70-83 | a CSV line's named cells are keyed by every column name, a column past the line's end reads `None`, and a later column of the same name wins |
| AdminHandlers.DictRow | product_search_python/admin_handlers.py:70-83 | a line becomes its named cells plus the cells beyond the last column, which are kept as surplus |
| AdminHandlers.ReadRows | product_search_python/admin_handlers.py:70-83 | the reader yields no more rows than lines |
| AdminHandlers.ReadRowsLineByLine | product_search_python/admin_handlers.py:70-83 | without empty lines, the reader yields one row per line, in order |
| AdminHandlers.EmptyLineSkipped | product_search_python/admin_handlers.py:70-83 | an empty line yields no row, wherever it stands |
| AdminHandlers.FullLineReadsBack | product_search_python/admin_handlers.py:70-83 | with distinct column names, a line with one cell per column has no surplus and reads back each cell under its column |
| AdminHandlers.ShortBookLine | product_search_python/admin_handlers.py:70-76 | a books line that stops after the category reads a `None` price, which aborts its batch |
| AdminHandlers.BookColumnsCoverSchema | product_search_python/admin_handlers.py:70-83 | every field of the books schema is a column of the books file, and every field of the televisions schema a column of the televisions file |
| AdminHandlers.ImportAll | product_search_python/admin_handlers.py:108-125 | importing never touches reviews or categories, and importing nothing changes nothing |
| AdminHandlers.ImportOneBatch | product_search_python/admin_handlers.py:116-125 | importing one batch is one batch build, its exception reported |
| AdminHandlers.ImportAllAppend | product_search_python/admin_handlers.py:116-125 | importing two runs of batches is importing the first and then, if that raised nothing, the second from where the first left the world |
| AdminHandlers.ImportData | product_search_python/admin_handlers.py:108-125 | importing no rows changes nothing; rows that fit in one batch are exactly one batch build with the only reply; one reply is taken per batch; reviews and categories are never touched |
| AdminHandlers.DirtyKeys | product_search_python/admin_handlers.py:172-183 | the keys swept are exactly the flagged products, each once |
| AdminHandlers.UpdateRatings | product_search_python/admin_handlers.py:172-183 | the ratings sweep keeps reviews and the set of products, and when it succeeds no product is left flagged |
| AdminHandlers.FormHasEveryCategoryField | product_search_python/admin_handlers.py:243-257 | every field of every category schema is a key of the product form |
| AdminHandlers.FormKeysListed | product_search_python/admin_handlers.py:243-257 | the product form's keys are the five core keys plus the eight category fields |
| AdminHandlers.EncodeQuery | product_search_python/admin_handlers.py:280-283 | encoding query values succeeds exactly when every value is ASCII and keeps them; otherwise it raises UnicodeEncodeError |
| AdminHandlers.Redirect | product_search_python/admin_handlers.py:279-283 | the redirect to a product page succeeds exactly when its pid, name and category are ASCII, and then carries those three values; otherwise it raises UnicodeEncodeError |
| AdminHandlers.CreateProduct | product_search_python/admin_handlers.py:273-287 | the product is built from the form's unicode values; a built product redirects to its page exactly when its pid, name and category are ASCII, and otherwise raises UnicodeEncodeError with the product already stored; an application error shows the form with its message; any other exception escapes |
| AdminHandlers.CreatedProductPage | product_search_python/admin_handlers.py:273-287 | a product page shows the stripped submitted pid and the submitted category |
| AdminHandlers.NonAsciiNameStoredThenRaises | product_search_python/admin_handlers.py:273-287 | a product named with a non-ASCII character is stored and indexed, and then the redirect raises UnicodeEncodeError, which the handler does not catch |
| Deferred.DeleteCascade | product_search_python/admin_handlers.py:190-226 | once a deletion's deferred tasks have run and the document delete went through, the product, its document and all its reviews are gone, and every other product, review and document is unchanged |
| Deferred.DeleteFailedRemovalLeavesOrphan | product_search_python/admin_handlers.py:207-214 | when the deferred document delete fails, the product and its reviews are gone but the index is unchanged and still holds the product's document |
| Deferred.ImmediateReindex | product_search_python/utils.py:55-65 | in immediate mode a fresh review defers one reindex, and running it with its add going through leaves the product clean with the folded average and its document reading that average, other reviews unchanged |
| Deferred.ReindexApplied | product_search_python/models.py:173-188 | running a reindex task on an indexed product leaves it indexed and clean, its reviews unchanged, and its document reading its average |
| Deferred.RunAllAppend | product_search_python/utils.py:62-65 | running two task lists one after the other is running their concatenation |
| Deferred.FourThenOneEndToEnd | product_search_python/models.py:173-188 | with two fresh reviews rated 4 and then 1 and their reindex tasks, the product and its document read 4.0 after the first and 2.5 over two reviews after the second |
| Deferred.FoldBoth | product_search_python/utils.py:42-65 | folding reviews rated 4 and 1 of a product with no reviews, before any reindex, records one reindex each and gives an average of 2.5 |
| Deferred.DrainTwice | product_search_python/models.py:173-188 | running two reindexes of an indexed product leaves it clean and its document reading its average |
| Deferred.FoldBothThenDrain | product_search_python/tests/test_search.py:124-168 | folding reviews rated 4 and 1 before either recorded reindex runs, then running both, leaves the product clean at 2.5 over two reviews and its document reading 2.5 |
| TextSearchServlet.GetOnlyField | java/src/com/google/appengine/demos/search/TextSearchServlet.java:154-160 | a field's text is read when exactly one field has that name, and the default is returned otherwise |
| TextSearchServlet.TokensSpellInput | java/src/com/google/appengine/demos/search/TextSearchServlet.java:135-142 | the tag tokens, concatenated, are the tag string with its commas removed |
| TextSearchServlet.TokensOfJoin | java/src/com/google/appengine/demos/search/TextSearchServlet.java:135-142 | joining non-empty comma-free tags with commas and tokenising gives the tags back |
| TextSearchServlet.TokensSkipEmptyRuns | java/src/com/google/appengine/demos/search/TextSearchServlet.java:135-142 | leading, trailing and repeated commas produce no empty tags |
| TextSearchServlet.AddDocument | java/src/com/google/appengine/demos/search/TextSearchServlet.java:114-152 | missing or empty content adds nothing; a rating that does not parse escapes as NumberFormatException; otherwise the document has content, email, domain, date, rating (1 by default) and tag fields, and the message reports the put's success or failure |
| TextSearchServlet.AddedDocumentReadsBack | java/src/com/google/appengine/demos/search/TextSearchServlet.java:114-160 | an added document reads back the submitted content, the user's email and domain, and has one publication date |
| TextSearchServlet.FindFailedIds | java/src/com/google/appengine/demos/search/TextSearchServlet.java:258-271 | the failed ids are computed by walking ids and results in step, and there are no more of them than ids or results |
| TextSearchServlet.FailedIdsMembership | java/src/com/google/appengine/demos/search/TextSearchServlet.java:258-271 | an id is reported exactly when it is paired with a non-OK result |
| TextSearchServlet.FailedIdsExtremes | java/src/com/google/appengine/demos/search/TextSearchServlet.java:258-271 | all-OK results report no id, and all-failed results covering every id report all of them |
| TextSearchServlet.ParseSearchParams | java/src/com/google/appengine/demos/search/TextSearchServlet.java:166-179 | a missing query searches for everything, and the limit is the submitted integer when it parses and 10 otherwise |
| TextSearchServlet.FirstExpression | java/src/com/google/appengine/demos/search/TextSearchServlet.java:202-211 | the expression scan returns the first expression with the given name, none before it having that name, and reports none when no expression has it |
| TextSearchServlet.Author | java/src/com/google/appengine/demos/search/TextSearchServlet.java:197-199 | a result can be attributed exactly when its email and domain fields are each single text fields or absent; each then reads its field's text, or `user` and `example.com` when absent |
| TextSearchServlet.AddedDocumentAuthor | java/src/com/google/appengine/demos/search/TextSearchServlet.java:114-152 | a document added by a user is attributed back to that same user when it is found |
| TextSearchServlet.SearchOutcome | java/src/com/google/appengine/demos/search/TextSearchServlet.java:225-228 | a search has an outcome message exactly when it failed |

Members whose contracts only follow their own definitions have no row. Their
meaning is stated by the lemmas about them:

- `Errors.Raise` and `Errors.CaughtMessage`: Errors.MessageThroughBase and Errors.SubclassesDisjoint.
- `Categories.Lookup` and `Models.GetCategoryInfo`: Categories.TreeMatchesRegistry and Models.CategoryInfoMatchesRegistry.
- `Models.Create` and `Models.UpdateCore`: Docs.IndexAndStore, Docs.BuildProductIndexesDocument and Docs.BatchStoresKeptRows.
- `Docs.GetDoc` and `Docs.BuildProduct`: Docs.UpdateRatingInDoc, Docs.BuildProductIndexesDocument and Docs.EmptyParamsRaise.
- `Docs.Outcomes` and `Docs.WithDocIds`: Docs.Collect, Docs.BatchStoresKeptRows and Docs.ShortRowAbortsBatch.
- `Docs.SortMenu`, `Handlers.BuildSort`: Docs.SortMenuMatchesDict and Handlers.MenuSortsAreComplete.
- `Handlers.Get` and `Handlers.ParseOffset`: Handlers.OffsetReadsBack and Text.ParseIntMeans.
- `Handlers.RatingFilter` and `Handlers.RatingsInfo`: Handlers.RatingFilterReadsBack and Handlers.FilterMatchesBucket.
- `Handlers.BuildQuery` and `Handlers.ProductSearchPlan`: Handlers.PlanKeepsFilters.
- `AdminHandlers.DeleteProduct` and `Deferred.Run`: Deferred.DeleteCascade, Deferred.DeleteFailedRemovalLeavesOrphan, Deferred.ImmediateReindex and Deferred.ReindexApplied.
- `AdminHandlers.DefaultParams`: AdminHandlers.FormHasEveryCategoryField and AdminHandlers.FormKeysListed.
- `TextSearchServlet.TagFields`: TextSearchServlet.TokensOfJoin and TextSearchServlet.TokensSkipEmptyRuns.
- `TextSearchServlet.SetupUser`: TextSearchServlet.AddedDocumentAuthor.
- `TextSearchServlet.RemoveDocuments`: TextSearchServlet.FailedIdsMembership.
- `TextSearchServlet.DisplayedContent`: TextSearchServlet.FirstExpression.
- `TextSearchServlet.GetAction` and `TextSearchServlet.DoGet` only dispatch to the members above.

## Left out

- Floating-point parsing covers only plain decimals (sign, digits, one point). Exponents, `inf` and `nan` are left out, and prices and ratings are exact reals rather than binary floats.
- Integer and float parsing accept ASCII digits only, not the other Unicode decimal digits that Python 2.7 reads from a unicode string.
- Text.ParseJavaInt: accepts ASCII digits only. Java's `Integer.parseInt` reads each character with `Character.digit(ch, 10)`, which also accepts the other Unicode decimal digits, such as "\uFF13" or "\u0663" for 3. In the model such a rating makes `TextSearchServlet.AddDocument` raise `NumberFormatException` where Java adds the document, and `TextSearchServlet.ParseSearchParams` falls back to the limit 10 where Java uses the digit's value (TextSearchServlet.java:120-124, 175). The Unicode digit tables are not part of this model.
- Concurrency, transaction retries and the at-least-once delivery of deferred tasks are left out. Redelivery is covered only by the idempotence lemmas. Cross-group transactions are one atomic step.
- The search service's internals are left out: query parsing, ranking, snippets, `number_found`, `get_range` paging, and which documents a query string matches. A search result is a parameter.
- Deleting the index's documents in bulk (`deleteAllInIndex`) is left out, as are the handlers that only render stored data: `ShowProductHandler` and `ShowReviewsHandler`.
- The branch of `CreateProductHandler.parseParams` that pre-fills the form from an existing document (admin_handlers.py:239-242) is left out. Only the fresh-product form is modelled.
- sortoptions.py, stores.py and the store-location handler are left out. So is the plumbing in base_handler.py, main.py and admin.py.
- Templates and link text are left out; links are represented by their numbers. URL encoding is modelled only for `createProduct`'s redirect. The search handlers' other `urllib.urlencode` calls (handlers.py:149-166, 236, 444-451, 483, and docs.py:345 in `generateRatingsLinks`) can fail in the same way on a non-ASCII unicode value, and that failure is not modelled.
- A failed `put` of several documents is modelled as indexing none of them. The service can index some documents of a failed batch, and that partial outcome is left out.
- Field values are stored as given. The search API's decoding of byte-string values as UTF-8, which rejects bytes that are not UTF-8, is left out.
- The search loop over the hits is left out. `TextSearchServlet.Author` gives `None` where `getOnlyField` throws, a RuntimeException that the loop's `catch` turns into a failure message (TextSearchServlet.java:225-228).
- Which document ids the service rejects as invalid is left to the delete reply parameter.
- `_buildQuery`'s returned fields, snippeted fields and its computed `adjusted_price` expression are left out.
- The search result's derived document (content, nickname, published date) is left out. Only its content and author are modelled.
- The clock, `uuid` and the id allocator are left out; the date, the fresh pid and the review id are parameters.
- A `User`'s nickname is an input rather than derived from the email.
- Docs.BuildProductBatch: returns the stored entities where the Python method returns `None`. Callers ignore the value, so only the world it leaves matters.
- Reindex.SweepCollects: states which products' documents are collected and what each holds, but not that they are collected in key order.
- AdminHandlers.DirtyKeys: states which keys are swept and that none repeats, not the datastore query's key order.
- Models.BuildCategory: a node without a name adds nothing to the categories. In Python the warning for such a node names an undefined variable and raises `NameError` (models.py:69-70). The static category tree gives every node a name, so that branch is never taken.
- AdminHandlers.ImportAll: its own contract states only that reviews and categories are untouched and that an empty import changes nothing. What one batch does is AdminHandlers.ImportOneBatch, and how batches compose is AdminHandlers.ImportAllAppend.

Places where the code behaves differently from its comments or from what the design suggests; the model follows the code:

- `_buildProductFields` walks each category's schema with `iteritems()` (docs.py:395). The order is CPython 2.7's iteration order of the dict literals in categories.py, not the order they are written in: books give publisher, title, isbn, pages, author, and televisions give brand, tv_type, size. That order decides which field's exception is raised when several fail, and the order of the category fields in the document. `Categories.ProductDict` lists the fields in that order. `createProduct`'s redirect query is encoded in the same way: category, pname, pid.
- `generateRatingsBuckets` uses a `defaultdict`, so a missing bucket reads 0. The `KeyError` branch in `generateRatingsLinks` (docs.py:337-338) can never run.
- `_buildProductFields` logs an unknown category by reading `params['category_name']`. That key was consumed as a named argument, so the call raises `KeyError('category_name')` instead of carrying on (docs.py:421-425).
- An unknown sort key is not rejected: its first sort expression is `None` (handlers.py:395).
- In the batch ratings sweep, a product whose document cannot be fetched raises. That aborts the rest of the sweep and skips the final add. The flags cleared before it stay cleared, because they were stored in their own transactions (docs.py:248, models.py:146).
- `Product.add` turns a `search.Error` into a `None` result (docs.py:127-133). `buildProduct` then fails with a `TypeError` when it indexes into `None`. In `buildProductBatch` the failure comes from `len(None)`, so its own `except search.Error` never runs. Where the result is discarded (models.py:155, docs.py:258), a failed add is silent: the reindex flags are cleared and the documents stay stale. `removeDocById` swallows a failed delete in the same way (docs.py:119-124), which leaves the deleted product's document in the index.
- `updateProdDocWithNewRating` rewrites the document even when the product is not flagged. For a missing product it raises `AttributeError` (models.py:173-188).
- `updateAverageRating` on a review that was already added returns without writing. For a fresh review whose product is missing, the `AttributeError` is swallowed and nothing is written. Both cases are modelled as "no change, no task" (utils.py:42-74).
- `createProduct` builds the redirect with `urllib.urlencode` after the product is stored and indexed. A non-ASCII name from the form makes `str()` raise `UnicodeEncodeError`, which `except errors.Error` does not catch, so the product exists but the request fails (admin_handlers.py:277-287). A non-ASCII pid or category never gets that far: the pid fails the id check and raises `OperationFailedError` (docs.py:440-441), and an unknown category raises `KeyError('category_name')` (docs.py:421-425), both before anything is stored. A non-ASCII value of a text category field fails earlier, in `str(v)`, before anything is stored (docs.py:411).
- `csv.DictReader` gives `None` for the columns a short line lacks, and `None` for the key of the cells a long line has beyond its columns. A short line's `None` pid, name or price raises an `AttributeError` or `TypeError` in `_normalizeParams`, and a long line fails when its `None` key reaches `_createDocument(**params)`. Neither exception is an `OperationFailedError`, so either line aborts its whole batch (docs.py:488-497, admin_handlers.py:70-83).

=== FILE: admin_handlers.dfy ===
/**
 * The administrative operations (admin_handlers.py): importing product rows
 * in bounded batches, the batch ratings update, deleting a product, and the
 * default parameters of the product creation form.
 */
module AdminHandlers {
  import opened Optional
  import opened Errors
  import opened Models
  import Search
  import Categories
  import Config
  import Utils
  import Docs
  import Reindex
  import Text

  /** `importData`'s batch size: the configured size clamped to 1..100. */
  function ImportBatchSize(): (n: int)
    ensures 1 <= n <= 100
    ensures n == Config.IMPORT_BATCH_SIZE
  {
    Utils.IntClamp(Config.IMPORT_BATCH_SIZE, 1, 100)
  }

  /** The rows of the batches, in order. */
  function Flatten<T>(batches: seq<seq<T>>): seq<T>
    decreases |batches|
  {
    if batches == [] then [] else Flatten(batches[..|batches| - 1]) + batches[|batches| - 1]
  }

  /** How many batches `n` rows are cut into: `n` divided by the batch size, rounded up. */
  function BatchCount(n: nat): nat {
    (n + ImportBatchSize() - 1) / ImportBatchSize()
  }

  /**
   * The loop of `importData`: rows are gathered until a batch is full, and the
   * full batch is handed on when the next row arrives; what remains at the end
   * is handed on if it is not empty. The batches partition the rows in order,
   * every batch but the last is full, and the last holds at least one row.
   */
  method ImportBatches<T>(rows: seq<T>) returns (batches: seq<seq<T>>)
    ensures Flatten(batches) == rows
    ensures rows == [] <==> batches == []
    ensures forall j :: 0 <= j < |batches| - 1 ==> |batches[j]| == ImportBatchSize()
    ensures batches != [] ==> 1 <= |batches[|batches| - 1]| <= ImportBatchSize()
    ensures |batches| == BatchCount(|rows|)
  {
    var batchsize := ImportBatchSize();
    var pending: seq<T> := [];
    batches := [];
    var i := 0;
    while i < |rows|
      invariant 0 <= i <= |rows|
      invariant Flatten(batches) + pending == rows[..i]
      invariant forall j :: 0 <= j < |batches| ==> |batches[j]| == batchsize
      invariant i == 0 <==> pending == []
      invariant i > 0 ==> 1 <= |pending| <= batchsize
      invariant i == 0 ==> batches == []
      invariant i == |batches| * batchsize + |pending|
    {
      if |pending| == batchsize {
        assert Flatten(batches + [pending]) == Flatten(batches) + pending by {
          assert (batches + [pending])[..|batches|] == batches;
        }
        batches := batches + [pending];
        pending := [rows[i]];
      } else {
        pending := pending + [rows[i]];
      }
      assert rows[..i + 1] == rows[..i] + [rows[i]];
      i := i + 1;
    }
    assert rows[..i] == rows;
    if pending != [] {
      assert Flatten(batches + [pending]) == Flatten(batches) + pending by {
        assert (batches + [pending])[..|batches|] == batches;
      }
      batches := batches + [pending];
    }
  }

  /** The columns `initData` reads the books sample file with. */
  const BookColumns: seq<string> := ["pid", "name", "category", "price", "publisher", "title", "pages", "author", "description", "isbn"]

  /** The columns `initData` reads the televisions sample file with. */
  const TelevisionColumns: seq<string> := ["pid", "name", "category", "price", "size", "brand", "tv_type", "description"]

  /** The `i`-th cell of a line, `None` past its end (`DictReader`'s `restval`). */
  function Cell(cells: seq<string>, i: nat): Option<string> {
    if i < |cells| then Some(cells[i]) else None
  }

  /** No later column shares the name of column `i`. */
  predicate LastColumn(names: seq<string>, i: int)
    requires 0 <= i < |names|
  {
    forall j :: i < j < |names| ==> names[j] != names[i]
  }

  /** `dict(zip(names, cells))` padded with `None`: every column name, a later column overriding an earlier one of the same name. */
  function Columns(names: seq<string>, cells: seq<string>): (m: map<string, Option<string>>)
    ensures forall k :: k in m <==> k in names
    ensures forall i :: 0 <= i < |names| && LastColumn(names, i) ==> m[names[i]] == Cell(cells, i)
    decreases |names|
  {
    if names == [] then map[]
    else
      var n := |names| - 1;
      ColumnsStep(names, cells);
      Columns(names[..n], cells)[names[n] := Cell(cells, n)]
  }

  /** The columns before the last keep their cells when the last column is added. */
  lemma ColumnsStep(names: seq<string>, cells: seq<string>)
    requires names != []
    ensures var n := |names| - 1;
      && (forall k :: k in names <==> k in names[..n] || k == names[n])
      && forall i :: 0 <= i < n && LastColumn(names, i) ==>
           names[i] != names[n] && Columns(names[..n], cells)[names[i]] == Cell(cells, i)
    decreases |names|, 0
  {
    var n := |names| - 1;
    assert names == names[..n] + [names[n]];
    forall i | 0 <= i < n && LastColumn(names, i)
      ensures Columns(names[..n], cells)[names[i]] == Cell(cells, i)
    {
      assert names[..n][i] == names[i];
      assert LastColumn(names[..n], i);
    }
  }

  /** `csv.DictReader.next` on one line: the named columns, and the cells past them under the key `None`. */
  function DictRow(names: seq<string>, cells: seq<string>): (r: Docs.Row)
    ensures r.values == Columns(names, cells)
    ensures |cells| <= |names| ==> r.surplus == []
    ensures |cells| > |names| ==> r.surplus == cells[|names|..]
  {
    Docs.Row(Columns(names, cells), if |cells| > |names| then cells[|names|..] else [])
  }

  /** The rows `csv.DictReader` yields: one per line, skipping empty lines. */
  function ReadRows(names: seq<string>, lines: seq<seq<string>>): (rows: seq<Docs.Row>)
    ensures |rows| <= |lines|
    decreases |lines|
  {
    if lines == [] then []
    else if lines[0] == [] then ReadRows(names, lines[1..])
    else [DictRow(names, lines[0])] + ReadRows(names, lines[1..])
  }

  /** Without empty lines, every line is one row, in order. */
  lemma {:induction false} ReadRowsLineByLine(names: seq<string>, lines: seq<seq<string>>)
    requires forall i :: 0 <= i < |lines| ==> lines[i] != []
    ensures |ReadRows(names, lines)| == |lines|
    ensures forall i :: 0 <= i < |lines| ==> ReadRows(names, lines)[i] == DictRow(names, lines[i])
    decreases |lines|
  {
    if lines != [] {
      var rest := ReadRows(names, lines[1..]);
      ReadRowsLineByLine(names, lines[1..]);
      assert ReadRows(names, lines) == [DictRow(names, lines[0])] + rest;
      forall i | 0 <= i < |lines|
        ensures ReadRows(names, lines)[i] == DictRow(names, lines[i])
      {
        if i > 0 {
          assert lines[i] == lines[1..][i - 1];
        }
      }
    }
  }

  /** An empty line yields no row. */
  lemma {:induction false} EmptyLineSkipped(names: seq<string>, before: seq<seq<string>>, after: seq<seq<string>>)
    ensures ReadRows(names, before + [[]] + after) == ReadRows(names, before + after)
    decreases |before|
  {
    var with := before + [[]] + after;
    var without := before + after;
    if before == [] {
      assert with[0] == [] && with[1..] == after;
      assert without == after;
    } else {
      assert with[0] == before[0] && with[1..] == before[1..] + [[]] + after;
      assert without[0] == before[0] && without[1..] == before[1..] + after;
      EmptyLineSkipped(names, before[1..], after);
    }
  }

  /** A line with a cell for every column, and no more, reads back each cell under its column's name. */
  lemma FullLineReadsBack(names: seq<string>, cells: seq<string>)
    requires |cells| == |names|
    requires forall i, j :: 0 <= i < j < |names| ==> names[i] != names[j]
    ensures DictRow(names, cells).surplus == []
    ensures forall i :: 0 <= i < |names| ==> DictRow(names, cells).values[names[i]] == Some(cells[i])
  {
    assert forall i :: 0 <= i < |names| ==> LastColumn(names, i);
  }

  /** A column past the end of a short line reads as `None`. */
  lemma MissingCell(names: seq<string>, cells: seq<string>, i: int)
    requires 0 <= i < |names| && |cells| <= i && LastColumn(names, i)
    ensures names[i] in DictRow(names, cells).values
    ensures DictRow(names, cells).values[names[i]] == None
  {
  }

  /**
   * A books line that stops after the category has no price: `None`, which
   * `buildProductBatch` does not survive (see `Docs.ShortRowAbortsBatch`).
   */
  lemma ShortBookLine(pid: string, name: string, category: string)
    ensures Docs.NoneReached(DictRow(BookColumns, [pid, name, category]).values)
  {
    var names := BookColumns;
    var cells := [pid, name, category];
    assert names[0] == "pid" && names[1] == "name" && names[2] == "category" && names[3] == "price";
    assert LastColumn(names, 0) && LastColumn(names, 1) && LastColumn(names, 3);
    var m := DictRow(names, cells).values;
    assert m[names[0]] == Cell(cells, 0) == Some(pid);
    assert m[names[1]] == Cell(cells, 1) == Some(name);
    assert names[2] in names;
    MissingCell(names, cells, 3);
  }

  /** Every books column is a core parameter or a field of the books schema, and every schema field has a column. */
  lemma BookColumnsCoverSchema()
    ensures forall i :: 0 <= i < |Categories.ProductDict["books"]| ==> Categories.ProductDict["books"][i].name in BookColumns
    ensures forall i :: 0 <= i < |Categories.ProductDict["hd televisions"]| ==>
      Categories.ProductDict["hd televisions"][i].name in TelevisionColumns
  {
    Categories.BooksSchema();
    Categories.TelevisionsSchema();
  }

  /**
   * The batch calls of `importData`, one after another with the index's reply
   * to each batch's add; an exception ends the import.
   */
  function ImportAll(w: World, batches: seq<seq<Docs.Row>>, today: int, replies: seq<Search.PutReply>)
    : (r: (World, Option<Exception>))
    requires |replies| == |batches|
    ensures r.0.store.reviews == w.store.reviews && r.0.store.categories == w.store.categories
    ensures batches == [] ==> r == (w, None)
    decreases |batches|
  {
    if batches == [] then (w, None)
    else
      var first := Docs.BuildProductBatch(w, batches[0], today, replies[0]);
      if first.1.Raised? then (first.0, Some(first.1.exc))
      else ImportAll(first.0, batches[1..], today, replies[1..])
  }

  /** Batches of at least one row each hold at least one row per batch, and the first and last together. */
  lemma {:induction false} FlattenLength<T>(batches: seq<seq<T>>)
    requires forall j :: 0 <= j < |batches| ==> |batches[j]| >= 1
    ensures batches != [] ==> |Flatten(batches)| >= |batches[0]| + |batches| - 1
    ensures |batches| >= 2 ==> |Flatten(batches)| >= |batches[0]| + |batches[|batches| - 1]|
    decreases |batches|
  {
    if batches != [] {
      var n := |batches| - 1;
      var front := batches[..n];
      assert forall j :: 0 <= j < n ==> front[j] == batches[j];
      FlattenLength(front);
      assert Flatten(batches) == Flatten(front) + batches[n];
      if n == 0 {
        assert Flatten(front) == [];
      }
    }
  }

  /**
   * `importData`: the rows cut into batches, each batch built in turn, with
   * the index's reply to each batch's add taken in order from `replies`, one
   * reply per batch.
   * Nothing to import changes nothing, and rows that fit in one batch are one
   * `buildProductBatch`.
   */
  method ImportData(w: World, rows: seq<Docs.Row>, today: int, replies: seq<Search.PutReply>)
    returns (r: (World, Option<Exception>))
    requires |replies| == BatchCount(|rows|)
    ensures rows == [] ==> r == (w, None)
    ensures 0 < |rows| <= ImportBatchSize() ==>
      var built := Docs.BuildProductBatch(w, rows, today, replies[0]);
      r == (built.0, if built.1.Raised? then Some(built.1.exc) else None)
    ensures r.0.store.reviews == w.store.reviews && r.0.store.categories == w.store.categories
  {
    var batches := ImportBatches(rows);
    if |rows| <= ImportBatchSize() && rows != [] {
      SingleBatch(rows, batches);
      ImportOneBatch(w, rows, today, replies[0]);
      assert replies == [replies[0]];
    }
    r := ImportAll(w, batches, today, replies);
  }

  /** Rows that fit in one batch are cut into that one batch. */
  lemma SingleBatch<T>(rows: seq<T>, batches: seq<seq<T>>)
    requires 0 < |rows| <= ImportBatchSize()
    requires Flatten(batches) == rows && |batches| == BatchCount(|rows|)
    ensures batches == [rows]
  {
    var k := ImportBatchSize();
    assert 1 <= |rows| <= k == 5;
    assert (|rows| + k - 1) / k == 1;
    assert |batches| == 1;
    assert batches[..0] == [] && Flatten(batches[..0]) == [];
    assert Flatten(batches) == Flatten(batches[..0]) + batches[0];
    assert batches[0] == rows;
  }

  /** One batch alone is exactly one `buildProductBatch`. */
  lemma ImportOneBatch(w: World, batch: seq<Docs.Row>, today: int, reply: Search.PutReply)
    ensures var built := Docs.BuildProductBatch(w, batch, today, reply);
      ImportAll(w, [batch], today, [reply]) == (built.0, if built.1.Raised? then Some(built.1.exc) else None)
  {
    assert [batch][1..] == [] && [reply][1..] == [];
  }

  /**
   * Importing `a + b` is importing `a`, then, if that raised nothing,
   * importing `b` from where `a` left the world.
   */
  lemma {:induction false} ImportAllAppend(w: World, a: seq<seq<Docs.Row>>, b: seq<seq<Docs.Row>>, today: int,
                                           ra: seq<Search.PutReply>, rb: seq<Search.PutReply>)
    requires |ra| == |a| && |rb| == |b|
    ensures var first := ImportAll(w, a, today, ra);
      ImportAll(w, a + b, today, ra + rb) == (if first.1.Some? then first else ImportAll(first.0, b, today, rb))
    decreases |a|
  {
    if a == [] {
      assert a + b == b && ra + rb == rb;
    } else {
      assert (a + b)[0] == a[0] && (a + b)[1..] == a[1..] + b;
      assert (ra + rb)[0] == ra[0] && (ra + rb)[1..] == ra[1..] + rb;
      var first := Docs.BuildProductBatch(w, a[0], today, ra[0]);
      if first.1.Ok? {
        ImportAllAppend(first.0, a[1..], b, today, ra[1..], rb);
      }
    }
  }

  /**
   * `update_ratings`'s selection: the keys of exactly the products marked for
   * reindexing, each once.
   */
  method DirtyKeys(products: map<string, Product>) returns (pkeys: seq<string>)
    ensures forall k :: k in pkeys <==> k in products && products[k].needsReviewReindex
    ensures forall i, j :: 0 <= i < j < |pkeys| ==> pkeys[i] != pkeys[j]
  {
    var remaining := products.Keys;
    pkeys := [];
    while remaining != {}
      invariant remaining <= products.Keys
      invariant forall k :: k in pkeys <==> k in products && k !in remaining && products[k].needsReviewReindex
      invariant forall i, j :: 0 <= i < j < |pkeys| ==> pkeys[i] != pkeys[j]
      decreases |remaining|
    {
      var k :| k in remaining;
      if products[k].needsReviewReindex {
        pkeys := pkeys + [k];
      }
      remaining := remaining - {k};
    }
  }

  /**
   * `update_ratings`: the sweep over every product marked for reindexing. When
   * it raises nothing, no product is left marked.
   */
  method UpdateRatings(w: World, reply: Search.WriteReply) returns (r: (World, Option<Exception>))
    ensures r.0.store.reviews == w.store.reviews && r.0.store.products.Keys == w.store.products.Keys
    ensures r.1.None? ==> forall k :: k in r.0.store.products ==> !r.0.store.products[k].needsReviewReindex
  {
    var pkeys := DirtyKeys(w.store.products);
    r := Reindex.UpdateProdDocsWithNewRating(w, pkeys, reply);
    if r.1.None? {
      Reindex.SweepCompletes(w.store, w.index, pkeys);
      Reindex.SweepOnlyClearsFlags(w.store, w.index, pkeys);
    }
  }

  /**
   * `DeleteProductHandler.post`: with no pid, nothing happens; otherwise one
   * transaction removes the product, if it exists, and records the tasks that
   * delete its reviews and its document.
   */
  function DeleteProduct(w: World, pid: string): (r: (World, seq<Task>))
    ensures pid == "" || pid !in w.store.products ==> r == (w, [])
    ensures pid != "" && pid in w.store.products ==>
      && r.0 == w.(store := w.store.(products := w.store.products - {pid}))
      && r.1 == [PurgeReviews(pid), RemoveProductDoc(pid)]
  {
    if pid == "" || pid !in w.store.products then (w, [])
    else (w.(store := w.store.(products := w.store.products - {pid})), [PurgeReviews(pid), RemoveProductDoc(pid)])
  }

  /** The keys of the creation form: the core keys and every category's field names. */
  function FormKeys(): set<string> {
    {"pid", "name", "description", "category", "price"} + Categories.AllFieldNames()
  }

  /**
   * `CreateProductHandler.parseParams` when no document exists for the pid:
   * a freshly generated pid, and an empty value for every other core key and
   * every category field; each then replaced by the submitted value, if any.
   * Keys the form does not know are ignored.
   */
  function DefaultParams(freshPid: string, request: map<string, string>): (r: map<string, string>)
    ensures r.Keys == FormKeys()
    ensures forall k :: k in r && k in request ==> r[k] == request[k]
    ensures forall k :: k in r && k !in request ==> r[k] == (if k == "pid" then freshPid else "")
  {
    map k | k in FormKeys() :: if k in request then request[k] else if k == "pid" then freshPid else ""
  }

  /** Both categories' fields are on the form. */
  lemma FormHasEveryCategoryField()
    ensures forall c, i :: c in Categories.ProductDict && 0 <= i < |Categories.ProductDict[c]| ==>
      Categories.ProductDict[c][i].name in FormKeys()
  {
  }

  /** The form offers the five core keys and the eight category fields, nothing else. */
  lemma FormKeysListed()
    ensures FormKeys() == {"pid", "name", "description", "category", "price",
                           "publisher", "pages", "author", "title", "isbn", "size", "brand", "tv_type"}
  {
    Categories.BooksSchema();
    Categories.TelevisionsSchema();
    var all := Categories.AllFieldNames();
    assert Categories.FieldNames(Categories.ProductDict["books"]) <= all;
    assert Categories.FieldNames(Categories.ProductDict["hd televisions"]) <= all;
    forall n | n in all
      ensures n in Categories.FieldNames(Categories.ProductDict["books"]) + Categories.FieldNames(Categories.ProductDict["hd televisions"])
    {
      var c, i :| c in Categories.ProductDict && 0 <= i < |Categories.ProductDict[c]| && Categories.ProductDict[c][i].name == n;
    }
  }

  /** Where `createProduct` sends the administrator. */
  datatype CreateOutcome =
    | ProductPage(pid: string, pname: string, category: string)
    | FormWithError(errorMessage: string)

  /**
   * `urllib.urlencode` of the redirect's query: each value is passed through
   * `str`, which cannot encode a non-ASCII character of a unicode value. The
   * values are taken in the order CPython 2.7 iterates the query dict
   * `{'pid', 'pname', 'category'}`: category, name, pid.
   */
  function EncodeQuery(values: seq<string>): (r: Result<seq<string>>)
    ensures r.Ok? <==> forall i :: 0 <= i < |values| ==> Text.IsAscii(values[i])
    ensures r.Ok? ==> r.value == values
    ensures r.Raised? ==> r.exc.UnicodeEncodeError?
    decreases |values|
  {
    if values == [] then Ok([])
    else if !Text.IsAscii(values[0]) then Raised(UnicodeEncodeError(Text.FirstNonAscii(values[0])))
    else
      var rest :- EncodeQuery(values[1..]);
      assert forall i :: 1 <= i < |values| ==> values[i] == values[1..][i - 1];
      Ok([values[0]] + rest)
  }

  /** The redirect to a created product's page, which fails when `urlencode` cannot encode one of its values. */
  function Redirect(pid: string, name: string, category: string): (r: Result<CreateOutcome>)
    ensures r.Ok? <==> Text.IsAscii(pid) && Text.IsAscii(name) && Text.IsAscii(category)
    ensures r.Ok? ==> r.value == ProductPage(pid, name, category)
    ensures r.Raised? ==> r.exc.UnicodeEncodeError?
  {
    var values := [category, name, pid];
    assert values[0] == category && values[1] == name && values[2] == pid;
    match EncodeQuery(values)
    case Ok(_) => Ok(ProductPage(pid, name, category))
    case Raised(e) => Raised(e)
  }

  /**
   * `createProduct`: a built product redirects to its page; an application
   * error re-shows the form with its message; any other exception escapes.
   * The form's values arrive as unicode, so a redirect whose name holds a
   * non-ASCII character fails to encode after the product is stored and
   * indexed. A non-ASCII pid or category fails earlier, in the build, before
   * anything is stored.
   */
  function CreateProduct(w: World, params: map<string, string>, today: int, reply: Search.PutReply)
    : (r: (World, Result<CreateOutcome>))
    ensures var built := Docs.BuildProduct(w, Text.Unicode, Docs.Given(params), today, reply);
      && r.0 == built.0
      && (built.1.Ok? ==> "name" in params && r.1 == Redirect(built.1.value.pid, params["name"], built.1.value.category))
      && (built.1.Raised? && CaughtMessage(built.1.exc, Error).Some? ==>
            r.1 == Ok(FormWithError(built.1.exc.errorMessage)))
      && (built.1.Raised? && CaughtMessage(built.1.exc, Error).None? ==> r.1 == Raised(built.1.exc))
  {
    var built := Docs.BuildProduct(w, Text.Unicode, Docs.Given(params), today, reply);
    match built.1
    case Ok(product) =>
      assert Docs.NormalizeParams(Text.Unicode, Docs.Given(params)).Ok?;
      (built.0, Redirect(product.pid, params["name"], product.category))
    case Raised(e) =>
      match CaughtMessage(e, Error)
      case Some(message) => (built.0, Ok(FormWithError(message)))
      case None => (built.0, Raised(e))
  }

  /**
   * A product the form builds lands on its own page, under the pid it was
   * submitted with (surrounding whitespace stripped), in the submitted category.
   */
  lemma CreatedProductPage(w: World, params: map<string, string>, today: int, reply: Search.PutReply)
    requires KeysMatch(w.store.products)
    requires CreateProduct(w, params, today, reply).1.Ok?
    requires CreateProduct(w, params, today, reply).1.value.ProductPage?
    ensures "pid" in params && "category" in params
    ensures var page := CreateProduct(w, params, today, reply).1.value;
      page.pid == Text.Strip(Text.Unicode, params["pid"]) && page.category == params["category"]
  {
    var built := Docs.BuildProduct(w, Text.Unicode, Docs.Given(params), today, reply);
    assert built.1.Ok?;
    var p := Docs.NormalizeParams(Text.Unicode, Docs.Given(params)).value;
    var d := Docs.CreateDocument(Text.Unicode, p, today).value;
    assert d.docId == p.pid;
  }

  /**
   * A name with a non-ASCII character is stored and indexed, and then the
   * redirect to its page raises `UnicodeEncodeError`, which the handler's
   * `except errors.Error` does not catch.
   */
  lemma NonAsciiNameStoredThenRaises(w: World, params: map<string, string>, today: int, reply: Search.PutReply)
    requires Docs.BuildProduct(w, Text.Unicode, Docs.Given(params), today, reply).1.Ok?
    requires "name" in params && !Text.IsAscii(params["name"])
    ensures var r := CreateProduct(w, params, today, reply);
      && r.0 == Docs.BuildProduct(w, Text.Unicode, Docs.Given(params), today, reply).0
      && r.1.Raised? && r.1.exc.UnicodeEncodeError?
      && CaughtMessage(r.1.exc, Error).None?
  {
  }
}

=== FILE: categories.dfy ===
/**
 * The static category registry (categories.py): the category tree, and for each
 * category the extra document fields its products must carry, with their types.
 */
module Categories {
  import opened Optional

  /** The document field types a category field may have. */
  datatype FieldType = TextType | NumberType

  datatype FieldSpec = FieldSpec(name: string, ftype: FieldType)

  /** A node of the category tree. */
  datatype CategoryNode = CategoryNode(name: string, children: seq<CategoryNode>)

  /**
   * The registry. Python keeps each schema in a dict, and the builder walks it
   * with `iteritems()`, so the order matters: it decides which missing or bad
   * field raises first. Each sequence lists its fields in the order CPython 2.7
   * iterates that dict literal (its string hash without randomisation and its
   * 8-slot open-addressing table give the same order on 32- and 64-bit builds),
   * not in the order the literal is written.
   */
  const ProductDict: map<string, seq<FieldSpec>> := map[
    "hd televisions" := [
      FieldSpec("brand", TextType),
      FieldSpec("tv_type", TextType),
      FieldSpec("size", NumberType)],
    "books" := [
      FieldSpec("publisher", TextType),
      FieldSpec("title", TextType),
      FieldSpec("isbn", TextType),
      FieldSpec("pages", NumberType),
      FieldSpec("author", TextType)]
  ]

  const CTree: CategoryNode :=
    CategoryNode("root", [CategoryNode("books", []), CategoryNode("hd televisions", [])])

  function FieldNames(specs: seq<FieldSpec>): (names: set<string>)
    ensures forall i :: 0 <= i < |specs| ==> specs[i].name in names
    ensures forall n :: n in names ==> exists i :: 0 <= i < |specs| && specs[i].name == n
  {
    set i | 0 <= i < |specs| :: specs[i].name
  }

  /** `product_dict.get(category_name)`. */
  function Lookup(categoryName: string): (r: Option<seq<FieldSpec>>)
    ensures r.Some? <==> categoryName in ProductDict
    ensures r.Some? ==> r.value == ProductDict[categoryName]
  {
    if categoryName in ProductDict then Some(ProductDict[categoryName]) else None
  }

  /** Every field name of every category. */
  function AllFieldNames(): set<string> {
    set c, i | c in ProductDict && 0 <= i < |ProductDict[c]| :: ProductDict[c][i].name
  }

  lemma BooksSchema()
    ensures FieldNames(ProductDict["books"]) == {"publisher", "pages", "author", "title", "isbn"}
  {
    var specs := ProductDict["books"];
    assert specs[0].name == "publisher" && specs[1].name == "title" && specs[2].name == "isbn";
    assert specs[3].name == "pages" && specs[4].name == "author";
    forall n | n in FieldNames(specs)
      ensures n in {"publisher", "pages", "author", "title", "isbn"}
    {
      var i :| 0 <= i < |specs| && specs[i].name == n;
    }
  }

  lemma TelevisionsSchema()
    ensures FieldNames(ProductDict["hd televisions"]) == {"size", "brand", "tv_type"}
  {
    var specs := ProductDict["hd televisions"];
    assert specs[0].name == "brand" && specs[1].name == "tv_type" && specs[2].name == "size";
    forall n | n in FieldNames(specs)
      ensures n in {"size", "brand", "tv_type"}
    {
      var i :| 0 <= i < |specs| && specs[i].name == n;
    }
  }

  /** Within one category no field is named twice. */
  predicate DistinctNames(specs: seq<FieldSpec>) {
    forall i, j :: 0 <= i < j < |specs| ==> specs[i].name != specs[j].name
  }

  /** `pages` and `size` are numbers, every other category field is text, and no name repeats. */
  lemma FieldTypes()
    ensures forall c, i :: c in ProductDict && 0 <= i < |ProductDict[c]| ==>
      (ProductDict[c][i].ftype == NumberType <==> ProductDict[c][i].name in {"pages", "size"})
    ensures forall c :: c in ProductDict ==> DistinctNames(ProductDict[c]) && |ProductDict[c]| > 0
  {
  }

  /** The tree is `root` with two childless children whose names are exactly the registry's keys. */
  lemma TreeMatchesRegistry()
    ensures CTree.name == "root" && |CTree.children| == 2
    ensures forall i :: 0 <= i < |CTree.children| ==> CTree.children[i].children == []
    ensures (set i | 0 <= i < |CTree.children| :: CTree.children[i].name) == ProductDict.Keys
  {
    assert CTree.children[0].name == "books";
    assert CTree.children[1].name == "hd televisions";
  }
}

=== FILE: config.dfy ===
/** Configuration constants (config.py). */
module Config {

  /** The product document index. */
  const PRODUCT_INDEX_NAME: string := "productsearch1"
  const STORE_INDEX_NAME: string := "stores1"

  /**
   * False: documents with a changed average rating are reindexed right away, by a
   * deferred task. True: they wait for an administrator's (or cron's) batch sweep.
   */
  const BATCH_RATINGS_UPDATE: bool := false

  /** The smallest and largest integer rating a review may carry. */
  const RATING_MIN: int := 1
  const RATING_MAX: int := 5

  /** Search results shown per page. */
  const DOC_LIMIT: int := 3

  /** Rows per CSV import batch; must not exceed 100. */
  const IMPORT_BATCH_SIZE: int := 5
}

=== FILE: deferred.dfy ===
/**
 * The deferred tasks the transactions record, and what running one does:
 * folding a review into its product, reindexing a product's rating,
 * deleting a product's reviews, and removing a product's document.
 */
module Deferred {
  import opened Optional
  import opened Errors
  import opened Search
  import opened Models
  import Utils
  import Reindex
  import Docs
  import AdminHandlers

  /**
   * Running one recorded task: the world afterwards, the tasks it records, and
   * what it raised. `reply` is the index's answer to the task's write, if it
   * makes one: the reindex's add or the document's removal.
   */
  function Run(w: World, task: Task, batchMode: bool, reply: WriteReply): (r: (World, seq<Task>, Option<Exception>))
    ensures task.ApplyReview? ==>
      var applied := Utils.UpdateAverageRating(w, task.rid, batchMode);
      r == (applied.0, applied.1, None)
    ensures task.ReindexProduct? ==>
      var reindexed := Reindex.UpdateProdDocWithNewRating(w, task.pid, reply);
      r == (reindexed.0, [], reindexed.1)
    ensures task.PurgeReviews? ==>
      r == (w.(store := w.store.(reviews := Models.DeleteReviews(w.store.reviews, task.pid))), [], None)
    ensures task.RemoveProductDoc? && reply.Written? ==> r == (w.(index := w.index - {task.pid}), [], None)
    ensures task.RemoveProductDoc? && reply.WriteFailed? ==> r == (w, [], None)
  {
    match task
    case ApplyReview(rid) =>
      var applied := Utils.UpdateAverageRating(w, rid, batchMode);
      (applied.0, applied.1, None)
    case ReindexProduct(pid) =>
      var reindexed := Reindex.UpdateProdDocWithNewRating(w, pid, reply);
      (reindexed.0, [], reindexed.1)
    case PurgeReviews(pid) =>
      (w.(store := w.store.(reviews := Models.DeleteReviews(w.store.reviews, pid))), [], None)
    case RemoveProductDoc(pid) =>
      if reply.WriteFailed? then (w, [], None) else (w.(index := w.index - {pid}), [], None)
  }

  /** Running tasks in order, each with its reply, ignoring what they record. */
  function RunAll(w: World, tasks: seq<Task>, batchMode: bool, replies: seq<WriteReply>): World
    requires |replies| == |tasks|
    decreases |tasks|
  {
    if tasks == [] then w else RunAll(Run(w, tasks[0], batchMode, replies[0]).0, tasks[1..], batchMode, replies[1..])
  }

  /**
   * Deleting a product and then running the two tasks its transaction recorded,
   * the removal going through, leaves no trace of it: no product record, no
   * review of it, no document; every other product, review and document is as it was.
   */
  lemma DeleteCascade(w: World, pid: string, batchMode: bool, purgeReply: WriteReply)
    requires pid != "" && pid in w.store.products
    ensures var deleted := AdminHandlers.DeleteProduct(w, pid);
      var after := RunAll(deleted.0, deleted.1, batchMode, [purgeReply, Written]);
      && pid !in after.store.products
      && pid !in after.index
      && (forall rid :: rid in after.store.reviews ==> after.store.reviews[rid].productKey != pid)
      && (forall k :: k in w.store.products && k != pid ==> k in after.store.products && after.store.products[k] == w.store.products[k])
      && (forall rid :: rid in w.store.reviews && w.store.reviews[rid].productKey != pid ==>
            rid in after.store.reviews && after.store.reviews[rid] == w.store.reviews[rid])
      && (forall id :: id in w.index && id != pid ==> id in after.index && after.index[id] == w.index[id])
  {
    var deleted := AdminHandlers.DeleteProduct(w, pid);
    RunTwo(deleted.0, PurgeReviews(pid), RemoveProductDoc(pid), batchMode, purgeReply, Written);
    Models.DeleteReviewsLeavesNone(w.store.reviews, pid);
  }

  /**
   * The same deletion when the document's removal fails: the failure is logged
   * and swallowed, the product and its reviews are gone, and its document
   * stays in the index unchanged, an orphan that searches still find.
   */
  lemma DeleteFailedRemovalLeavesOrphan(w: World, pid: string, batchMode: bool, purgeReply: WriteReply)
    requires pid != "" && pid in w.store.products && pid in w.index
    ensures var deleted := AdminHandlers.DeleteProduct(w, pid);
      var after := RunAll(deleted.0, deleted.1, batchMode, [purgeReply, WriteFailed]);
      && pid !in after.store.products
      && (forall rid :: rid in after.store.reviews ==> after.store.reviews[rid].productKey != pid)
      && after.index == w.index
      && pid in after.index
  {
    var deleted := AdminHandlers.DeleteProduct(w, pid);
    RunTwo(deleted.0, PurgeReviews(pid), RemoveProductDoc(pid), batchMode, purgeReply, WriteFailed);
    Models.DeleteReviewsLeavesNone(w.store.reviews, pid);
  }

  /** A world where `pid`'s record and document are linked and the document has one rating field. */
  predicate Indexed(w: World, pid: string) {
    && pid != "" && WellFormed(w.index) && Reindex.Linked(w.store)
    && pid in w.store.products && pid in w.index
    && CountNamed(w.index[pid].fields, Docs.AVG_RATING) == 1
  }

  /**
   * Immediate mode: folding a fresh review records one reindex task, and
   * running it, its add going through, leaves the product clean and its
   * document reading the new average.
   */
  lemma ImmediateReindex(w: World, pid: string, rid: nat)
    requires Indexed(w, pid)
    requires rid in w.store.reviews && w.store.reviews[rid].productKey == pid && !w.store.reviews[rid].ratingAdded
    ensures Run(w, ApplyReview(rid), false, Written).1 == [ReindexProduct(pid)]
    ensures var after := RunAll(w, [ApplyReview(rid), ReindexProduct(pid)], false, [Written, Written]);
      && Indexed(after, pid)
      && after.store.products[pid] == Utils.FoldRating(w.store.products[pid], w.store.reviews[rid].rating).(needsReviewReindex := false)
      && Docs.GetFieldVal(after.index[pid], Docs.AVG_RATING) == Some(Number(after.store.products[pid].avgRating))
      && (forall k :: k in w.store.reviews && k != rid ==> k in after.store.reviews && after.store.reviews[k] == w.store.reviews[k])
  {
    RunTwo(w, ApplyReview(rid), ReindexProduct(pid), false, Written, Written);
    var applied := Run(w, ApplyReview(rid), false, Written).0;
    assert Utils.Applies(w.store, rid);
    ReindexApplied(applied, pid);
  }

  /**
   * Reindexing a linked product whose document has one rating field, the add
   * going through: the product is clean, the document reads its average, and
   * the world is still `Indexed`; nothing else in the store changes.
   */
  lemma ReindexApplied(w: World, pid: string)
    requires Indexed(w, pid)
    ensures var after := Run(w, ReindexProduct(pid), false, Written).0;
      && Indexed(after, pid)
      && after.store.products[pid] == w.store.products[pid].(needsReviewReindex := false)
      && after.store.reviews == w.store.reviews
      && Docs.GetFieldVal(after.index[pid], Docs.AVG_RATING) == Some(Number(w.store.products[pid].avgRating))
  {
    assert w.store.products[pid].docId == pid;
    assert Reindex.HasDoc(w.index, w.store.products[pid]);
    assert Reindex.UpdateProdDocWithNewRating(w, pid, Written).1.None?;
    Reindex.SingleReindexSetsRating(w, pid);
    var after := Run(w, ReindexProduct(pid), false, Written).0;
    var d := Docs.UpdateRatingInDoc(w.index, pid, w.store.products[pid].avgRating).value;
    assert after.index == w.index[pid := d];
    assert CountNamed(d.fields, Docs.AVG_RATING) == 1;
  }

  /**
   * Batch mode: folding a review records nothing and leaves the index alone,
   * so the document keeps its old rating until the sweep runs.
   */
  lemma BatchModeDefersReindex(w: World, rid: nat, reply: WriteReply)
    ensures Run(w, ApplyReview(rid), true, reply).1 == []
    ensures Run(w, ApplyReview(rid), true, reply).0.index == w.index
  {
  }

  /** Running two tasks is running the first, then the second on its result. */
  lemma RunTwo(w: World, first: Task, second: Task, batchMode: bool, reply1: WriteReply, reply2: WriteReply)
    ensures RunAll(w, [first, second], batchMode, [reply1, reply2])
         == Run(Run(w, first, batchMode, reply1).0, second, batchMode, reply2).0
  {
    var tasks := [first, second];
    var replies := [reply1, reply2];
    var mid := Run(w, first, batchMode, reply1).0;
    var last := Run(mid, second, batchMode, reply2).0;
    assert tasks[1..] == [second] && tasks[1..][1..] == [];
    assert replies[1..] == [reply2] && replies[1..][1..] == [];
    assert RunAll(last, tasks[1..][1..], batchMode, replies[1..][1..]) == last;
    assert RunAll(mid, tasks[1..], batchMode, replies[1..]) == last;
  }

  /** Running `a + b` is running `a`, then `b` on what `a` left. */
  lemma {:induction false} RunAllAppend(w: World, a: seq<Task>, b: seq<Task>, batchMode: bool,
                                        ra: seq<WriteReply>, rb: seq<WriteReply>)
    requires |ra| == |a| && |rb| == |b|
    ensures RunAll(w, a + b, batchMode, ra + rb) == RunAll(RunAll(w, a, batchMode, ra), b, batchMode, rb)
    decreases |a|
  {
    if a == [] {
      assert a + b == b && ra + rb == rb;
    } else {
      assert (a + b)[0] == a[0] && (a + b)[1..] == a[1..] + b;
      assert (ra + rb)[0] == ra[0] && (ra + rb)[1..] == ra[1..] + rb;
      RunAllAppend(Run(w, a[0], batchMode, ra[0]).0, a[1..], b, batchMode, ra[1..], rb);
    }
  }

  /** A review of `pid` with the given rating, not yet folded in. */
  predicate Fresh(w: World, pid: string, rid: nat, rating: int) {
    rid in w.store.reviews
    && w.store.reviews[rid] == Review(pid, w.store.reviews[rid].username, rating, w.store.reviews[rid].comment, true, false)
  }

  /** Running the four tasks is running the first two, then the last two. */
  lemma RunFour(w: World, a: Task, b: Task, c: Task, d: Task)
    ensures RunAll(w, [a, b, c, d], false, [Written, Written, Written, Written])
         == RunAll(RunAll(w, [a, b], false, [Written, Written]), [c, d], false, [Written, Written])
  {
    RunAllAppend(w, [a, b], [c, d], false, [Written, Written], [Written, Written]);
    assert [a, b] + [c, d] == [a, b, c, d];
    assert [Written, Written] + [Written, Written] == [Written, Written, Written, Written];
  }

  /**
   * Two reviews of a product with none yet, rated 4 then 1, in immediate
   * mode, each reindex running before the next review: the average reads 4
   * after the first and 2.5 after the second, and so does the document's
   * rating field.
   */
  lemma FourThenOneEndToEnd(w: World, pid: string, r1: nat, r2: nat)
    requires Indexed(w, pid) && w.store.products[pid].numReviews == 0
    requires r1 != r2 && Fresh(w, pid, r1, 4) && Fresh(w, pid, r2, 1)
    ensures var w1 := RunAll(w, [ApplyReview(r1), ReindexProduct(pid)], false, [Written, Written]);
      && Indexed(w1, pid)
      && w1.store.products[pid].avgRating == 4.0
      && Docs.GetFieldVal(w1.index[pid], Docs.AVG_RATING) == Some(Number(4.0))
    ensures var w2 := RunAll(w, [ApplyReview(r1), ReindexProduct(pid), ApplyReview(r2), ReindexProduct(pid)], false,
                             [Written, Written, Written, Written]);
      && Indexed(w2, pid)
      && w2.store.products[pid].avgRating == 2.5
      && w2.store.products[pid].numReviews == 2
      && Docs.GetFieldVal(w2.index[pid], Docs.AVG_RATING) == Some(Number(2.5))
  {
    ImmediateReindex(w, pid, r1);
    var w1 := RunAll(w, [ApplyReview(r1), ReindexProduct(pid)], false, [Written, Written]);
    Utils.FourThenOne(w.store.products[pid], true);
    assert Fresh(w1, pid, r2, 1);
    ImmediateReindex(w1, pid, r2);
    RunFour(w, ApplyReview(r1), ReindexProduct(pid), ApplyReview(r2), ReindexProduct(pid));
  }

  /**
   * Folding the two reviews one after the other, before any reindex: each
   * fold records one reindex of the product, and the product's average
   * reads 2.5 after the second.
   */
  lemma FoldBoth(w: World, pid: string, r1: nat, r2: nat)
    requires Indexed(w, pid) && w.store.products[pid].numReviews == 0
    requires r1 != r2 && Fresh(w, pid, r1, 4) && Fresh(w, pid, r2, 1)
    ensures Run(w, ApplyReview(r1), false, Written).1 == [ReindexProduct(pid)]
    ensures var w1 := Run(w, ApplyReview(r1), false, Written).0;
      && Run(w1, ApplyReview(r2), false, Written).1 == [ReindexProduct(pid)]
      && Run(w1, ApplyReview(r2), false, Written).0 == RunAll(w, [ApplyReview(r1), ApplyReview(r2)], false, [Written, Written])
    ensures var w2 := RunAll(w, [ApplyReview(r1), ApplyReview(r2)], false, [Written, Written]);
      && Indexed(w2, pid)
      && w2.store.products[pid] == Utils.FoldRating(Utils.FoldRating(w.store.products[pid], 4), 1)
      && w2.store.products[pid].avgRating == 2.5
  {
    var w1 := Run(w, ApplyReview(r1), false, Written).0;
    assert Utils.Applies(w.store, r1);
    assert Utils.Applies(w1.store, r2);
    Utils.FourThenOne(w.store.products[pid], false);
    RunTwo(w, ApplyReview(r1), ApplyReview(r2), false, Written, Written);
  }

  /** Running two reindexes of an indexed product leaves it clean and its document reading its average. */
  lemma DrainTwice(w: World, pid: string)
    requires Indexed(w, pid)
    ensures var after := RunAll(w, [ReindexProduct(pid), ReindexProduct(pid)], false, [Written, Written]);
      && Indexed(after, pid)
      && after.store.products[pid] == w.store.products[pid].(needsReviewReindex := false)
      && Docs.GetFieldVal(after.index[pid], Docs.AVG_RATING) == Some(Number(w.store.products[pid].avgRating))
  {
    ReindexApplied(w, pid);
    var w1 := Run(w, ReindexProduct(pid), false, Written).0;
    ReindexApplied(w1, pid);
    RunTwo(w, ReindexProduct(pid), ReindexProduct(pid), false, Written, Written);
  }

  /**
   * The same two reviews folded one after the other before either recorded
   * reindex runs, then both reindexes run: each fold records one reindex of
   * the product, the average reads 2.5 after the second fold, and after the
   * two reindexes the product is clean and its document reads 2.5.
   */
  lemma FoldBothThenDrain(w: World, pid: string, r1: nat, r2: nat)
    requires Indexed(w, pid) && w.store.products[pid].numReviews == 0
    requires r1 != r2 && Fresh(w, pid, r1, 4) && Fresh(w, pid, r2, 1)
    ensures Run(w, ApplyReview(r1), false, Written).1 == [ReindexProduct(pid)]
    ensures var w1 := Run(w, ApplyReview(r1), false, Written).0;
      && Run(w1, ApplyReview(r2), false, Written).1 == [ReindexProduct(pid)]
      && Run(w1, ApplyReview(r2), false, Written).0.store.products[pid].avgRating == 2.5
    ensures var w4 := RunAll(w, [ApplyReview(r1), ApplyReview(r2), ReindexProduct(pid), ReindexProduct(pid)], false,
                             [Written, Written, Written, Written]);
      && Indexed(w4, pid)
      && !w4.store.products[pid].needsReviewReindex
      && w4.store.products[pid].avgRating == 2.5
      && w4.store.products[pid].numReviews == 2
      && Docs.GetFieldVal(w4.index[pid], Docs.AVG_RATING) == Some(Number(2.5))
  {
    FoldBoth(w, pid, r1, r2);
    var w2 := RunAll(w, [ApplyReview(r1), ApplyReview(r2)], false, [Written, Written]);
    DrainTwice(w2, pid);
    RunFour(w, ApplyReview(r1), ApplyReview(r2), ReindexProduct(pid), ReindexProduct(pid));
  }
}

=== FILE: docs.dfy ===
/**
 * Product search documents (docs.py): document-id legality, field access and
 * replacement, building a product's document from request parameters, creating
 * and batch-creating products, the rating update of an indexed document, the
 * rating facet tallies, and the sort options.
 */
module Docs {
  import opened Optional
  import opened Errors
  import opened Text
  import opened Search
  import Categories
  import Models
  import Config

  // Names of the core fields every product document carries.
  const PID: string := "pid"
  const DESCRIPTION: string := "description"
  const CATEGORY: string := "category"
  const PRODUCT_NAME: string := "name"
  const PRICE: string := "price"
  const AVG_RATING: string := "ar"
  const UPDATED: string := "modified"

  const CoreFieldNames: set<string> := {PID, UPDATED, PRODUCT_NAME, DESCRIPTION, CATEGORY, AVG_RATING, PRICE}

  /** No category field shares a name with a core field. */
  lemma RegistryAvoidsCoreNames()
    ensures forall c, i :: c in Categories.ProductDict && 0 <= i < |Categories.ProductDict[c]| ==>
      Categories.ProductDict[c][i].name !in CoreFieldNames
  {
  }

  // ---------------------------------------------------------------------------
  // Document ids

  /** Python 2 `string.printable` minus `string.whitespace`: ASCII 33 to 126. */
  predicate IsVisiblePrintable(c: char) {
    33 <= c as int <= 126
  }

  function AllVisible(s: string): (r: bool)
    ensures r <==> forall i :: 0 <= i < |s| ==> IsVisiblePrintable(s[i])
  {
    if s == [] then true else IsVisiblePrintable(s[0]) && AllVisible(s[1..])
  }

  /** `isValidDocId`: visible printable ASCII only, and not starting with '!'. */
  function IsValidDocId(docId: string): (r: bool)
    ensures r <==> (forall i :: 0 <= i < |docId| ==> IsVisiblePrintable(docId[i]))
                   && !(|docId| > 0 && docId[0] == '!')
  {
    AllVisible(docId) && !(|docId| > 0 && docId[0] == '!')
  }

  /** Both index names obey the rule their comment states. */
  lemma IndexNamesAreValid()
    ensures IsValidDocId(Config.PRODUCT_INDEX_NAME)
    ensures IsValidDocId(Config.STORE_INDEX_NAME)
  {
    var a := Config.PRODUCT_INDEX_NAME;
    var b := Config.STORE_INDEX_NAME;
    forall i | 0 <= i < |a|
      ensures IsVisiblePrintable(a[i])
    {
      assert a[i] in a;
    }
    forall i | 0 <= i < |b|
      ensures IsVisiblePrintable(b[i])
    {
      assert b[i] in b;
    }
  }

  // ---------------------------------------------------------------------------
  // Field access

  /** `fields[i]` is the first field called `name`. */
  predicate IsFirstNamed(fields: seq<Field>, name: string, i: int) {
    0 <= i < |fields| && fields[i].name == name
    && forall j :: 0 <= j < i ==> fields[j].name != name
  }

  function FirstIndex(fields: seq<Field>, name: string): (r: Option<nat>)
    ensures r.Some? ==> IsFirstNamed(fields, name, r.value)
    ensures r.None? ==> forall j :: 0 <= j < |fields| ==> fields[j].name != name
  {
    if fields == [] then None
    else if fields[0].name == name then Some(0)
    else
      match FirstIndex(fields[1..], name)
      case None => None
      case Some(i) => Some(i + 1)
  }

  /** Two fields with the same name in a list that holds one field of that name are the same position. */
  lemma {:induction false} CountOneUnique(fields: seq<Field>, name: string, i: int, j: int)
    requires CountNamed(fields, name) == 1
    requires 0 <= i < |fields| && fields[i].name == name
    requires 0 <= j < |fields| && fields[j].name == name
    ensures i == j
  {
    if i != j {
      var lo := if i < j then i else j;
      var hi := if i < j then j else i;
      CountPositive(fields, name, lo, hi);
    }
  }

  lemma {:induction false} CountPositive(fields: seq<Field>, name: string, lo: int, hi: int)
    requires 0 <= lo < hi < |fields| && fields[lo].name == name && fields[hi].name == name
    ensures CountNamed(fields, name) >= 2
  {
    if lo == 0 {
      CountNamedZero(fields[1..], name);
      assert fields[1..][hi - 1] == fields[hi];
    } else {
      CountPositive(fields[1..], name, lo - 1, hi - 1);
    }
  }

  /** `getFieldVal`: the value of the field called `fname` when exactly one field has that name, else nothing. */
  function GetFieldVal(doc: Document, fname: string): (r: Option<FieldValue>)
    ensures r.Some? <==> CountNamed(doc.fields, fname) == 1
    ensures r.Some? ==> forall i :: 0 <= i < |doc.fields| && doc.fields[i].name == fname ==>
      doc.fields[i].value == r.value
  {
    if CountNamed(doc.fields, fname) == 1 then
      CountNamedZero(doc.fields, fname);
      var i := FirstIndex(doc.fields, fname).value;
      assert forall j :: 0 <= j < |doc.fields| && doc.fields[j].name == fname ==> j == i by {
        forall j | 0 <= j < |doc.fields| && doc.fields[j].name == fname
          ensures j == i
        {
          CountOneUnique(doc.fields, fname, i, j);
        }
      }
      Some(doc.fields[i].value)
    else None
  }

  /** Replacing a field by one of the same name leaves every name's count unchanged. */
  lemma {:induction false} CountNamedReplace(fields: seq<Field>, i: int, f: Field, name: string)
    requires 0 <= i < |fields| && fields[i].name == f.name
    ensures CountNamed(fields[i := f], name) == CountNamed(fields, name)
  {
    if i == 0 {
      assert fields[i := f][1..] == fields[1..];
    } else {
      assert fields[i := f][1..] == fields[1..][i - 1 := f];
      CountNamedReplace(fields[1..], i - 1, f, name);
    }
  }

  /**
   * `setFirstField`: replaces the first field that has the new field's name and
   * reports whether there was one; every other field stays where it was.
   */
  function SetFirstField(doc: Document, f: Field): (r: (Document, bool))
    ensures r.0.docId == doc.docId
    ensures r.1 <==> exists i :: 0 <= i < |doc.fields| && doc.fields[i].name == f.name
    ensures !r.1 ==> r.0 == doc
    ensures r.1 ==> exists i :: IsFirstNamed(doc.fields, f.name, i) && r.0.fields == doc.fields[i := f]
    ensures forall name :: CountNamed(r.0.fields, name) == CountNamed(doc.fields, name)
  {
    match FirstIndex(doc.fields, f.name)
    case None => (doc, false)
    case Some(i) =>
      assert forall name :: CountNamed(doc.fields[i := f], name) == CountNamed(doc.fields, name) by {
        forall name {
          CountNamedReplace(doc.fields, i, f, name);
        }
      }
      (doc.(fields := doc.fields[i := f]), true)
  }

  /** Setting the only field of a name and reading it back gives the new value. */
  lemma SetThenGet(doc: Document, f: Field)
    requires CountNamed(doc.fields, f.name) == 1
    ensures GetFieldVal(SetFirstField(doc, f).0, f.name) == Some(f.value)
  {
    CountNamedZero(doc.fields, f.name);
    var d := SetFirstField(doc, f).0;
    var i :| IsFirstNamed(doc.fields, f.name, i) && d.fields == doc.fields[i := f];
    assert d.fields[i] == f;
  }

  /** `getAvgRating`: the rating field's value, `Null` when there is not exactly one. */
  function ArValue(doc: Document): FieldValue {
    GetFieldVal(doc, AVG_RATING).GetOr(Null)
  }

  /** `setAvgRating`. */
  function SetAvgRating(doc: Document, ar: FieldValue): Document {
    SetFirstField(doc, Field(AVG_RATING, ar)).0
  }

  // ---------------------------------------------------------------------------
  // The index

  /** `getDoc`: the document stored under a non-empty id. */
  function GetDoc(index: Index, docId: string): (r: Option<Document>)
    ensures r.Some? <==> docId != "" && docId in index
    ensures r.Some? ==> r.value == index[docId]
  {
    if docId != "" && docId in index then Some(index[docId]) else None
  }

  /**
   * `updateRatingInDoc`: the stored document with its first rating field set to
   * `avg`, for the caller to reindex; no stored document raises.
   */
  function UpdateRatingInDoc(index: Index, docId: string, avg: real): (r: Result<Document>)
    ensures r.Ok? <==> docId != "" && docId in index
    ensures r.Raised? ==> r.exc == OperationFailed("Could not retrieve doc associated with id " + docId)
    ensures r.Ok? ==> r.value.docId == index[docId].docId && |r.value.fields| == |index[docId].fields|
    ensures r.Ok? ==> forall j :: 0 <= j < |r.value.fields| ==>
      r.value.fields[j] == index[docId].fields[j] || r.value.fields[j] == Field(AVG_RATING, Number(avg))
    ensures r.Ok? && CountNamed(index[docId].fields, AVG_RATING) == 1 ==>
      GetFieldVal(r.value, AVG_RATING) == Some(Number(avg))
  {
    match GetDoc(index, docId)
    case Some(doc) =>
      assert CountNamed(doc.fields, AVG_RATING) == 1 ==>
        GetFieldVal(SetAvgRating(doc, Number(avg)), AVG_RATING) == Some(Number(avg)) by {
        if CountNamed(doc.fields, AVG_RATING) == 1 {
          SetThenGet(doc, Field(AVG_RATING, Number(avg)));
        }
      }
      Ok(SetAvgRating(doc, Number(avg)))
    case None => Raised(OperationFailed("Could not retrieve doc associated with id " + docId))
  }

  // ---------------------------------------------------------------------------
  // Building a product document

  /**
   * `re.sub(r'<[^>]*?>', '', s)`: each '<' that has a '>' after it is removed
   * together with everything up to the first such '>'.
   */
  function StripMarkup(s: string): (r: string)
    ensures '<' !in s ==> r == s
    ensures |r| <= |s|
    ensures forall k :: 0 <= k < |r| ==> r[k] in s
    ensures forall i, j :: 0 <= i < j < |r| && r[i] == '<' ==> r[j] != '>'
  {
    if s == [] then []
    else if s[0] == '<' && '>' in s[1..] then
      var k := FirstIndexOf(s[1..], '>');
      InSuffix(s, k + 2);
      StripMarkup(s[k + 2..])
    else
      var rest := StripMarkup(s[1..]);
      InSuffix(s, 1);
      KeepFirst(s, rest);
      [s[0]] + rest
  }

  /** A character of a suffix is a character of the whole. */
  lemma InSuffix(s: string, k: nat)
    requires k <= |s|
    ensures forall c :: c in s[k..] ==> c in s
  {
    forall c | c in s[k..]
      ensures c in s
    {
      var i :| 0 <= i < |s[k..]| && s[k..][i] == c;
      assert s[k + i] == c;
    }
  }

  /**
   * Keeping the first character of `s` in front of the stripped rest keeps
   * every '<' free of a later '>': a kept '<' has no '>' after it in `s`.
   */
  lemma KeepFirst(s: string, rest: string)
    requires s != [] && !(s[0] == '<' && '>' in s[1..])
    requires forall k :: 0 <= k < |rest| ==> rest[k] in s[1..]
    requires forall i, j :: 0 <= i < j < |rest| && rest[i] == '<' ==> rest[j] != '>'
    ensures forall i, j :: 0 <= i < j < |[s[0]] + rest| && ([s[0]] + rest)[i] == '<' ==> ([s[0]] + rest)[j] != '>'
  {
    var r := [s[0]] + rest;
    forall i, j | 0 <= i < j < |r| && r[i] == '<'
      ensures r[j] != '>'
    {
      assert r[j] == rest[j - 1];
      if i > 0 {
        assert r[i] == rest[i - 1];
      } else {
        assert rest[j - 1] in s[1..];
      }
    }
  }

  /** Normalised creation parameters (`_normalizeParams` result, split as `_createDocument` receives them). */
  datatype Params = Params(
    pid: string,
    name: string,
    category: string,
    categoryName: string,
    price: real,
    description: Option<string>,
    extra: map<string, Option<string>>)

  /** The keys `_createDocument` takes as named arguments; everything else is passed on in `**params`. */
  const NamedParamKeys: set<string> := {"pid", "name", "category", "category_name", "price", "description"}

  /**
   * The raw parameters map a key to a string or to Python's `None`, which
   * the CSV reader gives the columns a short line lacks. A form's
   * parameters are all strings.
   */
  function Given(params: map<string, string>): (r: map<string, Option<string>>)
    ensures r.Keys == params.Keys
    ensures forall k :: k in r ==> r[k] == Some(params[k])
  {
    map k | k in params :: Some(params[k])
  }

  /** The value of `key` if it is present, `None` if it is absent or `None`. */
  function Lookup(raw: map<string, Option<string>>, key: string): Option<string> {
    if key in raw then raw[key] else None
  }

  /**
   * `_normalizeParams` reaches a `None` before any missing key: stripping a
   * `None` pid or name, or converting a `None` price, raises an exception
   * the method does not catch.
   */
  predicate NoneReached(raw: map<string, Option<string>>) {
    "pid" in raw &&
      (raw["pid"].None? ||
       ("name" in raw &&
        (raw["name"].None? || ("category" in raw && "price" in raw && raw["price"].None?))))
  }

  /**
   * `_normalizeParams`: strips pid and name, copies category into category_name,
   * and converts price to a number. A missing key or an unparsable price raises
   * `OperationFailedError`; a `None` pid or name raises `AttributeError` and a
   * `None` price `TypeError`, neither of which it catches. A `None` category is
   * passed on as the empty string: both are false to the check that comes
   * next, and nothing else reads the category first. The caller's map is a
   * value and is never changed.
   */
  function NormalizeParams(kind: Kind, raw: map<string, Option<string>>): (r: Result<Params>)
    ensures r.Ok? <==> && "pid" in raw && "name" in raw && "category" in raw && "price" in raw
                       && raw["pid"].Some? && raw["name"].Some? && raw["price"].Some?
                       && ParseFloat(kind, raw["price"].value).Some?
    ensures NoneReached(raw) ==> r.Raised? && (r.exc.AttributeError? || r.exc.TypeError?)
    ensures r.Raised? && !NoneReached(raw) ==> r.exc.AppError? && r.exc.cls == OperationFailedError
    ensures r.Ok? ==> r.value.pid == Strip(kind, raw["pid"].value) && r.value.name == Strip(kind, raw["name"].value)
    ensures r.Ok? ==> r.value.category == r.value.categoryName == raw["category"].GetOr("")
    ensures r.Ok? ==> Some(r.value.price) == ParseFloat(kind, raw["price"].value)
    ensures r.Ok? ==> r.value.description == Lookup(raw, "description")
    ensures r.Ok? ==> forall k :: k in r.value.extra <==> k in raw && k !in NamedParamKeys
    ensures r.Ok? ==> forall k :: k in r.value.extra ==> r.value.extra[k] == raw[k]
  {
    if "pid" !in raw then Raised(OperationFailed("'pid'"))
    else if raw["pid"].None? then Raised(AttributeError("'NoneType' object has no attribute 'strip'"))
    else if "name" !in raw then Raised(OperationFailed("'name'"))
    else if raw["name"].None? then Raised(AttributeError("'NoneType' object has no attribute 'strip'"))
    else if "category" !in raw then Raised(OperationFailed("'category'"))
    else if "price" !in raw then Raised(OperationFailed("'price'"))
    else if raw["price"].None? then Raised(TypeError("float() argument must be a string or a number"))
    else
      var category := raw["category"].GetOr("");
      match ParseFloat(kind, raw["price"].value)
      case None => Raised(OperationFailed("bad price value: " + raw["price"].value))
      case Some(price) =>
        Ok(Params(
          Strip(kind, raw["pid"].value), Strip(kind, raw["name"].value), category, category, price,
          Lookup(raw, "description"),
          map k | k in raw && k !in NamedParamKeys :: raw[k]))
  }

  /** `_buildCoreProductFields`: the seven fields every product document starts with. */
  function CoreFields(pid: string, today: int, name: string, description: string, category: string, price: real): seq<Field> {
    [ Field(PID, Text(pid)),
      Field(UPDATED, Date(today)),
      Field(PRODUCT_NAME, Text(name)),
      Field(DESCRIPTION, Text(StripMarkup(description))),
      Field(CATEGORY, Atom(category)),
      Field(AVG_RATING, Number(0.0)),
      Field(PRICE, Number(price)) ]
  }

  function TypeName(t: Categories.FieldType): string {
    match t
    case TextType => "TextField"
    case NumberType => "NumberField"
  }

  /** `str(v)` succeeds: `None` and byte strings always, a unicode string only when it is ASCII. */
  predicate StrEncodable(kind: Kind, v: Option<string>) {
    v.None? || kind == Bytes || IsAscii(v.value)
  }

  /** `str(v)`: Python's `None` prints as `None`. */
  function StrOf(v: Option<string>): string {
    match v
    case None => "None"
    case Some(s) => s
  }

  /** A category field is satisfiable: given, a number that parses for a number field, and `str()`-able for a text field. */
  predicate Satisfied(kind: Kind, spec: Categories.FieldSpec, extra: map<string, Option<string>>) {
    && spec.name in extra
    && match spec.ftype
       case NumberType => extra[spec.name].Some? && ParseFloat(kind, extra[spec.name].value).Some?
       case TextType => StrEncodable(kind, extra[spec.name])
  }

  /**
   * A category field's value is one the loop cannot convert and whose
   * exception it does not catch: `float(None)`, or `str()` of a unicode
   * value that is not ASCII.
   */
  predicate Fatal(kind: Kind, spec: Categories.FieldSpec, extra: map<string, Option<string>>) {
    && spec.name in extra
    && match spec.ftype
       case NumberType => extra[spec.name].None?
       case TextType => !StrEncodable(kind, extra[spec.name])
  }

  /** The document field built from a satisfied category field. */
  function FieldFor(kind: Kind, spec: Categories.FieldSpec, extra: map<string, Option<string>>): Field
    requires Satisfied(kind, spec, extra)
  {
    match spec.ftype
    case NumberType => Field(spec.name, Number(ParseFloat(kind, extra[spec.name].value).value))
    case TextType => Field(spec.name, Text(StrOf(extra[spec.name])))
  }

  /**
   * One category field of `_buildProductFields`: the field's value must be
   * given; a number field's value must parse, and a text field's value is
   * passed through `str()`. A missing or unparsable value raises
   * `OperationFailedError` with a message naming the field; `float(None)`
   * raises `TypeError` and `str()` of non-ASCII unicode `UnicodeEncodeError`.
   */
  function SpecField(kind: Kind, spec: Categories.FieldSpec, extra: map<string, Option<string>>): (r: Result<Field>)
    ensures r.Ok? <==> Satisfied(kind, spec, extra)
    ensures r.Ok? ==> r.value == FieldFor(kind, spec, extra)
    ensures Fatal(kind, spec, extra) ==> r.Raised? && (r.exc.TypeError? || r.exc.UnicodeEncodeError?)
    ensures r.Raised? && !Fatal(kind, spec, extra) ==>
      r.exc.AppError? && r.exc.cls == OperationFailedError && Contains(r.exc.errorMessage, spec.name)
  {
    var k := spec.name;
    var t := TypeName(spec.ftype);
    if k !in extra then Raised(OperationFailed(MissingValueMessage(k, t)))
    else
      match spec.ftype
      case NumberType =>
        (match extra[k]
         case None => Raised(TypeError("float() argument must be a string or a number"))
         case Some(v) =>
           match ParseFloat(kind, v)
           case None => Raised(OperationFailed(BadValueMessage(k, v, t)))
           case Some(x) => Ok(Field(k, Number(x))))
      case TextType =>
        if StrEncodable(kind, extra[k]) then Ok(Field(k, Text(StrOf(extra[k]))))
        else Raised(UnicodeEncodeError(FirstNonAscii(extra[k].value)))
  }

  /**
   * A non-ASCII author submitted through the form (a unicode string) cannot
   * pass through `str()`, and the exception is not an application error; the
   * same value read from a CSV file (a byte string) is kept as it is.
   */
  lemma NonAsciiTextField()
    ensures SpecField(Unicode, Categories.FieldSpec("author", Categories.TextType), map["author" := Some("Bront\U{eb}")])
         == Raised(UnicodeEncodeError(5))
    ensures SpecField(Bytes, Categories.FieldSpec("author", Categories.TextType), map["author" := Some("Bront\U{eb}")])
         == Ok(Field("author", Text("Bront\U{eb}")))
    ensures CaughtMessage(UnicodeEncodeError(5), Error).None?
  {
    assert "Bront\U{eb}"[5] as int >= 128;
    assert !IsAscii("Bront\U{eb}");
    assert FirstNonAscii("Bront\U{eb}") == 5;
  }

  /** The message for a category field whose value is not given; it names the field. */
  function MissingValueMessage(k: string, t: string): (m: string)
    ensures Contains(m, k)
  {
    ContainsMiddle("value not given for field \"", k, "\" of field type \"" + t + "\"");
    assert "value not given for field \"" + k + "\" of field type \"" + t + "\""
        == "value not given for field \"" + k + ("\" of field type \"" + t + "\"");
    "value not given for field \"" + k + "\" of field type \"" + t + "\""
  }

  /** The message for a number field whose value does not parse; it names the field. */
  function BadValueMessage(k: string, v: string, t: string): (m: string)
    ensures Contains(m, k)
  {
    ContainsMiddle("bad value ", k, " for field " + v + " of type " + t);
    assert "bad value " + k + " for field " + v + " of type " + t
        == "bad value " + k + (" for field " + v + " of type " + t);
    "bad value " + k + " for field " + v + " of type " + t
  }

  /** Field `i` is the first of `specs` that fails, raising `e`. */
  predicate FirstFailure(kind: Kind, specs: seq<Categories.FieldSpec>, extra: map<string, Option<string>>, i: int, e: Exception) {
    && 0 <= i < |specs|
    && (forall j :: 0 <= j < i ==> Satisfied(kind, specs[j], extra))
    && SpecField(kind, specs[i], extra) == Raised(e)
  }

  /** A first failure among the fields after a satisfied one is the first failure of them all. */
  lemma FirstFailureShift(kind: Kind, specs: seq<Categories.FieldSpec>, extra: map<string, Option<string>>, i: int, e: Exception)
    requires specs != [] && Satisfied(kind, specs[0], extra)
    requires FirstFailure(kind, specs[1..], extra, i, e)
    ensures FirstFailure(kind, specs, extra, i + 1, e)
  {
    assert forall j :: 1 <= j < |specs| ==> specs[j] == specs[1..][j - 1];
  }

  /**
   * The category-specific half of `_buildProductFields`: every schema field,
   * in schema order; the first field that fails decides the exception.
   */
  function CategoryFields(kind: Kind, specs: seq<Categories.FieldSpec>, extra: map<string, Option<string>>): (r: Result<seq<Field>>)
    ensures r.Ok? <==> forall i :: 0 <= i < |specs| ==> Satisfied(kind, specs[i], extra)
    ensures r.Ok? ==> |r.value| == |specs|
    ensures r.Ok? ==> forall i :: 0 <= i < |specs| ==> r.value[i] == FieldFor(kind, specs[i], extra)
    ensures r.Raised? ==> exists i :: FirstFailure(kind, specs, extra, i, r.exc)
  {
    if specs == [] then Ok([])
    else
      var first := SpecField(kind, specs[0], extra);
      if first.Raised? then
        assert FirstFailure(kind, specs, extra, 0, first.exc);
        Raised(first.exc)
      else
      var field := first.value;
      var rest := CategoryFields(kind, specs[1..], extra);
      assert forall i :: 1 <= i < |specs| ==> specs[i] == specs[1..][i - 1];
      if rest.Raised? then
        var i :| FirstFailure(kind, specs[1..], extra, i, rest.exc);
        FirstFailureShift(kind, specs, extra, i, rest.exc);
        Raised(rest.exc)
      else
        Ok([field] + rest.value)
  }

  /**
   * `_buildProductFields`: the core fields, then the registered category's fields.
   * A missing description fails in the markup stripping (`re.sub` on `None`), and an
   * unregistered category fails reading `params['category_name']`, a key that was
   * consumed as a named argument.
   */
  function BuildProductFields(kind: Kind, p: Params, today: int): (r: Result<seq<Field>>)
    ensures p.description.None? ==> r.Raised? && r.exc.TypeError?
    ensures p.description.Some? && Categories.Lookup(p.categoryName).None? ==> r == Raised(KeyError("category_name"))
  {
    match p.description
    case None => Raised(TypeError("expected string or buffer"))
    case Some(description) =>
      var core := CoreFields(p.pid, today, p.name, description, p.category, p.price);
      match Categories.Lookup(p.categoryName)
      case None => Raised(KeyError("category_name"))
      case Some(specs) =>
        if specs == [] then Raised(KeyError("category_name"))
        else
          var extras :- CategoryFields(kind, specs, p.extra);
          Ok(core + extras)
  }

  /**
   * The schema is walked in the dict's iteration order, brand before size: a
   * television whose size does not parse and whose brand is non-ASCII unicode
   * fails on the brand with the encoding error, although the size alone would
   * raise the application error.
   */
  lemma TelevisionBrandBeforeSize(p: Params, today: int)
    requires p.categoryName == "hd televisions" && p.description.Some?
    requires p.extra == map["size" := Some("big"), "brand" := Some("Sony\U{e9}"), "tv_type" := Some("LCD")]
    ensures BuildProductFields(Unicode, p, today) == Raised(UnicodeEncodeError(4))
    ensures SpecField(Unicode, Categories.FieldSpec("size", Categories.NumberType), p.extra).Raised?
    ensures !Fatal(Unicode, Categories.FieldSpec("size", Categories.NumberType), p.extra)
  {
    var specs := Categories.ProductDict["hd televisions"];
    assert specs[0] == Categories.FieldSpec("brand", Categories.TextType);
    assert "Sony\U{e9}"[4] as int >= 128;
    assert !IsAscii("Sony\U{e9}");
    assert FirstNonAscii("Sony\U{e9}") == 4;
    assert SpecField(Unicode, specs[0], p.extra) == Raised(UnicodeEncodeError(4));
    BigIsNoNumber();
  }

  lemma BigIsNoNumber()
    ensures ParseFloat(Unicode, "big").None?
  {
    BigBytes();
    BigBytesIsNoNumber();
  }

  lemma BigBytes()
    ensures NumberBytes(Unicode, "big") == Some("big")
  {
    var u := NumberBytes(Unicode, "big").value;
    assert u[0] == 'b' && u[1] == 'i' && u[2] == 'g';
    assert u == "big";
  }

  lemma BigBytesIsNoNumber()
    ensures ParseFloatBytes("big").None?
  {
    var s := "big";
    assert !IsWhitespace(s[0]) && !IsWhitespace(s[2]);
    assert Strip(Bytes, s) == s;
    assert s[0] != '.' && s[1] != '.' && s[2] != '.';
    assert '.' !in s;
    assert !IsDigit(s[0]);
  }

  lemma CountFrom(fields: seq<Field>, name: string, k: int)
    requires 0 <= k < |fields|
    ensures CountNamed(fields[k..], name) == (if fields[k].name == name then 1 else 0) + CountNamed(fields[k + 1..], name)
  {
    assert fields[k..][1..] == fields[k + 1..];
  }

  /** Each core field name occurs once among the core fields. */
  lemma CoreCounts(pid: string, today: int, name: string, description: string, category: string, price: real)
    ensures forall n :: n in CoreFieldNames ==> CountNamed(CoreFields(pid, today, name, description, category, price), n) == 1
  {
    var c := CoreFields(pid, today, name, description, category, price);
    forall n | n in CoreFieldNames
      ensures CountNamed(c, n) == 1
    {
      assert c[0..] == c;
      assert c[7..] == [];
      CountFrom(c, n, 0);
      CountFrom(c, n, 1);
      CountFrom(c, n, 2);
      CountFrom(c, n, 3);
      CountFrom(c, n, 4);
      CountFrom(c, n, 5);
      CountFrom(c, n, 6);
    }
  }

  /** A category's fields never carry a core name. */
  lemma CategoryCountsZero(specs: seq<Categories.FieldSpec>, fields: seq<Field>, n: string)
    requires forall i :: 0 <= i < |specs| ==> specs[i].name !in CoreFieldNames
    requires |fields| == |specs| && forall i :: 0 <= i < |specs| ==> fields[i].name == specs[i].name
    requires n in CoreFieldNames
    ensures CountNamed(fields, n) == 0
  {
    CountNamedZero(fields, n);
  }

  /** Every field of a built document is core or belongs to the category's schema. */
  predicate FieldsFromSchema(fields: seq<Field>, specs: seq<Categories.FieldSpec>) {
    forall i :: 0 <= i < |fields| ==> fields[i].name in CoreFieldNames || fields[i].name in Categories.FieldNames(specs)
  }

  /**
   * `_createDocument`: pid, category and name must be non-empty and the pid a
   * legal document id, checked before any field is built; the document's id is
   * the pid.
   */
  function CreateDocument(kind: Kind, p: Params, today: int): (r: Result<Document>)
    ensures (p.pid == "" || p.category == "" || p.name == "") ==> r == Raised(OperationFailed("Missing parameter."))
    ensures p.pid != "" && p.category != "" && p.name != "" && !IsValidDocId(p.pid) ==>
      r == Raised(OperationFailed("Illegal pid " + p.pid))
    ensures r.Ok? ==> r.value.docId == p.pid && IsValidDocId(p.pid)
    ensures r.Ok? <==> p.pid != "" && p.category != "" && p.name != "" && IsValidDocId(p.pid)
                       && p.description.Some? && p.categoryName in Categories.ProductDict
                       && forall i :: 0 <= i < |Categories.ProductDict[p.categoryName]| ==>
                            Satisfied(kind, Categories.ProductDict[p.categoryName][i], p.extra)
  {
    if p.pid != "" && p.category != "" && p.name != "" then
      if !IsValidDocId(p.pid) then Raised(OperationFailed("Illegal pid " + p.pid))
      else
        var fields :- BuildProductFields(kind, p, today);
        Ok(Document(p.pid, fields))
    else Raised(OperationFailed("Missing parameter."))
  }

  /** A created document's core fields read back the values it was built from. */
  lemma CreatedDocumentReadsBack(kind: Kind, p: Params, today: int)
    requires CreateDocument(kind, p, today).Ok?
    ensures var d := CreateDocument(kind, p, today).value;
      && GetFieldVal(d, PID) == Some(Text(p.pid))
      && GetFieldVal(d, PRODUCT_NAME) == Some(Text(p.name))
      && GetFieldVal(d, DESCRIPTION) == Some(Text(StripMarkup(p.description.value)))
      && GetFieldVal(d, CATEGORY) == Some(Atom(p.category))
      && GetFieldVal(d, PRICE) == Some(Number(p.price))
      && GetFieldVal(d, AVG_RATING) == Some(Number(0.0))
  {
    var fields := CreateDocument(kind, p, today).value.fields;
    var specs := Categories.ProductDict[p.categoryName];
    var core := CoreFields(p.pid, today, p.name, p.description.value, p.category, p.price);
    var extras := CategoryFields(kind, specs, p.extra).value;
    assert fields == core + extras;
    RegistryAvoidsCoreNames();
    CoreCounts(p.pid, today, p.name, p.description.value, p.category, p.price);
    forall n | n in CoreFieldNames
      ensures CountNamed(fields, n) == 1
    {
      CountNamedAppend(core, extras, n);
      CategoryCountsZero(specs, extras, n);
    }
    assert fields[0] == Field(PID, Text(p.pid)) && fields[2] == Field(PRODUCT_NAME, Text(p.name));
    assert fields[3] == Field(DESCRIPTION, Text(StripMarkup(p.description.value)));
    assert fields[4] == Field(CATEGORY, Atom(p.category)) && fields[5] == Field(AVG_RATING, Number(0.0));
    assert fields[6] == Field(PRICE, Number(p.price));
  }

  /** A created document holds no field outside the core and the category's schema. */
  lemma CreatedDocumentSchema(kind: Kind, p: Params, today: int)
    requires CreateDocument(kind, p, today).Ok?
    ensures FieldsFromSchema(CreateDocument(kind, p, today).value.fields, Categories.ProductDict[p.categoryName])
  {
    var fields := CreateDocument(kind, p, today).value.fields;
    var specs := Categories.ProductDict[p.categoryName];
    var core := CoreFields(p.pid, today, p.name, p.description.value, p.category, p.price);
    var extras := CategoryFields(kind, specs, p.extra).value;
    assert fields == core + extras;
    CoreNamesListed(p.pid, today, p.name, p.description.value, p.category, p.price);
    var names := Categories.FieldNames(specs);
    forall i | 0 <= i < |fields|
      ensures fields[i].name in CoreFieldNames || fields[i].name in names
    {
      if i < 7 {
        assert fields[i] == core[i];
      } else {
        assert fields[i] == extras[i - 7];
        assert extras[i - 7] == FieldFor(kind, specs[i - 7], p.extra);
      }
    }
  }

  /** The core fields carry exactly the core names. */
  lemma CoreNamesListed(pid: string, today: int, name: string, description: string, category: string, price: real)
    ensures |CoreFields(pid, today, name, description, category, price)| == 7
    ensures forall i :: 0 <= i < 7 ==> CoreFields(pid, today, name, description, category, price)[i].name in CoreFieldNames
  {
  }

  // ---------------------------------------------------------------------------
  // Creating products

  /** The document `buildProduct` indexes: the created one, carrying over the rating of the document stored under the pid. */
  function CarryRating(d: Document, current: Option<Document>): (r: Document)
    ensures r.docId == d.docId
  {
    match current
    case None => d
    case Some(c) => SetAvgRating(d, ArValue(c))
  }

  /**
   * The second half of `buildProduct`: index the document `d` built for `p`, then
   * in one transaction update the product's core values or create it.
   * `reply` is the index's answer to the add: `PutError` when the add failed,
   * which the add wrapper turns into `None`.
   */
  function IndexAndStore(w: Models.World, p: Params, d: Document, reply: PutReply): (r: (Models.World, Result<Models.Product>))
    requires d.docId == p.pid
    ensures reply.PutError? ==> r.0 == w && r.1.Raised? && r.1.exc.TypeError?
    ensures r.0.store.reviews == w.store.reviews && r.0.store.categories == w.store.categories
    ensures r.1.Raised? ==> r.0.store == w.store
    ensures reply.PutIds? ==> r.0.index == w.index[p.pid := d]
    ensures r.1.Ok? <==> reply.PutIds? && |reply.ids| > 0
    ensures reply.PutIds? && |reply.ids| == 0 ==> r.1 == Raised(OperationFailed("could not index document"))
    ensures Models.KeysMatch(w.store.products) ==> Models.KeysMatch(r.0.store.products)
    ensures r.1.Ok? ==>
      var prod := r.1.value;
      && prod.price == p.price && prod.category == p.category && prod.docId == reply.ids[0]
      && r.0.store.products == w.store.products[p.pid := prod]
      && (p.pid in w.store.products ==>
            prod == Models.UpdateCore(w.store.products[p.pid], p.price, p.category, reply.ids[0]))
      && (p.pid !in w.store.products ==> prod == Models.Create(p.pid, p.price, p.category, reply.ids[0]))
  {
    match reply
    case PutError => (w, Raised(TypeError("'NoneType' object has no attribute '__getitem__'")))
    case PutIds(ids) =>
      var index := Put(w.index, [d]);
      assert index == Put(w.index, [])[d.docId := d];
      if |ids| == 0 then (w.(index := index), Raised(OperationFailed("could not index document")))
      else
        var prod := if p.pid in w.store.products
          then Models.UpdateCore(w.store.products[p.pid], p.price, p.category, ids[0])
          else Models.Create(p.pid, p.price, p.category, ids[0]);
        (Models.World(w.store.(products := w.store.products[p.pid := prod]), index), Ok(prod))
  }

  /**
   * `buildProduct`: normalises the parameters, creates the document (keeping
   * the rating of any document already indexed under the pid), indexes it and
   * stores the product. Every failure before the add leaves the world as it was.
   */
  function BuildProduct(w: Models.World, kind: Kind, raw: map<string, Option<string>>, today: int, reply: PutReply): (r: (Models.World, Result<Models.Product>))
    ensures NormalizeParams(kind, raw).Raised? ==> r == (w, Raised(NormalizeParams(kind, raw).exc))
    ensures NormalizeParams(kind, raw).Ok? && CreateDocument(kind, NormalizeParams(kind, raw).value, today).Raised? ==>
      r == (w, Raised(CreateDocument(kind, NormalizeParams(kind, raw).value, today).exc))
    ensures NormalizeParams(kind, raw).Ok? && CreateDocument(kind, NormalizeParams(kind, raw).value, today).Ok? ==>
      var p := NormalizeParams(kind, raw).value;
      r == IndexAndStore(w, p, CarryRating(CreateDocument(kind, p, today).value, GetDoc(w.index, p.pid)), reply)
  {
    var normalized := NormalizeParams(kind, raw);
    if normalized.Raised? then (w, Raised(normalized.exc))
    else
      var p := normalized.value;
      var created := CreateDocument(kind, p, today);
      if created.Raised? then (w, Raised(created.exc))
      else IndexAndStore(w, p, CarryRating(created.value, GetDoc(w.index, p.pid)), reply)
  }

  /**
   * After a successful `buildProduct`, the index holds the new document under the
   * pid: it reads back the submitted price and category, and its rating is the
   * one the previously indexed document had, or 0 for a new document.
   */
  lemma BuildProductIndexesDocument(w: Models.World, kind: Kind, raw: map<string, Option<string>>, today: int, reply: PutReply)
    requires BuildProduct(w, kind, raw, today, reply).1.Ok?
    ensures NormalizeParams(kind, raw).Ok?
    ensures var p := NormalizeParams(kind, raw).value;
      var doc := BuildProduct(w, kind, raw, today, reply).0.index[p.pid];
      && doc.docId == p.pid
      && GetFieldVal(doc, PRICE) == Some(Number(p.price))
      && GetFieldVal(doc, CATEGORY) == Some(Atom(p.category))
      && GetFieldVal(doc, PID) == Some(Text(p.pid))
      && (p.pid in w.index && p.pid != "" ==> GetFieldVal(doc, AVG_RATING) == Some(ArValue(w.index[p.pid])))
      && (p.pid !in w.index ==> GetFieldVal(doc, AVG_RATING) == Some(Number(0.0)))
  {
    var p := NormalizeParams(kind, raw).value;
    var d0 := CreateDocument(kind, p, today).value;
    CreatedDocumentReadsBack(kind, p, today);
    var d := CarryRating(d0, GetDoc(w.index, p.pid));
    assert BuildProduct(w, kind, raw, today, reply).0.index == w.index[p.pid := d];
    if p.pid in w.index && p.pid != "" {
      SetThenGet(d0, Field(AVG_RATING, ArValue(w.index[p.pid])));
      ReadBackUnchanged(d0, Field(AVG_RATING, ArValue(w.index[p.pid])), PRICE);
      ReadBackUnchanged(d0, Field(AVG_RATING, ArValue(w.index[p.pid])), CATEGORY);
      ReadBackUnchanged(d0, Field(AVG_RATING, ArValue(w.index[p.pid])), PID);
    }
  }

  /** Replacing a field of one name leaves the reading of every other name as it was. */
  lemma ReadBackUnchanged(doc: Document, f: Field, name: string)
    requires name != f.name
    ensures GetFieldVal(SetFirstField(doc, f).0, name) == GetFieldVal(doc, name)
  {
    var d := SetFirstField(doc, f).0;
    if GetFieldVal(doc, name).Some? {
      CountNamedZero(doc.fields, name);
      var i :| 0 <= i < |doc.fields| && doc.fields[i].name == name;
      if SetFirstField(doc, f).1 {
        var k :| IsFirstNamed(doc.fields, f.name, k) && d.fields == doc.fields[k := f];
        assert d.fields[i] == doc.fields[i];
      }
    }
  }

  /** An empty parameter dict builds nothing: it raises an application error and leaves the world as it was. */
  lemma EmptyParamsRaise(w: Models.World, kind: Kind, today: int, reply: PutReply)
    ensures BuildProduct(w, kind, map[], today, reply).0 == w
    ensures BuildProduct(w, kind, map[], today, reply).1.Raised?
    ensures CaughtMessage(BuildProduct(w, kind, map[], today, reply).1.exc, Error).Some?
  {
  }

  // ---------------------------------------------------------------------------
  // Batch creation

  /**
   * A row as `csv.DictReader` yields it: the named columns, holding `None`
   * where the line is short, and the cells beyond the named columns, which
   * the reader files under the key `None`.
   */
  datatype Row = Row(values: map<string, Option<string>>, surplus: seq<string>)

  /**
   * What one row of `buildProductBatch` yields: its document and its entity
   * (without a document id yet). The row's strings are byte strings. A row
   * with surplus cells normalises, and then cannot be passed as keyword
   * arguments, its `None` key not being a string.
   */
  function RowOutcome(row: Row, today: int): (r: Result<(Document, Models.Product)>)
    ensures NormalizeParams(Bytes, row.values).Raised? ==> r == Raised(NormalizeParams(Bytes, row.values).exc)
    ensures NormalizeParams(Bytes, row.values).Ok? && row.surplus != [] ==> r.Raised? && r.exc.TypeError?
    ensures r.Ok? ==> row.surplus == [] && NormalizeParams(Bytes, row.values).Ok?
                      && CreateDocument(Bytes, NormalizeParams(Bytes, row.values).value, today) == Ok(r.value.0)
    ensures r.Ok? ==> var p := NormalizeParams(Bytes, row.values).value; r.value.1 == Models.Create(p.pid, p.price, p.category, "")
    ensures NormalizeParams(Bytes, row.values).Ok? && row.surplus == []
            && CreateDocument(Bytes, NormalizeParams(Bytes, row.values).value, today).Raised? ==>
      r == Raised(CreateDocument(Bytes, NormalizeParams(Bytes, row.values).value, today).exc)
  {
    var p :- NormalizeParams(Bytes, row.values);
    if row.surplus != [] then Raised(TypeError("_createDocument() keywords must be strings"))
    else
      var created := CreateDocument(Bytes, p, today);
      if created.Raised? then Raised(created.exc)
      else Ok((created.value, Models.Create(p.pid, p.price, p.category, "")))
  }

  /** A row the batch logs and skips: it raised `OperationFailedError`. */
  predicate Skipped(o: Result<(Document, Models.Product)>) {
    o.Raised? && o.exc.AppError? && o.exc.cls == OperationFailedError
  }

  /** The documents and entities a batch builds, with the positions of the rows they came from. */
  datatype Prepared = Prepared(docs: seq<Document>, entities: seq<Models.Product>, kept: seq<nat>)

  predicate StrictlyIncreasing(s: seq<nat>) {
    forall i, j :: 0 <= i < j < |s| ==> s[i] < s[j]
  }

  /** Every row's outcome, in row order. */
  function Outcomes(rows: seq<Row>, today: int): (r: seq<Result<(Document, Models.Product)>>)
    ensures |r| == |rows| && forall i :: 0 <= i < |rows| ==> r[i] == RowOutcome(rows[i], today)
  {
    seq(|rows|, i requires 0 <= i < |rows| => RowOutcome(rows[i], today))
  }

  /**
   * The loop of `buildProductBatch` over the rows' outcomes: rows that raised
   * `OperationFailedError` are skipped; any other exception ends the batch,
   * raised by the first row that raises it.
   */
  function Collect(outcomes: seq<Result<(Document, Models.Product)>>): (r: Result<Prepared>)
    ensures r.Ok? ==> |r.value.docs| == |r.value.entities| == |r.value.kept|
    ensures r.Ok? ==> StrictlyIncreasing(r.value.kept)
    ensures r.Ok? ==> forall k :: 0 <= k < |r.value.kept| ==>
      r.value.kept[k] < |outcomes| && outcomes[r.value.kept[k]] == Ok((r.value.docs[k], r.value.entities[k]))
    ensures r.Ok? ==> forall i :: 0 <= i < |outcomes| && i !in r.value.kept ==> Skipped(outcomes[i])
    ensures r.Raised? ==> exists i :: (0 <= i < |outcomes| && outcomes[i] == Raised(r.exc) && !Skipped(outcomes[i])
      && forall j :: 0 <= j < i ==> outcomes[j].Ok? || Skipped(outcomes[j]))
    decreases |outcomes|
  {
    if outcomes == [] then Ok(Prepared([], [], []))
    else
      var n := |outcomes| - 1;
      var front := Collect(outcomes[..n]);
      assert forall i :: 0 <= i < n ==> outcomes[..n][i] == outcomes[i];
      if front.Raised? then Raised(front.exc)
      else
        var prev := front.value;
        var o := outcomes[n];
        assert Collected(outcomes[..n], prev);
        if o.Ok? then
          CollectKeep(outcomes, prev);
          Ok(Prepared(prev.docs + [o.value.0], prev.entities + [o.value.1], prev.kept + [n]))
        else if Skipped(o) then
          CollectSkip(outcomes, prev);
          Ok(prev)
        else
          assert forall j :: 0 <= j < n ==> j in prev.kept || Skipped(outcomes[j]);
          Raised(o.exc)
  }

  /** `p` holds, in order, exactly the built rows among `outcomes`, every other row having been skipped. */
  predicate Collected(outcomes: seq<Result<(Document, Models.Product)>>, p: Prepared) {
    && |p.docs| == |p.entities| == |p.kept|
    && StrictlyIncreasing(p.kept)
    && (forall k :: 0 <= k < |p.kept| ==>
          p.kept[k] < |outcomes| && outcomes[p.kept[k]] == Ok((p.docs[k], p.entities[k])))
    && (forall i :: 0 <= i < |outcomes| && i !in p.kept ==> Skipped(outcomes[i]))
  }

  /** A built row after the collected ones is kept. */
  lemma CollectKeep(outcomes: seq<Result<(Document, Models.Product)>>, prev: Prepared)
    requires |outcomes| > 0 && outcomes[|outcomes| - 1].Ok?
    requires Collected(outcomes[..|outcomes| - 1], prev)
    ensures var n := |outcomes| - 1; var o := outcomes[n];
      Collected(outcomes, Prepared(prev.docs + [o.value.0], prev.entities + [o.value.1], prev.kept + [n]))
  {
    var n := |outcomes| - 1;
    assert forall i :: 0 <= i < n ==> outcomes[..n][i] == outcomes[i];
  }

  /** A skipped row after the collected ones changes nothing. */
  lemma CollectSkip(outcomes: seq<Result<(Document, Models.Product)>>, prev: Prepared)
    requires |outcomes| > 0 && Skipped(outcomes[|outcomes| - 1])
    requires Collected(outcomes[..|outcomes| - 1], prev)
    ensures Collected(outcomes, prev)
  {
    var n := |outcomes| - 1;
    assert forall i :: 0 <= i < n ==> outcomes[..n][i] == outcomes[i];
  }

  /** The documents and entities of a batch, before anything is indexed. */
  function PrepareBatch(rows: seq<Row>, today: int): Result<Prepared> {
    Collect(Outcomes(rows, today))
  }

  /** The entities with the ids the index returned, in order. */
  function WithDocIds(entities: seq<Models.Product>, ids: seq<string>): (r: seq<Models.Product>)
    requires |ids| == |entities|
    ensures |r| == |entities|
    ensures forall i :: 0 <= i < |r| ==> r[i] == entities[i].(docId := ids[i])
  {
    seq(|entities|, i requires 0 <= i < |entities| => entities[i].(docId := ids[i]))
  }

  /**
   * `buildProductBatch`: builds every row's document and entity, adds the
   * documents in one call, gives each entity the id returned at its position,
   * and stores the entities together. A `None` reply fails on its length; a
   * reply of the wrong length raises with the documents indexed but no entity
   * stored. The persisted entities are returned.
   */
  function BuildProductBatch(w: Models.World, rows: seq<Row>, today: int, reply: PutReply): (r: (Models.World, Result<seq<Models.Product>>))
    ensures PrepareBatch(rows, today).Raised? ==> r == (w, Raised(PrepareBatch(rows, today).exc))
    ensures reply.PutError? ==> r.0 == w && r.1.Raised?
    ensures r.0.store.reviews == w.store.reviews && r.0.store.categories == w.store.categories
    ensures r.1.Raised? ==> r.0.store == w.store
    ensures r.1.Ok? <==> PrepareBatch(rows, today).Ok? && reply.PutIds?
                         && |reply.ids| == |PrepareBatch(rows, today).value.entities|
    ensures PrepareBatch(rows, today).Ok? && reply.PutIds? && |reply.ids| != |PrepareBatch(rows, today).value.entities| ==>
      r.1 == Raised(OperationFailed("Error: wrong number of results returned from indexing operation"))
    ensures PrepareBatch(rows, today).Ok? && reply.PutIds? ==>
      r.0.index == Put(w.index, PrepareBatch(rows, today).value.docs)
    ensures r.1.Ok? ==>
      var prep := PrepareBatch(rows, today).value;
      && |r.1.value| == |prep.entities|
      && (forall k :: 0 <= k < |r.1.value| ==> r.1.value[k] == prep.entities[k].(docId := reply.ids[k]))
      && r.0.store.products == Models.PutMulti(w.store.products, r.1.value)
  {
    var prepared := PrepareBatch(rows, today);
    if prepared.Raised? then (w, Raised(prepared.exc))
    else
      var prep := prepared.value;
      match reply
      case PutError => (w, Raised(TypeError("object of type 'NoneType' has no len()")))
      case PutIds(ids) =>
        var index := Put(w.index, prep.docs);
        if |ids| != |prep.entities| then
          (w.(index := index), Raised(OperationFailed("Error: wrong number of results returned from indexing operation")))
        else
          var ents := WithDocIds(prep.entities, ids);
          (Models.World(w.store.(products := Models.PutMulti(w.store.products, ents)), index), Ok(ents))
  }

  /**
   * Each kept row that no later kept row shares a pid with ends up stored as a
   * new product with the submitted price and category and the id the index returned for it.
   */
  lemma BatchStoresKeptRows(w: Models.World, rows: seq<Row>, today: int, reply: PutReply, k: int)
    requires BuildProductBatch(w, rows, today, reply).1.Ok?
    requires 0 <= k < |PrepareBatch(rows, today).value.kept|
    requires Models.LastWithPid(BuildProductBatch(w, rows, today, reply).1.value, k)
    ensures var prep := PrepareBatch(rows, today).value;
      var p := NormalizeParams(Bytes, rows[prep.kept[k]].values).value;
      BuildProductBatch(w, rows, today, reply).0.store.products[p.pid]
        == Models.Create(p.pid, p.price, p.category, reply.ids[k])
  {
    var prep := PrepareBatch(rows, today).value;
    var ents := BuildProductBatch(w, rows, today, reply).1.value;
    var o := RowOutcome(rows[prep.kept[k]], today);
    assert o == Ok((prep.docs[k], prep.entities[k]));
    Models.PutMultiLastWins(w.store.products, ents, k);
  }

  /**
   * A CSV line too short to reach its pid, name or price column, met before
   * any other failing row, is not skipped like a malformed row: its
   * `AttributeError` or `TypeError` ends the whole batch, and nothing of it
   * is indexed or stored.
   */
  lemma ShortRowAbortsBatch(w: Models.World, rows: seq<Row>, today: int, reply: PutReply, i: int)
    requires 0 <= i < |rows| && NoneReached(rows[i].values)
    requires forall j :: 0 <= j < i ==> RowOutcome(rows[j], today).Ok? || Skipped(RowOutcome(rows[j], today))
    ensures !Skipped(RowOutcome(rows[i], today))
    ensures BuildProductBatch(w, rows, today, reply) == (w, Raised(NormalizeParams(Bytes, rows[i].values).exc))
  {
    var outcomes := Outcomes(rows, today);
    var e := NormalizeParams(Bytes, rows[i].values).exc;
    assert outcomes[i] == Raised(e) && !Skipped(outcomes[i]);
    var c := Collect(outcomes);
    var j :| && 0 <= j < |outcomes| && outcomes[j] == Raised(c.exc) && !Skipped(outcomes[j])
             && forall m :: 0 <= m < j ==> outcomes[m].Ok? || Skipped(outcomes[m]);
    assert j == i;
  }

  // ---------------------------------------------------------------------------
  // Rating facets

  /** The bucket a result falls in: `int(getAvgRating() or 0)`. A missing or non-numeric rating counts as 0. */
  function RatingKey(doc: Document): int {
    match ArValue(doc)
    case Number(x) => TruncToInt(x)
    case _ => 0
  }

  /** How many of `results` fall in bucket `k`. */
  function BucketCount(results: seq<Document>, k: int): nat
    decreases |results|
  {
    if results == [] then 0
    else BucketCount(results[..|results| - 1], k) + (if RatingKey(results[|results| - 1]) == k then 1 else 0)
  }

  /**
   * The tally loop of `generateRatingsBuckets` over the full results of the
   * query. The buckets are a `defaultdict(int)`, modelled as a multiset: a
   * bucket never hit reads 0.
   */
  method RatingsBuckets(results: seq<Document>) returns (buckets: multiset<int>)
    ensures |buckets| == |results|
    ensures forall k :: buckets[k] == BucketCount(results, k)
  {
    buckets := multiset{};
    var i := 0;
    while i < |results|
      invariant 0 <= i <= |results|
      invariant |buckets| == i
      invariant forall k :: buckets[k] == BucketCount(results[..i], k)
    {
      assert results[..i + 1][..i] == results[..i];
      buckets := buckets + multiset{RatingKey(results[i])};
      i := i + 1;
    }
    assert results[..i] == results;
  }

  /** Every result falls in exactly one bucket: the bucket counts over a range of keys never exceed the results. */
  lemma {:induction false} BucketCountsBounded(results: seq<Document>, k: int)
    ensures BucketCount(results, k) <= |results|
    ensures BucketCount(results, k) == |results| <==> forall i :: 0 <= i < |results| ==> RatingKey(results[i]) == k
    decreases |results|
  {
    if results != [] {
      var n := |results| - 1;
      BucketCountsBounded(results[..n], k);
      assert forall i :: 0 <= i < n ==> results[..n][i] == results[i];
    }
  }

  /** One sidebar link: the rating it filters on, its upper bound when shown as a range, and the bucket's count. */
  datatype RatingLink = RatingLink(rating: int, upper: Option<int>, count: nat)

  /**
   * `generateRatingsLinks`: no links when the tally failed or found nothing;
   * otherwise one link per rating from the lowest to the highest, each showing
   * its bucket's count (0 when the bucket was never hit), ratings below 5 shown
   * as a range up to the next one.
   */
  method RatingsLinks(buckets: Option<multiset<int>>) returns (links: Option<seq<RatingLink>>)
    ensures links.None? <==> buckets.None? || |buckets.value| == 0
    ensures links.Some? ==> |links.value| == Config.RATING_MAX - Config.RATING_MIN + 1
    ensures links.Some? ==> forall i :: 0 <= i < |links.value| ==>
      var k := Config.RATING_MIN + i;
      && links.value[i].rating == k
      && links.value[i].count == buckets.value[k]
      && (links.value[i].upper.Some? <==> k < 5)
      && (k < 5 ==> links.value[i].upper.value == k + 1)
  {
    if buckets.None? || |buckets.value| == 0 {
      return None;
    }
    var tally := buckets.value;
    var rlist: seq<RatingLink> := [];
    var k := Config.RATING_MIN;
    while k <= Config.RATING_MAX
      invariant Config.RATING_MIN <= k <= Config.RATING_MAX + 1
      invariant |rlist| == k - Config.RATING_MIN
      invariant forall i :: 0 <= i < |rlist| ==>
        var j := Config.RATING_MIN + i;
        && rlist[i].rating == j && rlist[i].count == tally[j]
        && (rlist[i].upper.Some? <==> j < 5)
        && (j < 5 ==> rlist[i].upper.value == j + 1)
    {
      var upper := if k < 5 then Some(k + 1) else None;
      rlist := rlist + [RatingLink(k, upper, tally[k])];
      k := k + 1;
    }
    return Some(rlist);
  }

  // ---------------------------------------------------------------------------
  // Sort options

  datatype Direction = Ascending | Descending
  datatype SortDefault = NumberDefault(n: int) | TextDefault(t: string)

  /** A `search.SortExpression`. */
  datatype SortExpression = SortExpression(expression: string, direction: Direction, default: SortDefault)

  /** One entry of `_SORT_OPTIONS`: keyword, menu title, expression. */
  datatype SortOption = SortOption(key: string, title: string, expr: SortExpression)

  const SortOptions: seq<SortOption> := [
    SortOption(AVG_RATING, "average rating", SortExpression(AVG_RATING, Descending, NumberDefault(0))),
    SortOption(PRICE, "price", SortExpression(PRICE, Ascending, NumberDefault(9999))),
    SortOption(UPDATED, "modified", SortExpression(UPDATED, Descending, NumberDefault(1))),
    SortOption(CATEGORY, "category", SortExpression(CATEGORY, Ascending, TextDefault(""))),
    SortOption(PRODUCT_NAME, "product name", SortExpression(PRODUCT_NAME, Ascending, TextDefault("zzz")))
  ]

  /** `_buildSortMenu`: 'relevance' first, then every option's keyword and title in order. */
  function SortMenu(): (r: seq<(string, string)>)
    ensures |r| == |SortOptions| + 1 && r[0] == ("relevance", "relevance")
    ensures forall i :: 0 <= i < |SortOptions| ==> r[i + 1] == (SortOptions[i].key, SortOptions[i].title)
  {
    [("relevance", "relevance")] + seq(|SortOptions|, i requires 0 <= i < |SortOptions| => (SortOptions[i].key, SortOptions[i].title))
  }

  /** `_buildSortDict`: each keyword mapped to its expression, a later duplicate overwriting an earlier one. */
  function SortDict(): map<string, SortExpression> {
    DictOf(SortOptions)
  }

  function DictOf(options: seq<SortOption>): (r: map<string, SortExpression>)
    ensures forall i :: 0 <= i < |options| ==> options[i].key in r
    ensures |options| > 0 ==> r[options[|options| - 1].key] == options[|options| - 1].expr
    decreases |options|
  {
    if options == [] then map[]
    else
      var n := |options| - 1;
      var front := DictOf(options[..n]);
      assert forall i :: 0 <= i < n ==> options[..n][i] == options[i];
      front[options[n].key := options[n].expr]
  }

  /** The dictionary holds the five options' expressions under their keywords. */
  lemma SortDictContents()
    ensures SortDict() == map[
      AVG_RATING := SortOptions[0].expr, PRICE := SortOptions[1].expr, UPDATED := SortOptions[2].expr,
      CATEGORY := SortOptions[3].expr, PRODUCT_NAME := SortOptions[4].expr]
  {
    var o := SortOptions;
    assert o[..5] == o;
    assert o[..0] == [];
    DictOfStep(o, 0);
    DictOfStep(o, 1);
    DictOfStep(o, 2);
    DictOfStep(o, 3);
    DictOfStep(o, 4);
  }

  /** The dictionary of the first `k + 1` options adds option `k` to that of the first `k`. */
  lemma DictOfStep(options: seq<SortOption>, k: int)
    requires 0 <= k < |options|
    ensures DictOf(options[..k + 1]) == DictOf(options[..k])[options[k].key := options[k].expr]
  {
    assert options[..k + 1][..k] == options[..k];
  }

  /**
   * The menu and the dictionary agree: every menu keyword but 'relevance' is a
   * dictionary key whose expression sorts on the field of that name; ratings and
   * dates sort descending, the rest ascending.
   */
  lemma SortMenuMatchesDict()
    ensures forall i :: 1 <= i < |SortMenu()| ==> SortMenu()[i].0 in SortDict()
    ensures forall k :: k in SortDict() ==> SortDict()[k].expression == k
    ensures "relevance" !in SortDict()
    ensures SortDict().Keys == CoreFieldNames - {PID, DESCRIPTION}
    ensures forall k :: k in SortDict() ==> (SortDict()[k].direction == Descending <==> k == AVG_RATING || k == UPDATED)
  {
    SortDictContents();
    var m := SortMenu();
    assert m[1].0 == AVG_RATING && m[2].0 == PRICE && m[3].0 == UPDATED && m[4].0 == CATEGORY && m[5].0 == PRODUCT_NAME;
  }
}

=== FILE: errors.dfy ===
/**
 * The application's error taxonomy (errors.py) and the exceptions the modelled code
 * lets escape. `Error` is the base class; `NotFoundError` and `OperationFailedError`
 * derive from it and carry the constructor's message in `error_message`.
 */
module Errors {
  import opened Optional

  datatype ErrorClass = Error | NotFoundError | OperationFailedError

  /** Python's class hierarchy: every class is a kind of itself, and both subclasses are kinds of `Error`. */
  predicate IsKindOf(c: ErrorClass, base: ErrorClass) {
    c == base || base == Error
  }

  /**
   * What a modelled operation raises: an application error, or one of the language's
   * own exceptions that the code does not catch.
   */
  datatype Exception =
    | AppError(cls: ErrorClass, errorMessage: string)
    | KeyError(key: string)
    | TypeError(reason: string)
    | AttributeError(reason: string)
    | NumberFormatException(input: string)
    | IllegalArgumentException(message: string)
    | UnicodeEncodeError(position: nat)
    | HttpAbort(status: int, detail: string)

  /** The outcome of an operation that may raise. */
  datatype Result<+T> = Ok(value: T) | Raised(exc: Exception) {

    predicate IsFailure() {
      Raised?
    }

    function PropagateFailure<U>(): Result<U>
      requires Raised?
    {
      Raised(exc)
    }

    function Extract(): T
      requires Ok?
    {
      value
    }
  }

  /** `raise cls(message)`. */
  function Raise(cls: ErrorClass, message: string): (e: Exception)
    ensures e.AppError? && e.cls == cls
    ensures e.errorMessage == message
  {
    AppError(cls, message)
  }

  function OperationFailed(message: string): Exception {
    Raise(OperationFailedError, message)
  }

  /** `except base as e: ... e.error_message`: the message when the handler catches `e`. */
  function CaughtMessage(e: Exception, base: ErrorClass): (m: Option<string>)
    ensures m.Some? <==> e.AppError? && IsKindOf(e.cls, base)
    ensures m.Some? ==> m.value == e.errorMessage
  {
    if e.AppError? && IsKindOf(e.cls, base) then Some(e.errorMessage) else None
  }

  /** Either subclass, raised with a message, is caught by a handler for `Error` with that message intact. */
  lemma MessageThroughBase(cls: ErrorClass, message: string)
    ensures CaughtMessage(Raise(cls, message), Error) == Some(message)
    ensures CaughtMessage(Raise(cls, message), cls) == Some(message)
  {
  }

  /** A handler for one subclass does not catch the other. */
  lemma SubclassesDisjoint(message: string)
    ensures CaughtMessage(Raise(NotFoundError, message), OperationFailedError) == None
    ensures CaughtMessage(Raise(OperationFailedError, message), NotFoundError) == None
  {
  }
}

=== FILE: handlers.dfy ===
/**
 * The request logic of the product search and review handlers (handlers.py):
 * how a search request becomes a query string, a sort and a page, how the
 * previous and next page links are chosen, and how a submitted review is
 * checked and stored.
 */
module Handlers {
  import opened Optional
  import opened Text
  import opened Errors
  import opened Models
  import Docs
  import Config

  // ---------------------------------------------------------------------------
  // Search parameters

  /** `request.get(key, default)`: the submitted value, or the default when the key was not submitted. */
  function Get(request: map<string, string>, key: string, default: string): (r: string)
    ensures key in request ==> r == request[key]
    ensures key !in request ==> r == default
  {
    if key in request then request[key] else default
  }

  /** `ProductSearchHandler.parseParams`: the expected keys, each with its default. */
  datatype SearchParams = SearchParams(query: string, category: string, sort: string, rating: string, offset: string)

  function ParseSearchParams(request: map<string, string>): SearchParams {
    SearchParams(Get(request, "query", ""), Get(request, "category", ""), Get(request, "sort", ""),
                 Get(request, "rating", ""), Get(request, "offset", "0"))
  }

  /** The page size: `int(config.DOC_LIMIT)`. */
  const DocLimit: int := Config.DOC_LIMIT

  /** Offsets beyond this get no next link. */
  const OffsetLimit: int := 1000

  /** The offset: `int(offset)`, or 0 when it is not an integer. */
  function ParseOffset(s: string): (r: int)
    ensures ParseInt(Unicode, s).Some? ==> r == ParseInt(Unicode, s).value
    ensures ParseInt(Unicode, s).None? ==> r == 0
  {
    match ParseInt(Unicode, s)
    case Some(n) => n
    case None => 0
  }

  /** A submitted offset reads back as itself. */
  lemma OffsetReadsBack(n: int)
    ensures ParseOffset(IntToString(n)) == n
  {
    ParseIntOfIntToString(Unicode, n);
  }

  /** What opens a category clause: a space and the atomic category field's name. */
  const CategoryPrefix: string := " " + Docs.CATEGORY + ":\""

  /**
   * The category restriction, when a category is given: the atomic category
   * field matched against the category between double quotes; the category
   * reads back from between the quotes.
   */
  function CategoryClause(category: string): (r: string)
    ensures category == "" <==> r == ""
    ensures category != "" ==> Contains(r, category)
    ensures category != "" ==>
      && |r| == |CategoryPrefix| + |category| + 1
      && r[..|CategoryPrefix|] == CategoryPrefix
      && r[|CategoryPrefix|..|r| - 1] == category
      && r[|r| - 1] == '"'
  {
    if category == "" then ""
    else
      ContainsMiddle(CategoryPrefix, category, "\"");
      var r := CategoryPrefix + category + "\"";
      assert r[..|CategoryPrefix|] == CategoryPrefix;
      assert r[|CategoryPrefix|..|r| - 1] == category;
      r
  }

  // ---------------------------------------------------------------------------
  // Rating filter

  /** The rating filter: an integer rating within the allowed range, or none. */
  function RatingFilter(rating: string): (n: Option<int>)
    ensures n.Some? <==> ParseInt(Unicode, rating).Some? && Config.RATING_MIN <= ParseInt(Unicode, rating).value <= Config.RATING_MAX
    ensures n.Some? ==> n.value == ParseInt(Unicode, rating).value
  {
    match ParseInt(Unicode, rating)
    case Some(n) => if n < Config.RATING_MIN || n > Config.RATING_MAX then None else Some(n)
    case None => None
  }

  /** A rendered rating reads back as a filter exactly when it lies in the rating range. */
  lemma RatingFilterReadsBack(n: int)
    ensures RatingFilter(IntToString(n)) == (if Config.RATING_MIN <= n <= Config.RATING_MAX then Some(n) else None)
  {
    ParseIntOfIntToString(Unicode, n);
  }

  /** The clause the rating filter appends: the half-open band below the top rating, an exact match at the top. */
  function RatingClause(n: int): string {
    if n < Config.RATING_MAX then
      " " + Docs.AVG_RATING + " >= " + IntToString(n) + " " + Docs.AVG_RATING + " < " + IntToString(n + 1)
    else " " + Docs.AVG_RATING + ":" + IntToString(n)
  }

  /** What a rating clause for `n` selects: ratings in the band `[n, n+1)`, or exactly `n` at the top. */
  predicate ClauseSelects(n: int, ar: real) {
    if n < Config.RATING_MAX then n as real <= ar < (n + 1) as real else ar == n as real
  }

  /**
   * The rating filter and the rating facets agree: for an average in the
   * rating range, the clause for `n` selects it exactly when its facet bucket is `n`.
   */
  lemma FilterMatchesBucket(n: int, ar: real)
    requires Config.RATING_MIN <= n <= Config.RATING_MAX
    requires 0.0 <= ar <= Config.RATING_MAX as real
    ensures ClauseSelects(n, ar) <==> TruncToInt(ar) == n
  {
  }

  /** The clauses for rating 3 and for the top rating, as the search service receives them. */
  lemma RatingClauseExamples()
    ensures RatingClause(3) == " ar >= 3 ar < 4"
    ensures RatingClause(5) == " ar:5"
  {
    assert NatToString(3) == "3" && NatToString(4) == "4" && NatToString(5) == "5";
  }

  /**
   * `_generateRatingsInfo`: the query with the rating clause appended when a
   * valid rating was asked for, and the query the facet links are computed
   * from, which is the query before that clause.
   */
  function RatingsInfo(query: string, rating: string): (r: (string, string))
    ensures r.1 == query
    ensures RatingFilter(rating).None? ==> r.0 == query
    ensures RatingFilter(rating).Some? ==> r.0 == query + RatingClause(RatingFilter(rating).value)
  {
    match RatingFilter(rating)
    case None => (query, query)
    case Some(n) => (query + RatingClause(n), query)
  }

  // ---------------------------------------------------------------------------
  // Sorting

  /** The sort of a query: by match score, or by a list of expressions, any of which may be absent. */
  datatype SortPlan = MatchScorer | Expressions(exprs: seq<Option<Docs.SortExpression>>)

  /** `sort_dict.get(key)`. */
  function SortLookup(key: string): Option<Docs.SortExpression> {
    if key in Docs.SortDict() then Some(Docs.SortDict()[key]) else None
  }

  /**
   * The sort half of `_buildQuery`: 'relevance' sorts by match score;
   * otherwise the chosen key is the first dimension and the average rating the
   * second, or the price when the chosen key is the average rating. A key
   * with no sort expression is not rejected: its first dimension is absent.
   */
  function BuildSort(sortq: string): (r: SortPlan)
    ensures sortq == "relevance" <==> r.MatchScorer?
    ensures r.Expressions? ==> |r.exprs| == 2 && r.exprs[0] == SortLookup(sortq)
    ensures r.Expressions? && sortq == Docs.AVG_RATING ==> r.exprs[1] == SortLookup(Docs.PRICE)
    ensures r.Expressions? && sortq != Docs.AVG_RATING ==> r.exprs[1] == SortLookup(Docs.AVG_RATING)
  {
    if sortq == "relevance" then MatchScorer
    else if sortq == Docs.AVG_RATING then Expressions([SortLookup(sortq), SortLookup(Docs.PRICE)])
    else Expressions([SortLookup(sortq), SortLookup(Docs.AVG_RATING)])
  }

  /**
   * Every entry of the sort menu yields a complete sort: relevance the match
   * scorer, any other entry two present expressions whose first sorts on the
   * entry's own field and whose second is a different field. Anything else
   * (the empty default included) leaves the first dimension absent.
   */
  lemma MenuSortsAreComplete(sortq: string)
    ensures (exists i :: 1 <= i < |Docs.SortMenu()| && Docs.SortMenu()[i].0 == sortq) ==>
      var r := BuildSort(sortq);
      && r.Expressions? && r.exprs[0].Some? && r.exprs[1].Some?
      && r.exprs[0].value.expression == sortq && r.exprs[1].value.expression != sortq
    ensures sortq != "relevance" && sortq !in Docs.SortDict() ==> BuildSort(sortq).exprs[0].None?
  {
    Docs.SortMenuMatchesDict();
  }

  /** The parts of a search query this model keeps: query string, page size, offset, sort. */
  datatype QueryPlan = QueryPlan(queryString: string, limit: int, offset: int, sort: SortPlan)

  /** `_buildQuery`. */
  function BuildQuery(query: string, sortq: string, limit: int, offset: int): (r: QueryPlan)
    ensures r.queryString == Strip(Unicode, query) && r.limit == limit && r.offset == offset
    ensures r.sort == BuildSort(sortq)
  {
    QueryPlan(Strip(Unicode, query), limit, offset, BuildSort(sortq))
  }

  /** What a product search asks of the index: the query to run and the query its rating facets are computed from. */
  datatype SearchPlan = SearchPlan(query: QueryPlan, facetQuery: string)

  /**
   * The query-building part of `doProductSearch`: the user's query, then the
   * category clause, then the rating clause; the facets are computed without
   * the rating clause, so they show every rating the other filters allow.
   */
  function ProductSearchPlan(request: map<string, string>): (r: SearchPlan)
    ensures var p := ParseSearchParams(request);
      && r.facetQuery == p.query + CategoryClause(p.category)
      && r.query.offset == ParseOffset(p.offset)
      && r.query.limit == DocLimit
      && r.query.sort == BuildSort(p.sort)
      && (RatingFilter(p.rating).None? ==> r.query.queryString == Strip(Unicode, r.facetQuery))
      && (RatingFilter(p.rating).Some? ==>
            r.query.queryString == Strip(Unicode, r.facetQuery + RatingClause(RatingFilter(p.rating).value)))
  {
    var p := ParseSearchParams(request);
    var query := p.query + CategoryClause(p.category);
    var (full, facet) := RatingsInfo(query, p.rating);
    SearchPlan(BuildQuery(full, p.sort, DocLimit, ParseOffset(p.offset)), facet)
  }

  /** A rating clause ends with a digit of the rating. */
  lemma RatingClauseEnd(n: int)
    requires Config.RATING_MIN <= n <= Config.RATING_MAX
    ensures |RatingClause(n)| > 1 && RatingClause(n)[0] == ' ' && IsDigit(RatingClause(n)[|RatingClause(n)| - 1])
  {
    var c := RatingClause(n);
    if n < Config.RATING_MAX {
      var d := NatToString(n + 1);
      assert c == " " + Docs.AVG_RATING + " >= " + IntToString(n) + " " + Docs.AVG_RATING + " < " + d;
      assert c[|c| - 1] == d[|d| - 1];
    } else {
      var d := NatToString(n);
      assert c == " " + Docs.AVG_RATING + ":" + d;
      assert c[|c| - 1] == d[|d| - 1];
    }
  }

  /**
   * Stripping the assembled query never cuts into the filters: when a
   * category is chosen the query sent to the index contains the category
   * restriction, and when a valid rating is chosen it contains the rating
   * clause, each without its leading space.
   */
  lemma PlanKeepsFilters(request: map<string, string>)
    ensures var p := ParseSearchParams(request);
      var q := ProductSearchPlan(request).query.queryString;
      && (p.category != "" ==> Contains(q, CategoryClause(p.category)[1..]))
      && (RatingFilter(p.rating).Some? ==> Contains(q, RatingClause(RatingFilter(p.rating).value)[1..]))
  {
    var p := ParseSearchParams(request);
    var f := RatingFilter(p.rating);
    var facet := p.query + CategoryClause(p.category);
    var s := if f.Some? then facet + RatingClause(f.value) else facet;
    var q := ProductSearchPlan(request).query.queryString;
    match f
    case None =>
      assert q == Strip(Unicode, facet);
      QueryKeepsCategory(p.query, p.category, q);
    case Some(n) =>
      assert q == Strip(Unicode, facet + RatingClause(n));
      QueryKeepsBoth(p.query, p.category, n, q);
  }

  /** Without a rating filter the stripped query keeps the category restriction. */
  lemma QueryKeepsCategory(query: string, category: string, q: string)
    requires q == Strip(Unicode, query + CategoryClause(category))
    ensures category != "" ==> Contains(q, CategoryClause(category)[1..])
  {
    if category != "" {
      KeepsCategory(query, category, "");
      assert query + CategoryClause(category) + "" == query + CategoryClause(category);
    }
  }

  /** With a rating filter the stripped query keeps the category restriction and the rating clause. */
  lemma QueryKeepsBoth(query: string, category: string, n: int, q: string)
    requires Config.RATING_MIN <= n <= Config.RATING_MAX
    requires q == Strip(Unicode, query + CategoryClause(category) + RatingClause(n))
    ensures category != "" ==> Contains(q, CategoryClause(category)[1..])
    ensures Contains(q, RatingClause(n)[1..])
  {
    RatingClauseEnd(n);
    KeepsRating(query + CategoryClause(category), n);
    if category != "" {
      KeepsCategory(query, category, RatingClause(n));
    }
  }

  /** The category restriction survives stripping, whatever follows it as long as that ends in a non-space. */
  lemma KeepsCategory(query: string, category: string, tail: string)
    requires category != ""
    requires tail == [] || !IsUnicodeSpace(tail[|tail| - 1])
    ensures Contains(Strip(Unicode, query + CategoryClause(category) + tail), CategoryClause(category)[1..])
  {
    var c := CategoryClause(category);
    var s := query + c + tail;
    assert c[1] == 'c';
    assert s[|query| + 1..|query| + |c|] == c[1..];
    assert s[|s| - 1] == if tail == [] then c[|c| - 1] else tail[|tail| - 1];
    StripKeeps(Unicode, s, c[1..], |query| + 1);
  }

  /** The rating clause survives stripping. */
  lemma KeepsRating(facet: string, n: int)
    requires Config.RATING_MIN <= n <= Config.RATING_MAX
    ensures Contains(Strip(Unicode, facet + RatingClause(n)), RatingClause(n)[1..])
  {
    var c := RatingClause(n);
    RatingClauseEnd(n);
    var s := facet + c;
    assert s[|s| - 1] == c[|c| - 1];
    assert s[|facet| + 1..|s|] == c[1..];
    assert c[1] == 'a';
    StripKeeps(Unicode, s, c[1..], |facet| + 1);
  }

  // ---------------------------------------------------------------------------
  // Pagination

  /**
   * `_generatePaginationLinks`: the offsets the previous and next links point
   * to, when there are such links.
   */
  function PaginationLinks(offset: int, limit: int, returned: int, found: int): (r: (Option<int>, Option<int>))
    ensures r.0.Some? <==> offset - limit >= 0
    ensures r.0.Some? ==> r.0.value == offset - limit
    ensures r.1.Some? <==> offset + limit <= OffsetLimit && returned == limit && offset + returned < found
    ensures r.1.Some? ==> r.1.value == offset + limit
  {
    var prev := if offset - limit >= 0 then Some(offset - limit) else None;
    var next := if offset + limit <= OffsetLimit && returned == limit && offset + returned < found then Some(offset + limit) else None;
    (prev, next)
  }

  /** From a page at a non-negative offset, the next link leads to a page whose previous link leads back. */
  lemma PrevUndoesNext(offset: int, limit: int, returned: int, found: int, returned2: int, found2: int)
    requires offset >= 0
    requires PaginationLinks(offset, limit, returned, found).1.Some?
    ensures var next := PaginationLinks(offset, limit, returned, found).1.value;
      PaginationLinks(next, limit, returned2, found2).0 == Some(offset)
  {
  }

  /** A next link never points past the offset limit, and always to a result that exists. */
  lemma NextStaysInBounds(offset: int, limit: int, returned: int, found: int)
    requires PaginationLinks(offset, limit, returned, found).1.Some?
    ensures PaginationLinks(offset, limit, returned, found).1.value <= OffsetLimit
    ensures PaginationLinks(offset, limit, returned, found).1.value < found
  {
  }

  // ---------------------------------------------------------------------------
  // Reviews

  /** `CreateReviewHandler.parseParams`: the expected keys, each with its default. */
  datatype ReviewParams = ReviewParams(pid: string, pname: string, comment: string, rating: string, category: string)

  function ParseReviewParams(request: map<string, string>): (r: ReviewParams)
    ensures "comment" !in request ==> r.comment == "this is a great product"
    ensures "rating" !in request ==> r.rating == "5"
  {
    ReviewParams(Get(request, "pid", ""), Get(request, "pname", ""),
                 Get(request, "comment", "this is a great product"), Get(request, "rating", "5"),
                 Get(request, "category", ""))
  }

  /** The verdict on a submitted review, in the order `createReview` checks. */
  datatype ReviewCheck =
    | MissingPid                      // error page
    | MissingComment                  // back to the product page with the parameters as given
    | BadRating(params: ReviewParams) // back to the product page with the rating cleared
    | Valid(rating: int)

  /**
   * The checks of `createReview`: a product id, then a comment, then a rating
   * that is an integer within the allowed range. A bad rating sends the
   * parameters back with the rating cleared.
   */
  function CheckReview(p: ReviewParams): (r: ReviewCheck)
    ensures r.Valid? <==> p.pid != "" && p.comment != "" && ParseInt(Unicode, p.rating).Some?
                          && Config.RATING_MIN <= ParseInt(Unicode, p.rating).value <= Config.RATING_MAX
    ensures r.Valid? ==> Some(r.rating) == ParseInt(Unicode, p.rating) && Config.RATING_MIN <= r.rating <= Config.RATING_MAX
    ensures r.MissingPid? <==> p.pid == ""
    ensures r.MissingComment? <==> p.pid != "" && p.comment == ""
    ensures r.BadRating? ==> r.params == p.(rating := "")
  {
    if p.pid == "" then MissingPid
    else if p.comment == "" then MissingComment
    else
      match ParseInt(Unicode, p.rating)
      case None => BadRating(p.(rating := ""))
      case Some(n) =>
        if n < Config.RATING_MIN || n > Config.RATING_MAX then BadRating(p.(rating := "")) else Valid(n)
  }

  /** The index of the first '@' in `s`, or its length when there is none. */
  function AtIndex(s: string): (i: nat)
    ensures i <= |s|
    ensures forall j :: 0 <= j < i ==> s[j] != '@'
    ensures i < |s| ==> s[i] == '@'
  {
    if s == [] || s[0] == '@' then 0 else 1 + AtIndex(s[1..])
  }

  /** The reviewer's name: the signed-in user's nickname up to its first '@', or 'anonymous'. */
  function Username(nickname: Option<string>): (r: string)
    ensures nickname.None? ==> r == "anonymous"
    ensures nickname.Some? ==> '@' !in r && r <= nickname.value
    ensures nickname.Some? && '@' !in nickname.value ==> r == nickname.value
    ensures nickname.Some? && '@' in nickname.value ==> nickname.value[|r|] == '@'
  {
    match nickname
    case None => "anonymous"
    case Some(n) =>
      var i := AtIndex(n);
      assert forall c :: c in n[..i] ==> c != '@' by {
        forall c | c in n[..i]
          ensures c != '@'
        {
          var j :| 0 <= j < i && n[..i][j] == c;
        }
      }
      n[..i]
  }

  /**
   * `createAndAddReview`: a review of a product that does not exist is
   * refused (HTTP 404) and nothing is stored; otherwise one transaction stores
   * the new, not yet folded-in review under the allocated id `rid` and records
   * the task that folds its rating into the product.
   */
  function CreateAndAddReview(w: World, pid: string, nickname: Option<string>, rating: int, comment: string, rid: nat)
    : (r: (World, Result<Review>, seq<Task>))
    ensures pid !in w.store.products ==> r.0 == w && r.1.Raised? && r.1.exc.HttpAbort? && r.2 == []
    ensures pid in w.store.products ==>
      && r.1 == Ok(Review(pid, Username(nickname), rating, comment, true, false))
      && r.0 == w.(store := w.store.(reviews := w.store.reviews[rid := r.1.value]))
      && r.2 == [ApplyReview(rid)]
  {
    if pid !in w.store.products then (w, Raised(HttpAbort(404, "could not get product for pid " + pid)), [])
    else
      var review := Review(pid, Username(nickname), rating, comment, true, false);
      (w.(store := w.store.(reviews := w.store.reviews[rid := review])), Ok(review), [ApplyReview(rid)])
  }

  /** The outcome of a review submission. */
  datatype ReviewOutcome = Refused(check: ReviewCheck) | Attempted(result: Result<Review>)

  /**
   * `createReview`: the checks, then the creation. Nothing is stored and no task
   * is recorded unless the submission is valid and names an existing product.
   */
  function CreateReview(w: World, request: map<string, string>, nickname: Option<string>, rid: nat): (r: (World, ReviewOutcome, seq<Task>))
    ensures var p := ParseReviewParams(request);
      !(CheckReview(p).Valid? && p.pid in w.store.products) ==> r.0 == w && r.2 == []
    ensures var p := ParseReviewParams(request);
      CheckReview(p).Valid? && p.pid in w.store.products ==>
        && r.1.Attempted? && r.1.result.Ok?
        && r.1.result.value.productKey == p.pid
        && r.1.result.value.rating == CheckReview(p).rating
        && !r.1.result.value.ratingAdded
        && r.0.store.reviews == w.store.reviews[rid := r.1.result.value]
        && r.0.store.products == w.store.products
        && r.2 == [ApplyReview(rid)]
  {
    var p := ParseReviewParams(request);
    match CheckReview(p)
    case Valid(rating) =>
      var (w2, result, tasks) := CreateAndAddReview(w, p.pid, nickname, rating, p.comment, rid);
      (w2, Attempted(result), tasks)
    case other => (w, Refused(other), [])
  }
}

=== FILE: models.dfy ===
/**
 * The datastore entities (models.py): products, their reviews and the category
 * entities, and the entity-level operations that do not touch the search index.
 * The two classmethods that reindex documents live in module `Reindex`, because
 * they need the document helpers, which in turn build `Product` entities.
 */
module Models {
  import opened Optional
  import Search
  import Categories

  /**
   * A product record, keyed by `pid`. `docId` names its search document; the
   * average rating and review count are maintained from reviews, and
   * `needsReviewReindex` marks a document whose rating field is stale.
   */
  datatype Product = Product(
    pid: string,
    docId: string,
    price: real,
    category: string,
    avgRating: real,
    numReviews: nat,
    active: bool,
    needsReviewReindex: bool)

  /**
   * A review. `productKey` is the pid of its product (not a transactional parent).
   * `ratingAdded` records that the rating has been folded into the product's average.
   */
  datatype Review = Review(
    productKey: string,
    username: string,
    rating: int,
    comment: string,
    active: bool,
    ratingAdded: bool)

  /** A category entity, keyed by its name, pointing at its parent category. */
  datatype CategoryEntity = CategoryEntity(parent: Option<string>)

  /** The datastore: products by pid, reviews by allocated id, categories by name. */
  datatype Store = Store(
    products: map<string, Product>,
    reviews: map<nat, Review>,
    categories: map<string, CategoryEntity>)

  /** The datastore together with the product search index. */
  datatype World = World(store: Store, index: Search.Index)

  /**
   * A deferred call, recorded in the outbox of a transaction and run only after
   * the transaction commits.
   */
  datatype Task =
    | ApplyReview(rid: nat)            // utils.updateAverageRating(review key)
    | ReindexProduct(pid: string)      // Product.updateProdDocWithNewRating(pid)
    | PurgeReviews(pid: string)        // Review.deleteReviews(pid)
    | RemoveProductDoc(pid: string)    // docs.Product.removeProductDocByPid(pid)

  /** `Product.create`: a new record takes its core values from the caller and the property defaults for the rest. */
  function Create(pid: string, price: real, category: string, docId: string): (p: Product)
    ensures p.pid == pid && p.price == price && p.category == category && p.docId == docId
    ensures p.avgRating == 0.0 && p.numReviews == 0
    ensures p.active && !p.needsReviewReindex
  {
    Product(pid, docId, price, category, 0.0, 0, true, false)
  }

  /** `update_core`: only price, category and document id change. */
  function UpdateCore(p: Product, price: real, category: string, docId: string): (q: Product)
    ensures q.price == price && q.category == category && q.docId == docId
    ensures q.pid == p.pid && q.avgRating == p.avgRating && q.numReviews == p.numReviews
    ensures q.active == p.active && q.needsReviewReindex == p.needsReviewReindex
  {
    p.(price := price, category := category, docId := docId)
  }

  /** Every stored product sits under its own key. */
  predicate KeysMatch(products: map<string, Product>) {
    forall k :: k in products ==> products[k].pid == k
  }

  function Pids(ents: seq<Product>): set<string> {
    set i | 0 <= i < |ents| :: ents[i].pid
  }

  /** No later entity in `ents` has the same key as `ents[i]`. */
  predicate LastWithPid(ents: seq<Product>, i: int)
    requires 0 <= i < |ents|
  {
    forall j :: i < j < |ents| ==> ents[j].pid != ents[i].pid
  }

  /** `ndb.put_multi`: each entity stored under its key, a later one replacing an earlier one. */
  function PutMulti(products: map<string, Product>, ents: seq<Product>): (r: map<string, Product>)
    ensures r.Keys == products.Keys + Pids(ents)
    decreases |ents|
  {
    if ents == [] then products
    else
      var n := |ents| - 1;
      assert Pids(ents) == Pids(ents[..n]) + {ents[n].pid} by {
        assert forall i :: 0 <= i < n ==> ents[i] == ents[..n][i];
      }
      PutMulti(products, ents[..n])[ents[n].pid := ents[n]]
  }

  /** After `put_multi`, the last entity with a given key is the one stored under it. */
  lemma {:induction false} PutMultiLastWins(products: map<string, Product>, ents: seq<Product>, i: int)
    requires 0 <= i < |ents| && LastWithPid(ents, i)
    ensures PutMulti(products, ents)[ents[i].pid] == ents[i]
    decreases |ents|
  {
    var n := |ents| - 1;
    var prefix := ents[..n];
    assert PutMulti(products, ents) == PutMulti(products, prefix)[ents[n].pid := ents[n]];
    if i < n {
      assert ents[n].pid != ents[i].pid;
      assert prefix[i] == ents[i];
      assert LastWithPid(prefix, i) by {
        forall j | i < j < n
          ensures prefix[j].pid != prefix[i].pid
        {
          assert prefix[j] == ents[j];
        }
      }
      PutMultiLastWins(products, prefix, i);
    }
  }

  /** An entity whose key no put entity carries is left as it was. */
  lemma {:induction false} PutMultiKeepsOthers(products: map<string, Product>, ents: seq<Product>, pid: string)
    requires pid in products && pid !in Pids(ents)
    ensures PutMulti(products, ents)[pid] == products[pid]
    decreases |ents|
  {
    if ents != [] {
      var n := |ents| - 1;
      assert ents[n].pid in Pids(ents);
      assert Pids(ents[..n]) <= Pids(ents) by {
        assert forall i :: 0 <= i < n ==> ents[..n][i] == ents[i];
      }
      PutMultiKeepsOthers(products, ents[..n], pid);
    }
  }

  /** The reviews a product's review page lists. */
  predicate Listed(r: Review, pid: string) {
    r.active && r.ratingAdded && r.productKey == pid
  }

  /** `Product.reviews()`: this product's reviews that are active and already folded into its average. */
  function ProductReviews(reviews: map<nat, Review>, pid: string): (r: map<nat, Review>)
    ensures forall rid :: rid in r <==> rid in reviews && Listed(reviews[rid], pid)
    ensures forall rid :: rid in r ==> r[rid] == reviews[rid]
  {
    map rid | rid in reviews && Listed(reviews[rid], pid) :: reviews[rid]
  }

  /** `Review.deleteReviews(pid)`: removes exactly the reviews of `pid`; an empty pid removes nothing. */
  function DeleteReviews(reviews: map<nat, Review>, pid: string): (r: map<nat, Review>)
    ensures pid == "" ==> r == reviews
    ensures pid != "" ==> forall rid :: rid in r <==> rid in reviews && reviews[rid].productKey != pid
    ensures forall rid :: rid in r ==> r[rid] == reviews[rid]
  {
    if pid == "" then reviews
    else map rid | rid in reviews && reviews[rid].productKey != pid :: reviews[rid]
  }

  /** The cascade may be delivered more than once: a second delivery changes nothing. */
  lemma DeleteReviewsIdempotent(reviews: map<nat, Review>, pid: string)
    ensures DeleteReviews(DeleteReviews(reviews, pid), pid) == DeleteReviews(reviews, pid)
  {
  }

  /** After the cascade, no review points at the product, so none is listed for it. */
  lemma DeleteReviewsLeavesNone(reviews: map<nat, Review>, pid: string)
    requires pid != ""
    ensures forall rid :: rid in DeleteReviews(reviews, pid) ==> DeleteReviews(reviews, pid)[rid].productKey != pid
    ensures ProductReviews(DeleteReviews(reviews, pid), pid) == map[]
  {
  }

  /**
   * `Category.buildCategory`: stores a node under its name, then its children
   * under it. A nameless node adds nothing here; the Python method's warning for it
   * names an undefined variable and so raises `NameError`, a branch the static
   * category tree, whose every node has a name, never takes.
   */
  function BuildCategory(node: Categories.CategoryNode, parent: Option<string>, cats: map<string, CategoryEntity>): (r: map<string, CategoryEntity>)
    ensures cats.Keys <= r.Keys
    ensures node.name != "" ==> node.name in r
    decreases node, 1
  {
    if node.name == "" then cats
    else BuildChildren(node.children, Some(node.name), cats[node.name := CategoryEntity(parent)])
  }

  function BuildChildren(children: seq<Categories.CategoryNode>, parent: Option<string>, cats: map<string, CategoryEntity>): (r: map<string, CategoryEntity>)
    ensures cats.Keys <= r.Keys
    decreases children, 0
  {
    if children == [] then cats
    else BuildChildren(children[1..], parent, BuildCategory(children[0], parent, cats))
  }

  /** `Category.buildAllCategories`: builds the static tree, unless some category already exists. */
  function BuildAllCategories(cats: map<string, CategoryEntity>): (r: map<string, CategoryEntity>)
    ensures |cats| > 0 ==> r == cats
    ensures cats.Keys <= r.Keys
  {
    if |cats| > 0 then cats else BuildCategory(Categories.CTree, None, cats)
  }

  /** `Category.getCategoryInfo`: the category names offered in menus, after building the categories if needed. */
  function GetCategoryInfo(cats: map<string, CategoryEntity>): (r: (map<string, CategoryEntity>, set<string>))
    ensures r.0 == BuildAllCategories(cats)
    ensures "root" !in r.1
    ensures forall c :: c in r.1 <==> c in r.0 && c != "root"
  {
    var built := BuildAllCategories(cats);
    (built, built.Keys - {"root"})
  }

  /** From an empty datastore, the root and its two children are built, the children under the root. */
  lemma BuildFromEmpty()
    ensures BuildAllCategories(map[]) == map[
      "root" := CategoryEntity(None),
      "books" := CategoryEntity(Some("root")),
      "hd televisions" := CategoryEntity(Some("root"))]
  {
    var root := Categories.CTree;
    var books := root.children[0];
    var tvs := root.children[1];
    var m0 := map["root" := CategoryEntity(None)];
    var m1 := m0["books" := CategoryEntity(Some("root"))];
    var m2 := m1["hd televisions" := CategoryEntity(Some("root"))];
    assert BuildChildren(books.children, Some("books"), m1) == m1;
    assert BuildCategory(books, Some("root"), m0) == m1;
    assert BuildChildren(tvs.children, Some("hd televisions"), m2) == m2;
    assert BuildCategory(tvs, Some("root"), m1) == m2;
    assert root.children[1..][1..] == [];
    assert BuildChildren(root.children[1..][1..], Some("root"), m2) == m2;
    assert BuildChildren(root.children[1..], Some("root"), m1) == m2;
    assert BuildChildren(root.children, Some("root"), m0) == m2;
  }

  /** The menu lists exactly the registry's categories. */
  lemma CategoryInfoMatchesRegistry()
    ensures GetCategoryInfo(map[]).1 == Categories.ProductDict.Keys
  {
    BuildFromEmpty();
  }
}

=== FILE: option.dfy ===
/** The conventional optional value, standing in for Python's `None` and Java's `null`. */
module Optional {

  datatype Option<+T> = None | Some(value: T) {

    /** Returns the wrapped value, or `default` when there is none. */
    function GetOr(default: T): T {
      match this
      case Some(v) => v
      case None => default
    }
  }
}

=== FILE: reindex.dfy ===
/**
 * The two reindexing class methods of the product entity (models.py): the
 * batch sweep over dirty products and the single-product reindex. Each
 * product is read and written in a transaction of its own; the documents
 * the sweep rewrites go to the index in one add at the end.
 */
module Reindex {
  import opened Optional
  import opened Errors
  import opened Search
  import opened Models
  import Docs

  /**
   * The transaction of the sweep for one product: a missing or clean product
   * is skipped; a dirty one has its document's rating rewritten from its
   * average and its flag cleared. A missing document raises, and the
   * transaction then writes nothing.
   */
  function SweepStep(store: Store, index: Index, pid: string): (r: Result<(Store, Option<Document>)>)
    ensures !Dirty(store, pid) ==> r == Ok((store, None))
    ensures Dirty(store, pid) ==> (r.Ok? <==> HasDoc(index, store.products[pid]))
    ensures Dirty(store, pid) && r.Ok? ==>
      var prod := store.products[pid];
      && r.value.0 == store.(products := store.products[pid := prod.(needsReviewReindex := false)])
      && r.value.1 == Some(Docs.UpdateRatingInDoc(index, prod.docId, prod.avgRating).value)
    ensures r.Raised? ==> r.exc.AppError? && r.exc.cls == OperationFailedError
  {
    if Dirty(store, pid) then
      var prod := store.products[pid];
      var doc :- Docs.UpdateRatingInDoc(index, prod.docId, prod.avgRating);
      Ok((store.(products := store.products[pid := prod.(needsReviewReindex := false)]), Some(doc)))
    else Ok((store, None))
  }

  predicate Dirty(store: Store, pid: string) {
    pid in store.products && store.products[pid].needsReviewReindex
  }

  /** The product's document can be fetched. */
  predicate HasDoc(index: Index, prod: Product) {
    prod.docId != "" && prod.docId in index
  }

  /** Where the sweep stands: the committed store, the documents collected, whose products they came from, and the exception that ended it. */
  datatype SweepState = SweepState(store: Store, docs: seq<Document>, swept: seq<string>, error: Option<Exception>)

  /** The loop of `updateProdDocsWithNewRating`: an exception ends the sweep; transactions already committed stay committed. */
  function Sweep(store: Store, index: Index, pkeys: seq<string>): (r: SweepState)
    ensures |r.docs| == |r.swept|
    ensures r.store.reviews == store.reviews && r.store.categories == store.categories
    ensures r.store.products.Keys == store.products.Keys
    decreases |pkeys|
  {
    if pkeys == [] then SweepState(store, [], [], None)
    else
      var n := |pkeys| - 1;
      var front := Sweep(store, index, pkeys[..n]);
      if front.error.Some? then front
      else
        match SweepStep(front.store, index, pkeys[n])
        case Raised(e) => front.(error := Some(e))
        case Ok((s, found)) =>
          match found
          case None => front.(store := s)
          case Some(d) => SweepState(s, front.docs + [d], front.swept + [pkeys[n]], None)
  }

  /** The product `pid` with its dirty flag cleared. */
  function Cleared(store: Store, pid: string): Store
    requires pid in store.products
  {
    store.(products := store.products[pid := store.products[pid].(needsReviewReindex := false)])
  }

  /**
   * One more key: the sweep either stops where it was or takes that key's
   * step, which clears a set flag and collects one document, or leaves a clean
   * product alone.
   */
  lemma SweepLast(store: Store, index: Index, pkeys: seq<string>)
    requires pkeys != []
    ensures var n := |pkeys| - 1;
      var front := Sweep(store, index, pkeys[..n]);
      var r := Sweep(store, index, pkeys);
      && (r.store == front.store || (Dirty(front.store, pkeys[n]) && r.store == Cleared(front.store, pkeys[n])))
      && (r.swept == front.swept || r.swept == front.swept + [pkeys[n]])
      && (r.error.None? ==> front.error.None?)
      && (front.error.None? && r.error.None? && Dirty(front.store, pkeys[n]) ==>
            && r.store == Cleared(front.store, pkeys[n]) && r.swept == front.swept + [pkeys[n]]
            && HasDoc(index, front.store.products[pkeys[n]])
            && r.docs == front.docs + [Docs.UpdateRatingInDoc(index, front.store.products[pkeys[n]].docId,
                                                               front.store.products[pkeys[n]].avgRating).value])
      && (r.swept == front.swept ==> r.docs == front.docs && r.store == front.store)
      && (front.error.None? && !Dirty(front.store, pkeys[n]) ==> r == front)
      && (front.error.Some? ==> r == front)
      && (front.error.None? && r.error.Some? ==>
            && Dirty(front.store, pkeys[n]) && !HasDoc(index, front.store.products[pkeys[n]])
            && r.error.value.AppError? && r.error.value.cls == OperationFailedError)
  {
  }

  /**
   * The sweep changes nothing but dirty flags, and those only from dirty to
   * clean and only for listed products.
   */
  lemma {:induction false} SweepOnlyClearsFlags(store: Store, index: Index, pkeys: seq<string>)
    ensures var r := Sweep(store, index, pkeys).store;
      && (forall k :: k in store.products ==>
            r.products[k] == store.products[k].(needsReviewReindex := r.products[k].needsReviewReindex))
      && (forall k :: k in store.products && r.products[k].needsReviewReindex ==> store.products[k].needsReviewReindex)
      && (forall k :: k in store.products && k !in pkeys ==> r.products[k] == store.products[k])
    decreases |pkeys|
  {
    if pkeys != [] {
      var n := |pkeys| - 1;
      var front := Sweep(store, index, pkeys[..n]).store;
      var r := Sweep(store, index, pkeys).store;
      SweepOnlyClearsFlags(store, index, pkeys[..n]);
      SweepLast(store, index, pkeys);
      forall k | k in store.products
        ensures r.products[k] == store.products[k].(needsReviewReindex := r.products[k].needsReviewReindex)
        ensures r.products[k].needsReviewReindex ==> store.products[k].needsReviewReindex
        ensures k !in pkeys ==> r.products[k] == store.products[k]
      {
        if k !in pkeys {
          assert k !in pkeys[..n] && k != pkeys[n];
        }
        if r != front && k == pkeys[n] {
          assert r.products[k] == front.products[k].(needsReviewReindex := false);
        } else {
          assert r.products[k] == front.products[k];
        }
      }
    }
  }

  /**
   * The `i`-th collected document comes from a listed product that was dirty
   * and is now clean, and is that product's document with its rating set to
   * the product's average.
   */
  predicate CollectedFrom(store: Store, index: Index, pkeys: seq<string>, r: SweepState, i: int)
    requires 0 <= i < |r.swept| && |r.docs| == |r.swept|
  {
    var pid := r.swept[i];
    && pid in pkeys && Dirty(store, pid) && !Dirty(r.store, pid)
    && HasDoc(index, store.products[pid])
    && r.docs[i] == Docs.UpdateRatingInDoc(index, store.products[pid].docId, store.products[pid].avgRating).value
  }

  /** Every collected document comes from a listed product that was dirty, as `CollectedFrom` states. */
  lemma {:induction false} SweepCollects(store: Store, index: Index, pkeys: seq<string>)
    ensures forall i :: 0 <= i < |Sweep(store, index, pkeys).swept| ==>
      CollectedFrom(store, index, pkeys, Sweep(store, index, pkeys), i)
    decreases |pkeys|
  {
    if pkeys != [] {
      var n := |pkeys| - 1;
      var front := Sweep(store, index, pkeys[..n]);
      var r := Sweep(store, index, pkeys);
      SweepLast(store, index, pkeys);
      SweepCollects(store, index, pkeys[..n]);
      SweepOnlyClearsFlags(store, index, pkeys[..n]);
      assert forall k :: k in pkeys[..n] ==> k in pkeys;
      if r.swept == front.swept {
        forall i | 0 <= i < |r.swept|
          ensures CollectedFrom(store, index, pkeys, r, i)
        {
          assert CollectedFrom(store, index, pkeys[..n], front, i);
        }
      } else {
        var pid := pkeys[n];
        assert front.store.products[pid] == store.products[pid].(needsReviewReindex := true);
        forall i | 0 <= i < |r.swept|
          ensures CollectedFrom(store, index, pkeys, r, i)
        {
          if i < |front.swept| {
            assert CollectedFrom(store, index, pkeys[..n], front, i);
            assert r.swept[i] == front.swept[i] && r.docs[i] == front.docs[i];
          }
        }
      }
    }
  }

  /** No product's document is collected twice: a swept product is clean and is not swept again. */
  lemma {:induction false} SweepCollectsOnce(store: Store, index: Index, pkeys: seq<string>)
    ensures forall i, j :: 0 <= i < j < |Sweep(store, index, pkeys).swept| ==>
      Sweep(store, index, pkeys).swept[i] != Sweep(store, index, pkeys).swept[j]
    decreases |pkeys|
  {
    if pkeys != [] {
      var n := |pkeys| - 1;
      var front := Sweep(store, index, pkeys[..n]);
      var r := Sweep(store, index, pkeys);
      SweepLast(store, index, pkeys);
      SweepCollectsOnce(store, index, pkeys[..n]);
      SweepCollects(store, index, pkeys[..n]);
      if r.swept != front.swept {
        var pid := pkeys[n];
        forall i | 0 <= i < |front.swept|
          ensures front.swept[i] != pid
        {
          assert CollectedFrom(store, index, pkeys[..n], front, i);
        }
      }
    }
  }

  /**
   * A sweep that raised nothing leaves every listed product clean, and has
   * collected the document of every listed product that was dirty.
   */
  lemma {:induction false} SweepCompletes(store: Store, index: Index, pkeys: seq<string>)
    requires Sweep(store, index, pkeys).error.None?
    ensures var r := Sweep(store, index, pkeys);
      forall k :: k in pkeys && k in store.products ==>
        !Dirty(r.store, k) && (Dirty(store, k) ==> k in r.swept)
    decreases |pkeys|
  {
    if pkeys != [] {
      var n := |pkeys| - 1;
      var front := Sweep(store, index, pkeys[..n]);
      var r := Sweep(store, index, pkeys);
      SweepLast(store, index, pkeys);
      SweepCompletes(store, index, pkeys[..n]);
      SweepOnlyClearsFlags(store, index, pkeys[..n]);
      forall k | k in pkeys && k in store.products
        ensures !Dirty(r.store, k) && (Dirty(store, k) ==> k in r.swept)
      {
        if k in pkeys[..n] {
          assert !Dirty(front.store, k) && (Dirty(store, k) ==> k in front.swept);
          assert k in front.swept ==> k in r.swept;
        } else {
          assert k == pkeys[n];
          assert front.store.products[k] == store.products[k];
        }
      }
    }
  }

  /**
   * The sweep raises exactly when some listed product that is dirty when its
   * turn comes has no document; otherwise it runs to the end.
   */
  lemma {:induction false} SweepFails(store: Store, index: Index, pkeys: seq<string>)
    ensures Sweep(store, index, pkeys).error.Some? ==>
      && Sweep(store, index, pkeys).error.value.AppError?
      && Sweep(store, index, pkeys).error.value.cls == OperationFailedError
      && exists k :: k in pkeys && Dirty(store, k) && !HasDoc(index, store.products[k])
    ensures (forall k :: k in pkeys && Dirty(store, k) ==> HasDoc(index, store.products[k])) ==>
      Sweep(store, index, pkeys).error.None?
    decreases |pkeys|
  {
    if pkeys != [] {
      var n := |pkeys| - 1;
      var front := Sweep(store, index, pkeys[..n]);
      var r := Sweep(store, index, pkeys);
      SweepLast(store, index, pkeys);
      SweepFails(store, index, pkeys[..n]);
      SweepOnlyClearsFlags(store, index, pkeys[..n]);
      assert forall k :: k in pkeys[..n] ==> k in pkeys;
      if front.error.None? && r.error.Some? {
        var pid := pkeys[n];
        assert front.store.products[pid] == store.products[pid].(needsReviewReindex := true);
        assert Dirty(store, pid) && !HasDoc(index, store.products[pid]);
      }
    }
  }

  /**
   * `updateProdDocsWithNewRating`: the sweep, then one add of every collected
   * document. An exception ends the sweep before the add; the products
   * already swept stay clean while their documents are never reindexed.
   * `reply` is the index's answer to the add: a failed add is logged and
   * swallowed, so the products end clean while their documents keep the old rating.
   */
  function UpdateProdDocsWithNewRating(w: World, pkeys: seq<string>, reply: WriteReply): (r: (World, Option<Exception>))
    ensures r.0.store == Sweep(w.store, w.index, pkeys).store
    ensures r.1 == Sweep(w.store, w.index, pkeys).error
    ensures r.1.Some? || reply.WriteFailed? ==> r.0.index == w.index
    ensures r.1.None? && reply.Written? ==> r.0.index == Put(w.index, Sweep(w.store, w.index, pkeys).docs)
  {
    var swept := Sweep(w.store, w.index, pkeys);
    if swept.error.Some? then (w.(store := swept.store), swept.error)
    else if reply.WriteFailed? then (w.(store := swept.store), None)
    else (World(swept.store, Put(w.index, swept.docs)), None)
  }

  /** Every product sits under its own key and points at the document under the same key. */
  predicate Linked(store: Store) {
    forall k :: k in store.products ==> store.products[k].pid == k && store.products[k].docId == k
  }

  /**
   * Convergence of the sweep: when every listed dirty product has its document
   * and the add goes through, the sweep raises nothing, every listed product ends clean, and the index
   * holds, for each product that was dirty, its document with a rating field
   * reading the product's average.
   */
  lemma SweepConverges(w: World, pkeys: seq<string>)
    requires WellFormed(w.index) && Linked(w.store)
    requires forall k :: k in pkeys && Dirty(w.store, k) ==>
      HasDoc(w.index, w.store.products[k]) && CountNamed(w.index[k].fields, Docs.AVG_RATING) == 1
    ensures UpdateProdDocsWithNewRating(w, pkeys, Written).1.None?
    ensures var after := UpdateProdDocsWithNewRating(w, pkeys, Written).0;
      forall k :: k in pkeys && k in w.store.products ==> !Dirty(after.store, k)
    ensures var after := UpdateProdDocsWithNewRating(w, pkeys, Written).0;
      forall k :: k in pkeys && Dirty(w.store, k) ==>
        k in after.index && Docs.GetFieldVal(after.index[k], Docs.AVG_RATING) == Some(Number(w.store.products[k].avgRating))
  {
    var r := Sweep(w.store, w.index, pkeys);
    SweepFails(w.store, w.index, pkeys);
    SweepCompletes(w.store, w.index, pkeys);
    SweepCollects(w.store, w.index, pkeys);
    SweepCollectsOnce(w.store, w.index, pkeys);
    forall k | k in pkeys && Dirty(w.store, k)
      ensures k in Put(w.index, r.docs)
      ensures Docs.GetFieldVal(Put(w.index, r.docs)[k], Docs.AVG_RATING) == Some(Number(w.store.products[k].avgRating))
    {
      var i :| 0 <= i < |r.swept| && r.swept[i] == k;
      assert CollectedFrom(w.store, w.index, pkeys, r, i);
      assert r.docs[i].docId == k;
      assert LastWithId(r.docs, i) by {
        forall j | i < j < |r.docs|
          ensures r.docs[j].docId != r.docs[i].docId
        {
          assert CollectedFrom(w.store, w.index, pkeys, r, j);
          assert r.docs[j].docId == r.swept[j];
          assert r.swept[i] != r.swept[j];
        }
      }
      assert r.docs[i].docId in DocIds(r.docs);
      PutLastWins(w.index, r.docs, i);
    }
  }

  /**
   * A failed add after a sweep that raised nothing: no exception reaches the
   * caller and every listed product ends clean, yet the index is as it was, so
   * no dirty product's document has its new rating and none is marked for a
   * later sweep.
   */
  lemma SweepFailedAddLeavesStale(w: World, pkeys: seq<string>)
    requires forall k :: k in pkeys && Dirty(w.store, k) ==> HasDoc(w.index, w.store.products[k])
    ensures UpdateProdDocsWithNewRating(w, pkeys, WriteFailed).1.None?
    ensures var after := UpdateProdDocsWithNewRating(w, pkeys, WriteFailed).0;
      && after.index == w.index
      && forall k :: k in pkeys && k in w.store.products ==> !Dirty(after.store, k)
  {
    SweepFails(w.store, w.index, pkeys);
    SweepCompletes(w.store, w.index, pkeys);
  }

  /**
   * `updateProdDocWithNewRating`: one transaction clears the product's flag
   * and reads its document id and average; then the document is given that
   * rating and reindexed. A missing product fails reading its document id
   * (`AttributeError`), and a missing document raises after the flag was
   * already cleared.
   */
  function UpdateProdDocWithNewRating(w: World, pid: string, reply: WriteReply): (r: (World, Option<Exception>))
    ensures pid !in w.store.products ==> r.0 == w && r.1.Some? && r.1.value.AttributeError?
    ensures pid in w.store.products ==>
      r.0.store == w.store.(products := w.store.products[pid := w.store.products[pid].(needsReviewReindex := false)])
    ensures pid in w.store.products ==> (r.1.None? <==> HasDoc(w.index, w.store.products[pid]))
    ensures r.1.Some? || reply.WriteFailed? ==> r.0.index == w.index
    ensures r.1.None? && reply.Written? ==>
      var prod := w.store.products[pid];
      var d := Docs.UpdateRatingInDoc(w.index, prod.docId, prod.avgRating).value;
      r.0.index == w.index[d.docId := d]
  {
    if pid !in w.store.products then (w, Some(AttributeError("'NoneType' object has no attribute 'doc_id'")))
    else
      var prod := w.store.products[pid];
      var store := w.store.(products := w.store.products[pid := prod.(needsReviewReindex := false)]);
      match Docs.UpdateRatingInDoc(w.index, prod.docId, prod.avgRating)
      case Raised(e) => (World(store, w.index), Some(e))
      case Ok(d) =>
        if reply.WriteFailed? then (World(store, w.index), None)
        else
          assert Put(w.index, [d]) == Put(w.index, [])[d.docId := d];
          (World(store, Put(w.index, [d])), None)
  }

  /**
   * After a single reindex whose add goes through, the product is clean and its document
   * reads the product's average rating, provided the document had one rating field.
   */
  lemma SingleReindexSetsRating(w: World, pid: string)
    requires WellFormed(w.index) && pid in w.store.products
    requires UpdateProdDocWithNewRating(w, pid, Written).1.None?
    requires CountNamed(w.index[w.store.products[pid].docId].fields, Docs.AVG_RATING) == 1
    ensures var after := UpdateProdDocWithNewRating(w, pid, Written).0;
      && !Dirty(after.store, pid)
      && WellFormed(after.index)
      && Docs.GetFieldVal(after.index[w.store.products[pid].docId], Docs.AVG_RATING)
         == Some(Number(w.store.products[pid].avgRating))
  {
  }

  /**
   * A single reindex whose add fails: nothing is raised and the product is
   * clean, but its document is the one it had, so a rating that differed from
   * the average still differs, and no sweep will pick the product up.
   */
  lemma SingleReindexFailedAdd(w: World, pid: string)
    requires pid in w.store.products && HasDoc(w.index, w.store.products[pid])
    ensures var after := UpdateProdDocWithNewRating(w, pid, WriteFailed);
      && after.1.None?
      && !Dirty(after.0.store, pid)
      && after.0.index[w.store.products[pid].docId] == w.index[w.store.products[pid].docId]
  {
  }

  /** Setting a field twice is setting it once. */
  lemma SetFirstFieldIdempotent(doc: Document, f: Field)
    ensures Docs.SetFirstField(Docs.SetFirstField(doc, f).0, f).0 == Docs.SetFirstField(doc, f).0
  {
    var once := Docs.SetFirstField(doc, f);
    if once.1 {
      var i :| Docs.IsFirstNamed(doc.fields, f.name, i) && once.0.fields == doc.fields[i := f];
      assert Docs.IsFirstNamed(once.0.fields, f.name, i);
      var twice := Docs.SetFirstField(once.0, f);
      var j :| Docs.IsFirstNamed(once.0.fields, f.name, j) && twice.0.fields == once.0.fields[j := f];
      assert i == j;
    }
  }

  /** Redelivery of the single reindex task: running it twice leaves what running it once left. */
  lemma SingleReindexIdempotent(w: World, pid: string, reply: WriteReply)
    requires WellFormed(w.index)
    ensures var once := UpdateProdDocWithNewRating(w, pid, reply).0;
      UpdateProdDocWithNewRating(once, pid, reply).0 == once
  {
    if pid in w.store.products {
      var prod := w.store.products[pid];
      if HasDoc(w.index, prod) && reply.Written? {
        var d := Docs.UpdateRatingInDoc(w.index, prod.docId, prod.avgRating).value;
        SetFirstFieldIdempotent(w.index[prod.docId], Field(Docs.AVG_RATING, Number(prod.avgRating)));
        assert Docs.UpdateRatingInDoc(w.index[prod.docId := d], prod.docId, prod.avgRating).value == d;
      }
    }
  }
}

=== FILE: search.dfy ===
/**
 * The search service the catalogue writes to, reduced to what the code relies on:
 * documents of typed, named fields, an index mapping a document id to its document,
 * and a `put` that stores documents under their own ids.
 */
module Search {

  /** A field value; `Null` is a field whose value is Python's `None`. */
  datatype FieldValue = Text(text: string) | Atom(atom: string) | Number(number: real) | Date(day: int) | Null

  datatype Field = Field(name: string, value: FieldValue)

  datatype Document = Document(docId: string, fields: seq<Field>)

  type Index = map<string, Document>

  /** Every document sits under its own id. */
  predicate WellFormed(index: Index) {
    forall id :: id in index ==> index[id].docId == id
  }

  /** The service's reply to a `put`: an error, or the ids it assigned, in input order. */
  datatype PutReply = PutError | PutIds(ids: seq<string>)

  /**
   * The service's answer to a put or delete whose result the caller discards:
   * it went through, or it raised `search.Error`, which the wrappers
   * `add` and `removeDocById` log and swallow.
   */
  datatype WriteReply = Written | WriteFailed

  /** How many fields carry `name`. */
  function CountNamed(fields: seq<Field>, name: string): nat {
    if fields == [] then 0
    else (if fields[0].name == name then 1 else 0) + CountNamed(fields[1..], name)
  }

  lemma {:induction false} CountNamedAppend(a: seq<Field>, b: seq<Field>, name: string)
    ensures CountNamed(a + b, name) == CountNamed(a, name) + CountNamed(b, name)
  {
    if a == [] {
      assert a + b == b;
    } else {
      assert (a + b)[1..] == a[1..] + b;
      CountNamedAppend(a[1..], b, name);
    }
  }

  lemma {:induction false} CountNamedZero(fields: seq<Field>, name: string)
    ensures CountNamed(fields, name) == 0 <==> forall i :: 0 <= i < |fields| ==> fields[i].name != name
  {
    if fields != [] {
      CountNamedZero(fields[1..], name);
      assert forall i :: 1 <= i < |fields| ==> fields[i] == fields[1..][i - 1];
    }
  }

  function DocIds(docs: seq<Document>): set<string> {
    set i | 0 <= i < |docs| :: docs[i].docId
  }

  /** No later document in `docs` has the same id as `docs[i]`. */
  predicate LastWithId(docs: seq<Document>, i: int)
    requires 0 <= i < |docs|
  {
    forall j :: i < j < |docs| ==> docs[j].docId != docs[i].docId
  }

  /** `index.put(docs)`: each document stored under its id, a later one replacing an earlier one. */
  function Put(index: Index, docs: seq<Document>): (r: Index)
    ensures r.Keys == index.Keys + DocIds(docs)
    ensures WellFormed(index) ==> WellFormed(r)
    decreases |docs|
  {
    if docs == [] then index
    else
      var n := |docs| - 1;
      assert DocIds(docs) == DocIds(docs[..n]) + {docs[n].docId} by {
        assert forall i :: 0 <= i < n ==> docs[i] == docs[..n][i];
      }
      Put(index, docs[..n])[docs[n].docId := docs[n]]
  }

  /** A document whose id no put document carries is left as it was. */
  lemma {:induction false} PutKeepsOthers(index: Index, docs: seq<Document>, id: string)
    requires id in index && id !in DocIds(docs)
    ensures Put(index, docs)[id] == index[id]
    decreases |docs|
  {
    if docs != [] {
      var n := |docs| - 1;
      assert docs[n].docId in DocIds(docs);
      assert DocIds(docs[..n]) <= DocIds(docs) by {
        assert forall i :: 0 <= i < n ==> docs[..n][i] == docs[i];
      }
      PutKeepsOthers(index, docs[..n], id);
    }
  }

  /** After a put, the last document with a given id is the one stored under it. */
  lemma {:induction false} PutLastWins(index: Index, docs: seq<Document>, i: int)
    requires 0 <= i < |docs| && LastWithId(docs, i)
    ensures Put(index, docs)[docs[i].docId] == docs[i]
    decreases |docs|
  {
    var n := |docs| - 1;
    var prefix := docs[..n];
    assert Put(index, docs) == Put(index, prefix)[docs[n].docId := docs[n]];
    if i < n {
      assert docs[n].docId != docs[i].docId;
      assert prefix[i] == docs[i];
      assert LastWithId(prefix, i) by {
        forall j | i < j < n
          ensures prefix[j].docId != prefix[i].docId
        {
          assert prefix[j] == docs[j];
        }
      }
      PutLastWins(index, prefix, i);
    }
  }
}

=== FILE: text.dfy ===
/**
 * String helpers shared by the Python and Java code: Python's `str.strip`,
 * `int(...)` and `float(...)` on strings, `'%s' % n` for integers, `int(x)` on a
 * float, and Java's `Integer.parseInt`.
 */
module Text {
  import opened Optional

  /**
   * Python 2 has two string types: byte strings (`str`, what the CSV reader
   * yields) and `unicode` (what a request yields). They disagree on what
   * whitespace is, and only a byte string passes `str()` unchanged.
   */
  datatype Kind = Bytes | Unicode

  /** Python 2 `string.whitespace`, what `isspace` accepts in a byte string: space, tab, LF, VT, FF, CR. */
  predicate IsWhitespace(c: char) {
    c == ' ' || 9 <= c as int <= 13
  }

  /** Python 2.7 `unicode.isspace`: the ASCII whitespace, the four separators 0x1C-0x1F, and Unicode's other spaces. */
  predicate IsUnicodeSpace(c: char) {
    var n := c as int;
    || IsWhitespace(c) || 0x1C <= n <= 0x1F || n == 0x85 || n == 0xA0 || n == 0x1680 || n == 0x180E
    || 0x2000 <= n <= 0x200A || n == 0x2028 || n == 0x2029 || n == 0x202F || n == 0x205F || n == 0x3000
  }

  /** What `strip` removes from a string of the given kind. */
  predicate IsSpace(kind: Kind, c: char) {
    match kind
    case Bytes => IsWhitespace(c)
    case Unicode => IsUnicodeSpace(c)
  }

  predicate IsDigit(c: char) {
    '0' <= c <= '9'
  }

  predicate AllDigits(s: string) {
    forall i :: 0 <= i < |s| ==> IsDigit(s[i])
  }

  predicate IsAscii(s: string) {
    forall i :: 0 <= i < |s| ==> s[i] as int < 128
  }

  /** The position of the first character `str()` cannot encode in ASCII. */
  function FirstNonAscii(s: string): (i: nat)
    requires !IsAscii(s)
    ensures i < |s| && s[i] as int >= 128
    ensures forall j :: 0 <= j < i ==> s[j] as int < 128
  {
    if s[0] as int >= 128 then 0 else 1 + FirstNonAscii(s[1..])
  }

  /** `sub` occurs in `s` starting at position `i`. */
  predicate OccursAt(s: string, sub: string, i: int) {
    0 <= i <= |s| - |sub| && s[i..i + |sub|] == sub
  }

  /** `sub` occurs somewhere in `s`. */
  predicate Contains(s: string, sub: string) {
    exists i :: 0 <= i <= |s| && OccursAt(s, sub, i)
  }

  lemma ContainsMiddle(a: string, b: string, c: string)
    ensures Contains(a + b + c, b)
  {
    var s := a + b + c;
    assert s[|a|..|a| + |b|] == b;
    assert OccursAt(s, b, |a|);
  }

  /** The position of the first non-whitespace character of `s` at or after `i`, or `|s|`. */
  function SkipSpace(kind: Kind, s: string, i: nat): (k: nat)
    requires i <= |s|
    ensures i <= k <= |s|
    ensures forall j :: i <= j < k ==> IsSpace(kind, s[j])
    ensures k < |s| ==> !IsSpace(kind, s[k])
    decreases |s| - i
  {
    if i < |s| && IsSpace(kind, s[i]) then SkipSpace(kind, s, i + 1) else i
  }

  /** The end of `s[..j]` once its trailing whitespace is dropped. */
  function SpaceBefore(kind: Kind, s: string, j: nat): (k: nat)
    requires j <= |s|
    ensures k <= j
    ensures forall i :: k <= i < j ==> IsSpace(kind, s[i])
    ensures k > 0 ==> !IsSpace(kind, s[k - 1])
  {
    if j > 0 && IsSpace(kind, s[j - 1]) then SpaceBefore(kind, s, j - 1) else j
  }

  /** `r` is `s` with whitespace in front of position `i` and after `r` dropped, and nothing else. */
  predicate StrippedAt(kind: Kind, s: string, r: string, i: int) {
    && OccursAt(s, r, i)
    && (forall j :: 0 <= j < i ==> IsSpace(kind, s[j]))
    && (forall j :: i + |r| <= j < |s| ==> IsSpace(kind, s[j]))
  }

  /** Python `s.strip()`: the slice of `s` left after dropping leading and trailing whitespace. */
  function Strip(kind: Kind, s: string): (r: string)
    ensures |r| > 0 ==> !IsSpace(kind, r[0]) && !IsSpace(kind, r[|r| - 1])
    ensures exists i :: StrippedAt(kind, s, r, i)
    ensures (|s| == 0 || (!IsSpace(kind, s[0]) && !IsSpace(kind, s[|s| - 1]))) ==> r == s
  {
    var i := SkipSpace(kind, s, 0);
    var j := SpaceBefore(kind, s, |s|);
    var r := if i < j then s[i..j] else [];
    assert StrippedAt(kind, s, r, if i < j then i else |s|);
    r
  }

  /**
   * At most one non-empty slice of `s` with non-whitespace ends is `s` with
   * whitespace dropped from both ends.
   */
  lemma StrippedAtUnique(kind: Kind, s: string, r: string, i: int, t: string, k: int)
    requires StrippedAt(kind, s, r, i) && StrippedAt(kind, s, t, k)
    requires |r| > 0 ==> !IsSpace(kind, r[0]) && !IsSpace(kind, r[|r| - 1])
    requires |t| > 0 && !IsSpace(kind, t[0]) && !IsSpace(kind, t[|t| - 1])
    ensures r == t
  {
    assert s[k] == t[0] && s[k + |t| - 1] == t[|t| - 1];
    if |r| == 0 {
      assert false;
    }
    assert s[i] == r[0] && s[i + |r| - 1] == r[|r| - 1];
    assert i == k;
    assert |r| == |t|;
  }

  /** Stripping keeps a piece of the input. */
  lemma StripContained(kind: Kind, s: string)
    ensures Contains(s, Strip(kind, s))
  {
    var i :| StrippedAt(kind, s, Strip(kind, s), i);
  }

  /** A piece that starts with a non-space character survives stripping a string that ends with one. */
  lemma StripKeeps(kind: Kind, s: string, sub: string, k: int)
    requires OccursAt(s, sub, k) && |sub| > 0 && !IsSpace(kind, sub[0])
    requires !IsSpace(kind, s[|s| - 1])
    ensures Contains(Strip(kind, s), sub)
  {
    var r := Strip(kind, s);
    var i :| StrippedAt(kind, s, r, i);
    assert s[k] == sub[0];
    assert i <= k;
    assert i + |r| == |s|;
    assert r == s[i..i + |r|];
    forall j | 0 <= j < |sub|
      ensures r[k - i + j] == sub[j]
    {
      assert r[k - i + j] == s[k + j];
      assert s[k..k + |sub|][j] == s[k + j];
    }
    assert r[k - i..k - i + |sub|] == sub;
    assert OccursAt(r, sub, k - i);
  }

  /** The whitespace a byte string's `strip` drops is whitespace to `unicode.strip` too, but not the other way round. */
  lemma UnicodeStripsMore()
    ensures forall c :: IsWhitespace(c) ==> IsUnicodeSpace(c)
    ensures Strip(Bytes, "p1\U{a0}") == "p1\U{a0}"
    ensures Strip(Unicode, "p1\U{a0}") == "p1"
  {
    var s := "p1\U{a0}";
    assert !IsWhitespace(s[0]) && !IsWhitespace(s[2]);
    assert StrippedAt(Unicode, s, "p1", 0) by {
      assert s[0..2] == "p1";
    }
    var i :| StrippedAt(Unicode, s, Strip(Unicode, s), i);
    StrippedAtUnique(Unicode, s, Strip(Unicode, s), i, "p1", 0);
  }

  function DigitValue(c: char): nat
    requires IsDigit(c)
  {
    c as int - '0' as int
  }

  /** The value of a string of decimal digits (most significant first). */
  function DigitsValue(s: string): nat
    requires AllDigits(s)
  {
    if |s| == 0 then 0 else DigitsValue(s[..|s| - 1]) * 10 + DigitValue(s[|s| - 1])
  }

  /**
   * The characters a unicode string may hold when Python 2.7 reads a number
   * from it: whitespace, which it turns into a space, and code points 1 to
   * 255, which it keeps. Any other character makes the conversion raise
   * `UnicodeEncodeError`, which is a `ValueError`.
   */
  predicate DecimalEncodable(c: char) {
    IsUnicodeSpace(c) || 0 < c as int < 256
  }

  /** The byte string Python 2.7 parses a number from: a byte string as it is; a unicode one re-encoded, when it can be. */
  function NumberBytes(kind: Kind, s: string): (r: Option<string>)
    ensures kind == Bytes ==> r == Some(s)
    ensures kind == Unicode ==> (r.Some? <==> forall i :: 0 <= i < |s| ==> DecimalEncodable(s[i]))
    ensures kind == Unicode && r.Some? ==>
      && |r.value| == |s|
      && forall i :: 0 <= i < |s| ==> r.value[i] == (if IsUnicodeSpace(s[i]) then ' ' else s[i])
  {
    match kind
    case Bytes => Some(s)
    case Unicode =>
      if forall i :: 0 <= i < |s| ==> DecimalEncodable(s[i]) then
        Some(seq(|s|, i requires 0 <= i < |s| => if IsUnicodeSpace(s[i]) then ' ' else s[i]))
      else None
  }

  /**
   * `int(s)` on a byte string: surrounding whitespace, an optional sign,
   * whitespace again after the sign, at least one digit.
   */
  function ParseIntBytes(b: string): (r: Option<int>)
    ensures r.Some? ==> |Strip(Bytes, b)| > 0
  {
    ParseStrippedInt(Strip(Bytes, b))
  }

  /** The number once the whitespace around it is gone: an optional sign and whitespace, then digits. */
  function ParseStrippedInt(t: string): (r: Option<int>)
    ensures r.Some? ==> |t| > 0
  {
    if |t| > 0 && (t[0] == '-' || t[0] == '+') then
      var body := t[SkipSpace(Bytes, t, 1)..];
      if |body| > 0 && AllDigits(body) then
        var v: int := DigitsValue(body);
        Some(if t[0] == '-' then -v else v)
      else None
    else if |t| > 0 && AllDigits(t) then Some(DigitsValue(t))
    else None
  }

  /** Python 2.7 `int(s)` for a string of either kind; `None` where it raises `ValueError`. */
  function ParseInt(kind: Kind, s: string): (r: Option<int>)
    ensures NumberBytes(kind, s).None? ==> r.None?
    ensures NumberBytes(kind, s).Some? ==> r == ParseIntBytes(NumberBytes(kind, s).value)
  {
    match NumberBytes(kind, s)
    case None => None
    case Some(b) => ParseIntBytes(b)
  }

  /** `int` of a string that strips to a sign, optional whitespace, and digits. */
  lemma ParseSigned(b: string, t: string, k: nat)
    requires Strip(Bytes, b) == t && |t| > 0 && (t[0] == '-' || t[0] == '+')
    requires 1 <= k <= |t| && SkipSpace(Bytes, t, 1) == k
    requires k < |t| && AllDigits(t[k..])
    ensures ParseIntBytes(b) == Some(if t[0] == '-' then -(DigitsValue(t[k..]) as int) else DigitsValue(t[k..]))
  {
  }

  /** A space between the sign and the digits is allowed. */
  lemma SpaceAfterSign()
    ensures ParseInt(Bytes, "- 3") == Some(-3)
  {
    var b := "- 3";
    assert b[0] == '-' && b[|b| - 1] == '3';
    assert Strip(Bytes, b) == b;
    assert SkipSpace(Bytes, b, 2) == 2;
    assert SkipSpace(Bytes, b, 1) == 2;
    assert b[2..] == "3";
    assert DigitsValue("3") == 3 by {
      assert "3"[..0] == [];
    }
    ParseSigned(b, b, 2);
  }

  /** In a unicode string, a no-break space counts as whitespace, around the number and after its sign. */
  lemma UnicodeSpaceInNumber()
    ensures ParseInt(Unicode, " +\U{a0}7 ") == Some(7)
  {
    var u := NumberBytes(Unicode, " +\U{a0}7 ").value;
    assert u[0] == ' ' && u[1] == '+' && u[2] == ' ' && u[3] == '7' && u[4] == ' ';
    assert u == " + 7 ";
    SignedSeven();
  }

  lemma SignedSeven()
    ensures ParseIntBytes(" + 7 ") == Some(7)
  {
    var b := " + 7 ";
    var t := "+ 7";
    assert StrippedAt(Bytes, b, t, 1) by {
      assert b[1..4] == t;
    }
    var i :| StrippedAt(Bytes, b, Strip(Bytes, b), i);
    StrippedAtUnique(Bytes, b, Strip(Bytes, b), i, t, 1);
    assert SkipSpace(Bytes, t, 2) == 2;
    assert SkipSpace(Bytes, t, 1) == 2;
    assert t[2..] == "7";
    assert DigitsValue("7") == 7 by {
      assert "7"[..0] == [];
    }
    ParseSigned(b, t, 2);
  }

  function Pow10(n: nat): (r: nat)
    ensures r >= 1
  {
    if n == 0 then 1 else 10 * Pow10(n - 1)
  }

  /** An unsigned decimal: digits, optionally one '.', at least one digit in all. */
  function ParseUnsignedDecimal(t: string): Option<real> {
    if '.' in t then
      var i := FirstIndexOf(t, '.');
      var whole := t[..i];
      var frac := t[i + 1..];
      if AllDigits(whole) && AllDigits(frac) && |whole| + |frac| > 0 then
        Some(DigitsValue(whole) as real + DigitsValue(frac) as real / Pow10(|frac|) as real)
      else None
    else if |t| > 0 && AllDigits(t) then Some(DigitsValue(t) as real)
    else None
  }

  /** `float(s)` on a byte string in plain decimal notation: surrounding whitespace, an optional sign, the number. */
  function ParseFloatBytes(b: string): Option<real> {
    ParseStrippedFloat(Strip(Bytes, b))
  }

  /** The number once the whitespace around it is gone: an optional sign, then an unsigned decimal. */
  function ParseStrippedFloat(t: string): Option<real> {
    if |t| > 0 && (t[0] == '-' || t[0] == '+') then
      match ParseUnsignedDecimal(t[1..])
      case Some(x) => Some(if t[0] == '-' then -x else x)
      case None => None
    else ParseUnsignedDecimal(t)
  }

  /** Python 2.7 `float(s)` for a string of either kind; `None` where it raises `ValueError`. */
  function ParseFloat(kind: Kind, s: string): (r: Option<real>)
    ensures NumberBytes(kind, s).None? ==> r.None?
    ensures NumberBytes(kind, s).Some? ==> r == ParseFloatBytes(NumberBytes(kind, s).value)
  {
    match NumberBytes(kind, s)
    case None => None
    case Some(b) => ParseFloatBytes(b)
  }

  // ---------------------------------------------------------------------------
  // What the number parsers accept, stated without them

  /** `t[0]` is a sign, `t[1..k]` whitespace, and `t[k..]` one or more digits; `v` is the signed value. */
  predicate SignedIntAt(t: string, k: int, v: int) {
    && 1 <= k < |t| && (t[0] == '-' || t[0] == '+')
    && (forall j :: 1 <= j < k ==> IsWhitespace(t[j]))
    && AllDigits(t[k..])
    && v == (if t[0] == '-' then -(DigitsValue(t[k..]) as int) else DigitsValue(t[k..]))
  }

  /** A stripped integer literal as Python 2.7's `int()` reads it, with value `v`. */
  ghost predicate IntLiteral(t: string, v: int) {
    || (|t| > 0 && AllDigits(t) && v == DigitsValue(t))
    || exists k :: SignedIntAt(t, k, v)
  }

  /** `int()` of a byte string succeeds exactly on an integer literal once stripped, and gives its value. */
  lemma ParseIntBytesMeans(b: string)
    ensures ParseIntBytes(b).Some? ==> IntLiteral(Strip(Bytes, b), ParseIntBytes(b).value)
    ensures forall v :: IntLiteral(Strip(Bytes, b), v) ==> ParseIntBytes(b) == Some(v)
  {
    ParseStrippedIntMeans(Strip(Bytes, b));
  }

  /** The stripped reader accepts exactly the integer literals and gives their values. */
  lemma ParseStrippedIntMeans(t: string)
    ensures ParseStrippedInt(t).Some? ==> IntLiteral(t, ParseStrippedInt(t).value)
    ensures forall v :: IntLiteral(t, v) ==> ParseStrippedInt(t) == Some(v)
  {
    if |t| > 0 && (t[0] == '-' || t[0] == '+') {
      var k0 := SkipSpace(Bytes, t, 1);
      if ParseStrippedInt(t).Some? {
        assert SignedIntAt(t, k0, ParseStrippedInt(t).value);
      }
      forall v | IntLiteral(t, v)
        ensures ParseStrippedInt(t) == Some(v)
      {
        assert !IsDigit(t[0]);
        var k :| SignedIntAt(t, k, v);
        SignedIntStart(t, k, v);
      }
    }
  }

  /** The digits of a signed literal start where the whitespace after the sign ends. */
  lemma SignedIntStart(t: string, k: int, v: int)
    requires SignedIntAt(t, k, v)
    ensures SkipSpace(Bytes, t, 1) == k
  {
    var k0 := SkipSpace(Bytes, t, 1);
    assert IsDigit(t[k..][0]);
  }

  /** Python 2.7 `int()` of a string of either kind: the encodable strings whose bytes strip to an integer literal. */
  lemma ParseIntMeans(kind: Kind, s: string, v: int)
    ensures ParseInt(kind, s) == Some(v) <==>
      NumberBytes(kind, s).Some? && IntLiteral(Strip(Bytes, NumberBytes(kind, s).value), v)
  {
    if NumberBytes(kind, s).Some? {
      ParseIntBytesMeans(NumberBytes(kind, s).value);
    }
  }

  /** `t[i]` is the only '.', with digits on both sides and at least one digit in all; `x` is the value. */
  predicate PointAt(t: string, i: int, x: real) {
    && 0 <= i < |t| && t[i] == '.' && |t| > 1
    && AllDigits(t[..i]) && AllDigits(t[i + 1..])
    && x == DigitsValue(t[..i]) as real + DigitsValue(t[i + 1..]) as real / Pow10(|t| - i - 1) as real
  }

  /** An unsigned decimal in plain notation with value `x`: digits, or digits around one point. */
  ghost predicate DecimalLiteral(t: string, x: real) {
    || (|t| > 0 && AllDigits(t) && x == DigitsValue(t) as real)
    || exists i :: PointAt(t, i, x)
  }

  /** A stripped decimal as `float()` reads it here: an optional sign directly before an unsigned decimal. */
  ghost predicate FloatLiteral(t: string, x: real) {
    || DecimalLiteral(t, x)
    || (|t| > 0 && (t[0] == '-' || t[0] == '+') && DecimalLiteral(t[1..], if t[0] == '-' then -x else x))
  }

  /** The unsigned decimal reader accepts exactly the unsigned decimals and gives their values. */
  lemma ParseUnsignedDecimalMeans(t: string)
    ensures ParseUnsignedDecimal(t).Some? ==> DecimalLiteral(t, ParseUnsignedDecimal(t).value)
    ensures forall x :: DecimalLiteral(t, x) ==> ParseUnsignedDecimal(t) == Some(x)
  {
    if '.' in t {
      var i0 := FirstIndexOf(t, '.');
      if ParseUnsignedDecimal(t).Some? {
        assert PointAt(t, i0, ParseUnsignedDecimal(t).value);
      }
      forall x | DecimalLiteral(t, x)
        ensures ParseUnsignedDecimal(t) == Some(x)
      {
        var j :| 0 <= j < |t| && t[j] == '.';
        assert !IsDigit(t[j]);
        var i :| PointAt(t, i, x);
        PointUnique(t, i, x, i0);
      }
    }
  }

  /** The point of an unsigned decimal is the first '.' of the string. */
  lemma PointUnique(t: string, i: int, x: real, i0: int)
    requires PointAt(t, i, x)
    requires 0 <= i0 < |t| && t[i0] == '.' && '.' !in t[..i0]
    ensures i == i0
  {
  }

  /** `float()` of a byte string succeeds exactly on a decimal literal once stripped, and gives its value. */
  lemma ParseFloatBytesMeans(b: string)
    ensures ParseFloatBytes(b).Some? ==> FloatLiteral(Strip(Bytes, b), ParseFloatBytes(b).value)
    ensures forall x :: FloatLiteral(Strip(Bytes, b), x) ==> ParseFloatBytes(b) == Some(x)
  {
    ParseStrippedFloatMeans(Strip(Bytes, b));
  }

  /** The signed reader accepts exactly the decimal literals and gives their values. */
  lemma ParseStrippedFloatMeans(t: string)
    ensures ParseStrippedFloat(t).Some? ==> FloatLiteral(t, ParseStrippedFloat(t).value)
    ensures forall x :: FloatLiteral(t, x) ==> ParseStrippedFloat(t) == Some(x)
  {
    if |t| > 0 && (t[0] == '-' || t[0] == '+') {
      SignedFloatMeans(t);
    } else {
      UnsignedFloatMeans(t);
    }
  }

  /** Without a sign in front, a decimal literal is an unsigned decimal. */
  lemma UnsignedFloatMeans(t: string)
    requires !(|t| > 0 && (t[0] == '-' || t[0] == '+'))
    ensures forall x :: FloatLiteral(t, x) <==> DecimalLiteral(t, x)
    ensures ParseUnsignedDecimal(t).Some? ==> DecimalLiteral(t, ParseUnsignedDecimal(t).value)
    ensures forall x :: DecimalLiteral(t, x) ==> ParseUnsignedDecimal(t) == Some(x)
  {
    ParseUnsignedDecimalMeans(t);
  }

  /** A stripped string that starts with a sign is read as the sign applied to the unsigned decimal after it. */
  lemma SignedFloatMeans(t: string)
    requires |t| > 0 && (t[0] == '-' || t[0] == '+')
    ensures forall x :: FloatLiteral(t, x) <==> DecimalLiteral(t[1..], if t[0] == '-' then -x else x)
    ensures ParseUnsignedDecimal(t[1..]).Some? ==> DecimalLiteral(t[1..], ParseUnsignedDecimal(t[1..]).value)
    ensures forall y :: DecimalLiteral(t[1..], y) ==> ParseUnsignedDecimal(t[1..]) == Some(y)
  {
    ParseUnsignedDecimalMeans(t[1..]);
    NoSignedDecimal(t);
  }

  /** A string that starts with a sign is no unsigned decimal. */
  lemma NoSignedDecimal(t: string)
    requires |t| > 0 && (t[0] == '-' || t[0] == '+')
    ensures forall x :: !DecimalLiteral(t, x)
  {
    assert !IsDigit(t[0]);
  }

  /** Python 2.7 `float()` of a string of either kind: the encodable strings whose bytes strip to a decimal literal. */
  lemma ParseFloatMeans(kind: Kind, s: string, x: real)
    ensures ParseFloat(kind, s) == Some(x) <==>
      NumberBytes(kind, s).Some? && FloatLiteral(Strip(Bytes, NumberBytes(kind, s).value), x)
  {
    if NumberBytes(kind, s).Some? {
      ParseFloatBytesMeans(NumberBytes(kind, s).value);
    }
  }

  /** `float()` of a rendered integer gives that integer, from either kind of string. */
  lemma ParseFloatOfIntToString(kind: Kind, n: int)
    ensures ParseFloat(kind, IntToString(n)) == Some(n as real)
  {
    var s := IntToString(n);
    PlainNumberBytes(kind, s);
    assert !IsWhitespace(s[0]) && !IsWhitespace(s[|s| - 1]);
    assert Strip(Bytes, s) == s;
    ParseFloatBytesMeans(s);
    if n < 0 {
      assert s[1..] == NatToString(-n);
      assert DecimalLiteral(s[1..], (-n) as real);
      assert FloatLiteral(s, n as real);
    } else {
      assert DecimalLiteral(s, n as real);
    }
  }

  function FirstIndexOf(s: string, c: char): (i: nat)
    requires c in s
    ensures i < |s| && s[i] == c && c !in s[..i]
  {
    if s[0] == c then 0 else 1 + FirstIndexOf(s[1..], c)
  }

  function DigitChar(d: nat): (c: char)
    requires d < 10
    ensures IsDigit(c) && DigitValue(c) == d
  {
    ('0' as int + d) as char
  }

  /** Decimal rendering of a natural number, as Python's `'%s' % n`. */
  function NatToString(n: nat): (s: string)
    ensures |s| > 0 && AllDigits(s)
    ensures DigitsValue(s) == n
  {
    if n < 10 then [DigitChar(n)]
    else
      var s := NatToString(n / 10) + [DigitChar(n % 10)];
      assert s[..|s| - 1] == NatToString(n / 10);
      s
  }

  function IntToString(n: int): string {
    if n < 0 then "-" + NatToString(-n) else NatToString(n)
  }

  /** Reading back a rendered integer gives the integer, from either kind of string. */
  lemma ParseIntOfIntToString(kind: Kind, n: int)
    ensures ParseInt(kind, IntToString(n)) == Some(n)
  {
    var s := IntToString(n);
    PlainNumberBytes(kind, s);
    ParseIntBytesOfIntToString(n);
  }

  /** A string of digits and signs reaches the number parser unchanged. */
  lemma PlainNumberBytes(kind: Kind, s: string)
    requires forall i :: 0 <= i < |s| ==> IsDigit(s[i]) || s[i] == '-'
    ensures NumberBytes(kind, s) == Some(s)
  {
    if kind == Unicode {
      assert forall i :: 0 <= i < |s| ==> DecimalEncodable(s[i]) && !IsUnicodeSpace(s[i]);
      assert NumberBytes(kind, s).value == s;
    }
  }

  lemma ParseIntBytesOfIntToString(n: int)
    ensures ParseIntBytes(IntToString(n)) == Some(n)
  {
    var s := IntToString(n);
    assert !IsWhitespace(s[0]) && !IsWhitespace(s[|s| - 1]);
    assert Strip(Bytes, s) == s;
    if n < 0 {
      assert s[1..] == NatToString(-n);
      assert SkipSpace(Bytes, s, 1) == 1;
    }
  }

  /** Python `int(x)` on a float truncates toward zero. */
  function TruncToInt(x: real): (r: int)
    ensures 0.0 <= x ==> r as real <= x < r as real + 1.0
    ensures x < 0.0 ==> r as real - 1.0 < x <= r as real
  {
    if x >= 0.0 then x.Floor else -((-x).Floor)
  }

  const JavaIntMin: int := -0x8000_0000
  const JavaIntMax: int := 0x7FFF_FFFF

  /** `s` is an optional sign followed by at least one digit, and its value is `v`. */
  predicate SignedDecimal(s: string, v: int) {
    || (|s| > 0 && AllDigits(s) && v == DigitsValue(s))
    || (|s| > 1 && s[0] == '+' && AllDigits(s[1..]) && v == DigitsValue(s[1..]))
    || (|s| > 1 && s[0] == '-' && AllDigits(s[1..]) && v == -(DigitsValue(s[1..]) as int))
  }

  /** Java `Integer.parseInt(s)`: optional sign, at least one ASCII digit, no whitespace, 32-bit range. */
  function ParseJavaInt(s: string): (r: Option<int>)
    ensures r.Some? ==> SignedDecimal(s, r.value) && JavaIntMin <= r.value <= JavaIntMax
    ensures forall v :: SignedDecimal(s, v) && JavaIntMin <= v <= JavaIntMax ==> r == Some(v)
  {
    var v :=
      if |s| > 0 && (s[0] == '-' || s[0] == '+') then
        if |s| > 1 && AllDigits(s[1..]) then
          var d: int := DigitsValue(s[1..]);
          Some(if s[0] == '-' then -d else d)
        else None
      else if |s| > 0 && AllDigits(s) then Some(DigitsValue(s))
      else None;
    if v.Some? && JavaIntMin <= v.value <= JavaIntMax then v else None
  }

  /** Java reads back every 32-bit integer rendered in decimal; nothing outside that range parses. */
  lemma ParseJavaIntOfIntToString(n: int)
    ensures JavaIntMin <= n <= JavaIntMax ==> ParseJavaInt(IntToString(n)) == Some(n)
    ensures !(JavaIntMin <= n <= JavaIntMax) ==> ParseJavaInt(IntToString(n)) == None
  {
    var s := IntToString(n);
    if n < 0 {
      assert s[1..] == NatToString(-n);
      assert SignedDecimal(s, n);
    } else {
      assert SignedDecimal(s, n);
    }
    SignedDecimalUnique(s, n);
  }

  /** A string has at most one signed-decimal value. */
  lemma SignedDecimalUnique(s: string, v: int)
    requires SignedDecimal(s, v)
    ensures forall u :: SignedDecimal(s, u) ==> u == v
  {
  }
}

=== FILE: text_search_servlet.dfy ===
/**
 * The Java demo servlet over one shared text index: choosing the action a
 * request asks for, building the document `add` puts, the ids `remove`
 * reports as failed, reading a single field back, and the search request's
 * defaults. The search service's replies are inputs.
 */
module TextSearchServlet {
  import opened Optional
  import opened Errors
  import Text

  const VOID_REMOVE: string := "Remove failed due to a null doc ID"
  const VOID_ADD: string := "Document not added due to empty content"

  /** The request's parameters: each name with its values, in order. */
  type Request = map<string, seq<string>>

  /** `req.getParameter(name)`: the first value, or null. */
  function Parameter(req: Request, name: string): Option<string> {
    if name in req && |req[name]| > 0 then Some(req[name][0]) else None
  }

  /** `req.getParameterValues(name)`: all the values, or null. */
  function ParameterValues(req: Request, name: string): Option<seq<string>> {
    if name in req && |req[name]| > 0 then Some(req[name]) else None
  }

  datatype Action = Add | Remove | Default

  /** `getAction`: `index` asks to add, else `delete` asks to remove, else only search. */
  function GetAction(req: Request): (a: Action)
    ensures a == Add <==> Parameter(req, "index").Some?
    ensures a == Remove <==> Parameter(req, "index").None? && Parameter(req, "delete").Some?
    ensures a == Default <==> Parameter(req, "index").None? && Parameter(req, "delete").None?
  {
    if Parameter(req, "index").Some? then Add
    else if Parameter(req, "delete").Some? then Remove
    else Default
  }

  // ---------------------------------------------------------------------------
  // Documents of the Java search API

  datatype Value = TextValue(text: string) | HtmlValue(html: string) | AtomValue(atom: string) | NumberValue(number: int) | DateValue(day: int)

  datatype Field = Field(name: string, value: Value)

  datatype Document = Document(id: string, fields: seq<Field>)

  /** `field.getText()`: the text of a text field, null for every other kind. */
  function GetText(v: Value): Option<string> {
    if v.TextValue? then Some(v.text) else None
  }

  /** `field.getHTML()`: the markup of an HTML field, null for every other kind. */
  function GetHtml(v: Value): Option<string> {
    if v.HtmlValue? then Some(v.html) else None
  }

  /** `doc.getFieldCount(name)`. */
  function FieldCount(fields: seq<Field>, name: string): nat {
    if fields == [] then 0
    else (if fields[0].name == name then 1 else 0) + FieldCount(fields[1..], name)
  }

  /** The first field named `name`. */
  function FirstNamed(fields: seq<Field>, name: string): (i: nat)
    requires FieldCount(fields, name) > 0
    ensures i < |fields| && fields[i].name == name
    ensures forall j :: 0 <= j < i ==> fields[j].name != name
  {
    if fields[0].name == name then 0 else 1 + FirstNamed(fields[1..], name)
  }

  /** With exactly one field of that name, the first one is the only one. */
  lemma {:induction false} OnlyOneNamed(fields: seq<Field>, name: string, j: nat)
    requires FieldCount(fields, name) == 1
    requires j < |fields| && fields[j].name == name
    ensures j == FirstNamed(fields, name)
  {
    if fields[0].name == name {
      if j > 0 {
        NoneNamed(fields[1..], name, j - 1);
      }
    } else {
      OnlyOneNamed(fields[1..], name, j - 1);
    }
  }

  lemma {:induction false} NoneNamed(fields: seq<Field>, name: string, j: nat)
    requires FieldCount(fields, name) == 0
    requires j < |fields|
    ensures fields[j].name != name
  {
    if j > 0 {
      NoneNamed(fields[1..], name, j - 1);
    }
  }

  /**
   * `getOnlyField`: when exactly one field has the name, its text (null when
   * it is not a text field); otherwise the default.
   */
  function GetOnlyField(doc: Document, name: string, default: string): (r: Option<string>)
    ensures FieldCount(doc.fields, name) != 1 ==> r == Some(default)
    ensures FieldCount(doc.fields, name) == 1 ==>
      forall j :: 0 <= j < |doc.fields| && doc.fields[j].name == name ==> r == GetText(doc.fields[j].value)
  {
    if FieldCount(doc.fields, name) == 1 then
      assert forall j :: 0 <= j < |doc.fields| && doc.fields[j].name == name ==> j == FirstNamed(doc.fields, name) by {
        forall j | 0 <= j < |doc.fields| && doc.fields[j].name == name {
          OnlyOneNamed(doc.fields, name, j);
        }
      }
      GetText(doc.fields[FirstNamed(doc.fields, name)].value)
    else Some(default)
  }

  lemma {:induction false} FieldCountAppend(a: seq<Field>, b: seq<Field>, name: string)
    ensures FieldCount(a + b, name) == FieldCount(a, name) + FieldCount(b, name)
  {
    if a == [] {
      assert a + b == b;
    } else {
      assert (a + b)[1..] == a[1..] + b;
      FieldCountAppend(a[1..], b, name);
    }
  }

  // ---------------------------------------------------------------------------
  // Tags

  /** The length of the run of non-comma characters at the front of `s`. */
  function RunLength(s: string): (n: nat)
    ensures n <= |s|
    ensures forall i :: 0 <= i < n ==> s[i] != ','
    ensures n < |s| ==> s[n] == ','
    ensures |s| > 0 && s[0] != ',' ==> n > 0
  {
    if s == [] || s[0] == ',' then 0 else 1 + RunLength(s[1..])
  }

  /** `java.util.StringTokenizer(s, ",")`: the maximal comma-free runs, in order; empty runs give no token. */
  function Tokens(s: string): (r: seq<string>)
    ensures forall i :: 0 <= i < |r| ==> |r[i]| > 0 && ',' !in r[i]
    decreases |s|
  {
    if s == [] then []
    else if s[0] == ',' then Tokens(s[1..])
    else
      var n := RunLength(s);
      assert forall i :: 0 <= i < n ==> s[..n][i] != ',';
      [s[..n]] + Tokens(s[n..])
  }

  function Concat(ts: seq<string>): string {
    if ts == [] then "" else ts[0] + Concat(ts[1..])
  }

  /** `s` with its commas taken out. */
  function RemoveCommas(s: string): string {
    if s == [] then "" else (if s[0] == ',' then "" else [s[0]]) + RemoveCommas(s[1..])
  }

  /** Pieces joined with `sep` between neighbours. */
  function JoinWith(ts: seq<string>, sep: string): string {
    if ts == [] then ""
    else if |ts| == 1 then ts[0]
    else ts[0] + sep + JoinWith(ts[1..], sep)
  }

  lemma {:induction false} RemoveCommasAppend(a: string, b: string)
    ensures RemoveCommas(a + b) == RemoveCommas(a) + RemoveCommas(b)
  {
    if a == [] {
      assert a + b == b;
    } else {
      assert (a + b)[1..] == a[1..] + b;
      RemoveCommasAppend(a[1..], b);
    }
  }

  lemma {:induction false} RemoveCommasNone(a: string)
    requires forall i :: 0 <= i < |a| ==> a[i] != ','
    ensures RemoveCommas(a) == a
  {
    if a != [] {
      RemoveCommasNone(a[1..]);
    }
  }

  /** Tokenising loses exactly the commas: the tokens spell out the input without its commas. */
  lemma {:induction false} TokensSpellInput(s: string)
    ensures Concat(Tokens(s)) == RemoveCommas(s)
    decreases |s|
  {
    if s == [] {
    } else if s[0] == ',' {
      TokensSpellInput(s[1..]);
    } else {
      var n := RunLength(s);
      TokensSpellInput(s[n..]);
      assert s == s[..n] + s[n..];
      RemoveCommasAppend(s[..n], s[n..]);
      RemoveCommasNone(s[..n]);
      assert Tokens(s) == [s[..n]] + Tokens(s[n..]);
      assert ([s[..n]] + Tokens(s[n..]))[1..] == Tokens(s[n..]);
    }
  }

  /** A run of non-comma characters followed by nothing or a comma is measured exactly. */
  lemma {:induction false} RunLengthOf(t: string, rest: string)
    requires forall i :: 0 <= i < |t| ==> t[i] != ','
    requires rest == [] || rest[0] == ','
    ensures RunLength(t + rest) == |t|
  {
    if t != [] {
      assert (t + rest)[1..] == t[1..] + rest;
      RunLengthOf(t[1..], rest);
    }
  }

  /** Tokenising inverts joining: non-empty, comma-free tags joined with commas come back as they were. */
  lemma {:induction false} TokensOfJoin(ts: seq<string>)
    requires forall i :: 0 <= i < |ts| ==> |ts[i]| > 0 && ',' !in ts[i]
    ensures Tokens(JoinWith(ts, ",")) == ts
  {
    if ts == [] {
    } else {
      var t := ts[0];
      var rest := if |ts| == 1 then "" else "," + JoinWith(ts[1..], ",");
      assert JoinWith(ts, ",") == t + rest;
      assert forall i :: 0 <= i < |t| ==> t[i] != ',' by {
        forall i | 0 <= i < |t|
          ensures t[i] != ','
        {
          assert t[i] in t;
        }
      }
      RunLengthOf(t, rest);
      var s := t + rest;
      assert s[..|t|] == t && s[|t|..] == rest;
      if |ts| == 1 {
        assert Tokens(s) == [t];
      } else {
        TokensOfJoin(ts[1..]);
        assert rest[1..] == JoinWith(ts[1..], ",");
        assert Tokens(rest) == Tokens(rest[1..]);
        assert Tokens(s) == [t] + ts[1..];
      }
    }
  }

  /** Separators that repeat or lead give no empty tags. */
  lemma TokensSkipEmptyRuns()
    ensures Tokens(",a,,bc,") == ["a", "bc"]
  {
    assert Tokens(",a,,bc,") == Tokens("a,,bc,") by {
      assert ",a,,bc,"[1..] == "a,,bc,";
    }
    assert RunLength("a,,bc,") == 1 by {
      RunLengthOf("a", ",,bc,");
      assert "a" + ",,bc," == "a,,bc,";
    }
    assert Tokens("a,,bc,") == ["a"] + Tokens(",,bc,") by {
      assert "a,,bc,"[..1] == "a" && "a,,bc,"[1..] == ",,bc,";
    }
    assert Tokens(",,bc,") == Tokens("bc,") by {
      assert ",,bc,"[1..] == ",bc," && ",bc,"[1..] == "bc,";
      assert Tokens(",,bc,") == Tokens(",bc,");
    }
    assert RunLength("bc,") == 2 by {
      RunLengthOf("bc", ",");
      assert "bc" + "," == "bc,";
    }
    assert Tokens("bc,") == ["bc"] + Tokens(",") by {
      assert "bc,"[..2] == "bc" && "bc,"[2..] == ",";
    }
    assert Tokens(",") == [] by {
      assert ","[1..] == "";
    }
  }

  /** One `tag` atom per token of the `tags` parameter, in order; none without the parameter. */
  function TagFields(tagStr: Option<string>): (r: seq<Field>)
    ensures tagStr.None? ==> r == []
    ensures tagStr.Some? ==> |r| == |Tokens(tagStr.value)|
    ensures forall i :: 0 <= i < |r| ==> r[i] == Field("tag", AtomValue(Tokens(tagStr.value)[i]))
  {
    if tagStr.None? then []
    else
      var ts := Tokens(tagStr.value);
      seq(|ts|, i requires 0 <= i < |ts| => Field("tag", AtomValue(ts[i])))
  }

  lemma {:induction false} TagFieldsNotNamed(fields: seq<Field>, name: string)
    requires forall i :: 0 <= i < |fields| ==> fields[i].name == "tag"
    requires name != "tag"
    ensures FieldCount(fields, name) == 0
  {
    if fields != [] {
      TagFieldsNotNamed(fields[1..], name);
    }
  }

  // ---------------------------------------------------------------------------
  // add

  datatype User = User(email: string, authDomain: string)

  /** `setupUser`: the signed-in user, or the stand-in for anonymous requests. */
  function SetupUser(current: Option<User>): (u: User)
    ensures current.Some? ==> u == current.value
    ensures current.None? ==> u.email == "nobody@example.com" && u.authDomain == "example.com"
  {
    if current.Some? then current.value else User("nobody@example.com", "example.com")
  }

  /** The message `add` returns, and the document it tried to put. */
  datatype AddOutcome = AddOutcome(message: string, attempted: Option<Document>)

  /** The five fields every added document starts with. */
  function CoreAddFields(content: string, user: User, today: int, rating: int): seq<Field> {
    [ Field("content", TextValue(content)),
      Field("email", TextValue(user.email)),
      Field("domain", TextValue(user.authDomain)),
      Field("published", DateValue(today)),
      Field("rating", NumberValue(rating)) ]
  }

  /**
   * `add`: empty or missing content adds nothing; an unparsable rating
   * escapes as a NumberFormatException; otherwise the document is put and
   * `putFailure` is the message of the exception the put threw, if any.
   */
  function AddDocument(req: Request, user: User, today: int, putFailure: Option<string>): (r: Result<AddOutcome>)
    ensures Parameter(req, "doc").None? || Parameter(req, "doc") == Some("") ==> r == Ok(AddOutcome(VOID_ADD, None))
    ensures Parameter(req, "doc").Some? && Parameter(req, "doc") != Some("") ==>
      var ratingStr := Parameter(req, "rating");
      if ratingStr.Some? && Text.ParseJavaInt(ratingStr.value).None? then
        r == Raised(NumberFormatException(ratingStr.value))
      else
        var rating := if ratingStr.Some? then Text.ParseJavaInt(ratingStr.value).value else 1;
        && r.Ok? && r.value.attempted.Some?
        && r.value.attempted.value.fields
             == CoreAddFields(Parameter(req, "doc").value, user, today, rating) + TagFields(Parameter(req, "tags"))
        && r.value.message == (if putFailure.None? then "Document added" else "Document not added due to an error " + putFailure.value)
  {
    var content := Parameter(req, "doc");
    if content.None? || content.value == "" then Ok(AddOutcome(VOID_ADD, None))
    else
      var ratingStr := Parameter(req, "rating");
      if ratingStr.Some? && Text.ParseJavaInt(ratingStr.value).None? then Raised(NumberFormatException(ratingStr.value))
      else
        var rating := if ratingStr.Some? then Text.ParseJavaInt(ratingStr.value).value else 1;
        var doc := Document("", CoreAddFields(content.value, user, today, rating) + TagFields(Parameter(req, "tags")));
        var message := if putFailure.None? then "Document added" else "Document not added due to an error " + putFailure.value;
        Ok(AddOutcome(message, Some(doc)))
  }

  /**
   * What `add` writes, `search` reads back: the content, the author's email
   * and domain each occur once, whatever tags were given.
   */
  lemma AddedDocumentReadsBack(req: Request, user: User, today: int, putFailure: Option<string>)
    requires AddDocument(req, user, today, putFailure).Ok?
    requires AddDocument(req, user, today, putFailure).value.attempted.Some?
    ensures var doc := AddDocument(req, user, today, putFailure).value.attempted.value;
      && GetOnlyField(doc, "content", "") == Parameter(req, "doc")
      && GetOnlyField(doc, "email", "user") == Some(user.email)
      && GetOnlyField(doc, "domain", "example.com") == Some(user.authDomain)
      && FieldCount(doc.fields, "published") == 1
  {
    var doc := AddDocument(req, user, today, putFailure).value.attempted.value;
    var ratingStr := Parameter(req, "rating");
    var rating := if ratingStr.Some? then Text.ParseJavaInt(ratingStr.value).value else 1;
    var core := CoreAddFields(Parameter(req, "doc").value, user, today, rating);
    var tags := TagFields(Parameter(req, "tags"));
    assert doc.fields == core + tags;
    CountAmongFive(core, "content");
    CountAmongFive(core, "email");
    CountAmongFive(core, "domain");
    CountAmongFive(core, "published");
    TagFieldsNotNamed(tags, "content");
    TagFieldsNotNamed(tags, "email");
    TagFieldsNotNamed(tags, "domain");
    TagFieldsNotNamed(tags, "published");
    FieldCountAppend(core, tags, "content");
    FieldCountAppend(core, tags, "email");
    FieldCountAppend(core, tags, "domain");
    FieldCountAppend(core, tags, "published");
    assert doc.fields[0] == Field("content", TextValue(Parameter(req, "doc").value));
    assert doc.fields[1] == Field("email", TextValue(user.email));
    assert doc.fields[2] == Field("domain", TextValue(user.authDomain));
  }

  lemma CountAmongFive(fs: seq<Field>, name: string)
    requires |fs| == 5
    ensures FieldCount(fs, name) ==
      (if fs[0].name == name then 1 else 0) + (if fs[1].name == name then 1 else 0) + (if fs[2].name == name then 1 else 0)
      + (if fs[3].name == name then 1 else 0) + (if fs[4].name == name then 1 else 0)
  {
    var f1 := fs[1..];
    var f2 := f1[1..];
    var f3 := f2[1..];
    var f4 := f3[1..];
    assert f4[1..] == [];
    assert FieldCount(f4, name) == (if fs[4].name == name then 1 else 0);
    assert FieldCount(f3, name) == (if fs[3].name == name then 1 else 0) + FieldCount(f4, name);
    assert FieldCount(f2, name) == (if fs[2].name == name then 1 else 0) + FieldCount(f3, name);
    assert FieldCount(f1, name) == (if fs[1].name == name then 1 else 0) + FieldCount(f2, name);
  }

  // ---------------------------------------------------------------------------
  // remove

  datatype Status = StatusOk | InvalidRequest | TransientError | InternalError | PermissionDenied | Timeout | ConcurrentTransaction

  /** The ids paired position by position with a non-OK result, as far as both lists go. */
  function FailedIds(ids: seq<string>, codes: seq<Status>): seq<string>
    decreases |ids|
  {
    if ids == [] || codes == [] then []
    else (if codes[0] != StatusOk then [ids[0]] else []) + FailedIds(ids[1..], codes[1..])
  }

  /** `findFailedIds`: walks both lists together and stops at the end of the shorter one. */
  method FindFailedIds(ids: seq<string>, codes: seq<Status>) returns (failed: seq<string>)
    ensures failed == FailedIds(ids, codes)
    ensures |failed| <= |ids| && |failed| <= |codes|
  {
    failed := [];
    var i := 0;
    while i < |ids| && i < |codes|
      invariant 0 <= i <= |ids| && i <= |codes|
      invariant failed + FailedIds(ids[i..], codes[i..]) == FailedIds(ids, codes)
      invariant |failed| <= i
    {
      assert ids[i..][1..] == ids[i + 1..] && codes[i..][1..] == codes[i + 1..];
      if codes[i] != StatusOk {
        failed := failed + [ids[i]];
      }
      i := i + 1;
    }
    assert ids[i..] == [] || codes[i..] == [];
  }

  /** `x` sits at a position both lists reach, paired with a failure. */
  predicate FailsAt(ids: seq<string>, codes: seq<Status>, i: int, x: string) {
    0 <= i < |ids| && i < |codes| && codes[i] != StatusOk && ids[i] == x
  }

  /** An id is reported exactly when it is paired with a non-OK result. */
  lemma {:induction false} FailedIdsMembership(ids: seq<string>, codes: seq<Status>, x: string)
    ensures x in FailedIds(ids, codes) <==> exists i :: FailsAt(ids, codes, i, x)
    decreases |ids|
  {
    if ids != [] && codes != [] {
      FailedIdsMembership(ids[1..], codes[1..], x);
      if x in FailedIds(ids, codes) {
        if codes[0] != StatusOk && ids[0] == x {
          assert FailsAt(ids, codes, 0, x);
        } else {
          var j :| FailsAt(ids[1..], codes[1..], j, x);
          assert FailsAt(ids, codes, j + 1, x);
        }
      }
      if exists i :: FailsAt(ids, codes, i, x) {
        var i :| FailsAt(ids, codes, i, x);
        if i > 0 {
          assert FailsAt(ids[1..], codes[1..], i - 1, x);
        }
      }
    }
  }

  /** When every result is OK nothing is reported; when none is, every id the results reach is, in order. */
  lemma {:induction false} FailedIdsExtremes(ids: seq<string>, codes: seq<Status>)
    ensures (forall i :: 0 <= i < |codes| ==> codes[i] == StatusOk) ==> FailedIds(ids, codes) == []
    ensures (forall i :: 0 <= i < |codes| ==> codes[i] != StatusOk) && |ids| <= |codes| ==> FailedIds(ids, codes) == ids
    decreases |ids|
  {
    if ids != [] && codes != [] {
      FailedIdsExtremes(ids[1..], codes[1..]);
      if forall i :: 0 <= i < |codes| ==> codes[i] == StatusOk {
        assert forall i :: 0 <= i < |codes[1..]| ==> codes[1..][i] == codes[i + 1];
      }
      if forall i :: 0 <= i < |codes| ==> codes[i] != StatusOk {
        assert forall i :: 0 <= i < |codes[1..]| ==> codes[1..][i] == codes[i + 1];
      }
    }
  }

  /** Java's `List.toString`: the elements between brackets, separated by a comma and a space. */
  function ListString(ids: seq<string>): string {
    "[" + JoinWith(ids, ", ") + "]"
  }

  /**
   * The service's answer to the delete: done; a DeleteException carrying one
   * result per id; or a request it refuses outright (an invalid id), which it
   * signals with an IllegalArgumentException carrying `reason`.
   */
  datatype DeleteReply = Deleted | DeleteFailed(codes: seq<Status>) | DeleteRejected(reason: string)

  /** The message `remove` returns, and the ids it asked the index to delete. */
  datatype RemoveOutcome = RemoveOutcome(message: string, requested: seq<string>)

  /**
   * `remove`: no `docid` values deletes nothing; otherwise all of them are sent
   * to the index in one call. Only a DeleteException is caught: a rejected
   * request escapes.
   */
  function RemoveDocuments(req: Request, reply: DeleteReply): (r: Result<RemoveOutcome>)
    ensures ParameterValues(req, "docid").None? ==> r == Ok(RemoveOutcome(VOID_REMOVE, []))
    ensures ParameterValues(req, "docid").Some? && reply.DeleteRejected? ==>
      r == Raised(IllegalArgumentException(reply.reason))
    ensures ParameterValues(req, "docid").Some? && !reply.DeleteRejected? ==>
      var ids := ParameterValues(req, "docid").value;
      && r.Ok?
      && r.value.requested == ids
      && r.value.message == (if reply.Deleted? then "Documents " + ListString(ids) + " removed"
                             else "Remove failed for " + ListString(FailedIds(ids, reply.codes)))
  {
    match ParameterValues(req, "docid")
    case None => Ok(RemoveOutcome(VOID_REMOVE, []))
    case Some(ids) =>
      match reply
      case Deleted => Ok(RemoveOutcome("Documents " + ListString(ids) + " removed", ids))
      case DeleteFailed(codes) => Ok(RemoveOutcome("Remove failed for " + ListString(FailedIds(ids, codes)), ids))
      case DeleteRejected(reason) => Raised(IllegalArgumentException(reason))
  }

  // ---------------------------------------------------------------------------
  // search

  datatype SearchParams = SearchParams(query: string, limit: int)

  const DefaultLimit: int := 10

  /** `search`'s parameters: the query defaults to match-all; the limit to 10, which an unparsable value leaves in place. */
  function ParseSearchParams(req: Request): (p: SearchParams)
    ensures Parameter(req, "query").None? ==> p.query == ""
    ensures Parameter(req, "query").Some? ==> p.query == Parameter(req, "query").value
    ensures Parameter(req, "limit").None? ==> p.limit == DefaultLimit
    ensures Parameter(req, "limit").Some? ==>
      p.limit == (if Text.ParseJavaInt(Parameter(req, "limit").value).Some?
                  then Text.ParseJavaInt(Parameter(req, "limit").value).value else DefaultLimit)
    ensures Text.JavaIntMin <= p.limit <= Text.JavaIntMax
  {
    var query := if Parameter(req, "query").Some? then Parameter(req, "query").value else "";
    var limitStr := Parameter(req, "limit");
    var limit := if limitStr.Some? && Text.ParseJavaInt(limitStr.value).Some? then Text.ParseJavaInt(limitStr.value).value else DefaultLimit;
    SearchParams(query, limit)
  }

  /** The first field named `name` in a list of computed expressions: the loop breaks at the first match. */
  function FirstExpression(expressions: seq<Field>, name: string): (r: Option<Field>)
    ensures r.Some? ==> exists i :: 0 <= i < |expressions| && expressions[i] == r.value && expressions[i].name == name
                                    && forall j :: 0 <= j < i ==> expressions[j].name != name
    ensures r.None? ==> forall i :: 0 <= i < |expressions| ==> expressions[i].name != name
  {
    if expressions == [] then None
    else if expressions[0].name == name then Some(expressions[0])
    else
      var r := FirstExpression(expressions[1..], name);
      assert r.Some? ==> exists i :: 0 <= i < |expressions| && expressions[i] == r.value && expressions[i].name == name
                                     && forall j :: 0 <= j < i ==> expressions[j].name != name by {
        if r.Some? {
          var i :| 0 <= i < |expressions[1..]| && expressions[1..][i] == r.value && expressions[1..][i].name == name
                   && forall j :: 0 <= j < i ==> expressions[1..][j].name != name;
          assert expressions[i + 1] == r.value;
          forall j | 0 <= j < i + 1
            ensures expressions[j].name != name
          {
            if j > 0 {
              assert expressions[j] == expressions[1..][j - 1];
            }
          }
        }
      }
      r
  }

  /**
   * The content shown for a hit: the markup of the first computed `content`
   * expression when there is one and it is HTML, else the document's only
   * `content` field, else the empty string.
   */
  function DisplayedContent(doc: Document, expressions: Option<seq<Field>>): (r: Option<string>)
    ensures expressions.Some? && FirstExpression(expressions.value, "content").Some?
            && FirstExpression(expressions.value, "content").value.value.HtmlValue? ==>
      r == Some(FirstExpression(expressions.value, "content").value.value.html)
    ensures (expressions.None? || FirstExpression(expressions.value, "content").None?
             || !FirstExpression(expressions.value, "content").value.value.HtmlValue?) ==>
      r == GetOnlyField(doc, "content", "")
  {
    var fromExpression :=
      if expressions.Some? && FirstExpression(expressions.value, "content").Some? then
        GetHtml(FirstExpression(expressions.value, "content").value.value)
      else None;
    if fromExpression.Some? then fromExpression else GetOnlyField(doc, "content", "")
  }

  /**
   * The author of a hit: its only `email` and `domain`, with defaults when
   * either is missing or repeated. A single field of another kind reads as
   * null, which the user's constructor refuses: `None`, and the search loop
   * then fails with that exception.
   */
  function Author(doc: Document): (u: Option<User>)
    ensures u.Some? <==> TextOrDefault(doc, "email") && TextOrDefault(doc, "domain")
    ensures u.Some? ==> ReadsAs(doc, "email", "user", u.value.email) && ReadsAs(doc, "domain", "example.com", u.value.authDomain)
  {
    var email := GetOnlyField(doc, "email", "user");
    var domain := GetOnlyField(doc, "domain", "example.com");
    if email.Some? && domain.Some? then Some(User(email.value, domain.value)) else None
  }

  /** `name` is missing, repeated, or held by exactly one text field. */
  predicate TextOrDefault(doc: Document, name: string) {
    FieldCount(doc.fields, name) != 1
    || exists j :: 0 <= j < |doc.fields| && doc.fields[j].name == name && doc.fields[j].value.TextValue?
  }

  /** `s` is the text of the only field named `name`, or, without exactly one such field, `default`. */
  predicate ReadsAs(doc: Document, name: string, default: string, s: string) {
    if FieldCount(doc.fields, name) == 1 then
      exists j :: 0 <= j < |doc.fields| && doc.fields[j].name == name && doc.fields[j].value == TextValue(s)
    else s == default
  }

  /** An added document, found again, is attributed to the user who added it. */
  lemma AddedDocumentAuthor(req: Request, user: User, today: int, putFailure: Option<string>)
    requires AddDocument(req, user, today, putFailure).Ok?
    requires AddDocument(req, user, today, putFailure).value.attempted.Some?
    ensures Author(AddDocument(req, user, today, putFailure).value.attempted.value) == Some(user)
  {
    AddedDocumentReadsBack(req, user, today, putFailure);
  }

  // ---------------------------------------------------------------------------
  // doGet

  /** The search service's answer to the query. */
  datatype SearchReply = SearchDone | SearchFailed(message: string)

  /** `search`'s outcome: null on success, else the failure message. */
  function SearchOutcome(reply: SearchReply): (o: Option<string>)
    ensures o.None? <==> reply.SearchDone?
  {
    if reply.SearchDone? then None else Some("Search failed due to an error: " + reply.message)
  }

  /**
   * `doGet`: the chosen action runs, then the search always runs; the outcome
   * shown is the action's message, or the search's when no action ran.
   */
  function DoGet(req: Request, current: Option<User>, today: int, putFailure: Option<string>,
                 deleteReply: DeleteReply, searchReply: SearchReply): (r: Result<Option<string>>)
    ensures GetAction(req) == Add ==>
      var added := AddDocument(req, SetupUser(current), today, putFailure);
      && (added.Raised? ==> r == Raised(added.exc))
      && (added.Ok? ==> r == Ok(Some(added.value.message)))
    ensures GetAction(req) == Remove ==>
      var removed := RemoveDocuments(req, deleteReply);
      && (removed.Raised? ==> r == Raised(removed.exc))
      && (removed.Ok? ==> r == Ok(Some(removed.value.message)))
    ensures GetAction(req) == Default ==> r == Ok(SearchOutcome(searchReply))
  {
    var user := SetupUser(current);
    match GetAction(req)
    case Add =>
      var added :- AddDocument(req, user, today, putFailure);
      Ok(Some(added.message))
    case Remove =>
      var removed :- RemoveDocuments(req, deleteReply);
      Ok(Some(removed.message))
    case Default => Ok(SearchOutcome(searchReply))
  }
}

=== FILE: utils.dfy ===
/**
 * The rating reconciler (utils.py): integer clamping, and folding one review's
 * rating into its product's running average inside a transaction that also
 * records the follow-up reindex task.
 */
module Utils {
  import opened Models
  import Config

  /** `intClamp`: `max(low, min(v, high))`. */
  function IntClamp(v: int, low: int, high: int): (r: int)
    ensures low <= high ==> low <= r <= high
    ensures low <= v <= high ==> r == v
    ensures low <= high && v < low ==> r == low
    ensures low <= high && v > high ==> r == high
    ensures high < low ==> r == low
  {
    var m := if v < high then v else high;
    if low < m then m else low
  }

  /**
   * One review's rating folded into a product: one more review, the running
   * average recomputed by the incremental formula, and the document marked
   * for reindexing. Nothing else changes.
   */
  function FoldRating(p: Product, rating: int): (q: Product)
    ensures q.numReviews == p.numReviews + 1
    ensures q.needsReviewReindex
    ensures q == p.(numReviews := q.numReviews, avgRating := q.avgRating, needsReviewReindex := true)
  {
    var n := p.numReviews + 1;
    p.(numReviews := n, avgRating := p.avgRating + (rating as real - p.avgRating) / (n as real), needsReviewReindex := true)
  }

  /** The incremental formula keeps the total: the new average times the new count is the old total plus the rating. */
  lemma FoldRatingTotal(p: Product, rating: int)
    ensures FoldRating(p, rating).avgRating * (FoldRating(p, rating).numReviews as real)
         == p.avgRating * (p.numReviews as real) + rating as real
  {
    var n := (p.numReviews + 1) as real;
    var avg := p.avgRating + (rating as real - p.avgRating) / n;
    assert avg * n == p.avgRating * n + (rating as real - p.avgRating);
  }

  /**
   * `updateAverageRating`: one transaction over the review and its product.
   * A review already folded in changes nothing and records no task, and so
   * does a missing review or product (the `AttributeError` is swallowed and
   * the transaction has written nothing). Otherwise the review is marked as
   * folded, its rating is folded into the product, and, unless ratings are
   * reindexed in batches, one reindex task for the product is recorded. The
   * index is never touched here.
   */
  function UpdateAverageRating(w: World, rid: nat, batchMode: bool): (r: (World, seq<Task>))
    ensures r.0.index == w.index && r.0.store.categories == w.store.categories
    ensures Applies(w.store, rid) ==>
      var review := w.store.reviews[rid];
      && r.0.store.reviews == w.store.reviews[rid := review.(ratingAdded := true)]
      && r.0.store.products == w.store.products[review.productKey := FoldRating(w.store.products[review.productKey], review.rating)]
      && r.1 == (if batchMode then [] else [ReindexProduct(review.productKey)])
    ensures !Applies(w.store, rid) ==> r == (w, [])
  {
    if !Applies(w.store, rid) then (w, [])
    else
      var review := w.store.reviews[rid];
      var product := FoldRating(w.store.products[review.productKey], review.rating);
      var store := w.store.(
        products := w.store.products[review.productKey := product],
        reviews := w.store.reviews[rid := review.(ratingAdded := true)]);
      (w.(store := store), if batchMode then [] else [ReindexProduct(review.productKey)])
  }

  /** The transaction of `updateAverageRating` commits a change: the review exists, is not yet folded in, and its product exists. */
  predicate Applies(store: Store, rid: nat) {
    rid in store.reviews && !store.reviews[rid].ratingAdded && store.reviews[rid].productKey in store.products
  }

  /** Redelivery: applying the same review a second time changes nothing and records nothing. */
  lemma UpdateAverageRatingIdempotent(w: World, rid: nat, batchMode: bool)
    ensures var once := UpdateAverageRating(w, rid, batchMode).0;
      UpdateAverageRating(once, rid, batchMode) == (once, [])
  {
  }

  function Sum(ratings: seq<int>): int
    decreases |ratings|
  {
    if ratings == [] then 0 else Sum(ratings[..|ratings| - 1]) + ratings[|ratings| - 1]
  }

  /** The arithmetic mean of a non-empty list of ratings. */
  function Mean(ratings: seq<int>): real
    requires |ratings| > 0
  {
    Sum(ratings) as real / (|ratings| as real)
  }

  /** Ratings folded in one after another. */
  function FoldRatings(p: Product, ratings: seq<int>): Product
    decreases |ratings|
  {
    if ratings == [] then p else FoldRating(FoldRatings(p, ratings[..|ratings| - 1]), ratings[|ratings| - 1])
  }

  /** Folding keeps average times count equal to the previous total plus the folded ratings. */
  lemma {:induction false} FoldRatingsTotal(p: Product, ratings: seq<int>)
    ensures FoldRatings(p, ratings).numReviews == p.numReviews + |ratings|
    ensures FoldRatings(p, ratings).avgRating * (FoldRatings(p, ratings).numReviews as real)
         == p.avgRating * (p.numReviews as real) + Sum(ratings) as real
    decreases |ratings|
  {
    if ratings != [] {
      FoldRatingsTotal(p, ratings[..|ratings| - 1]);
      FoldRatingTotal(FoldRatings(p, ratings[..|ratings| - 1]), ratings[|ratings| - 1]);
    }
  }

  /**
   * The running average is the mean: a product with no review folded in yet,
   * after folding any non-empty list of ratings, has exactly as many reviews
   * as ratings and their arithmetic mean as its average.
   */
  lemma RunningAverageIsMean(p: Product, ratings: seq<int>)
    requires p.numReviews == 0 && |ratings| > 0
    ensures FoldRatings(p, ratings).numReviews == |ratings|
    ensures FoldRatings(p, ratings).avgRating == Mean(ratings)
  {
    FoldRatingsTotal(p, ratings);
    var q := FoldRatings(p, ratings);
    assert q.avgRating * (|ratings| as real) == Sum(ratings) as real;
  }

  /** With every rating in range, the average stays in range. */
  lemma {:induction false} AverageStaysInRange(p: Product, ratings: seq<int>)
    requires p.numReviews == 0 || Config.RATING_MIN as real <= p.avgRating <= Config.RATING_MAX as real
    requires forall i :: 0 <= i < |ratings| ==> Config.RATING_MIN <= ratings[i] <= Config.RATING_MAX
    requires |ratings| > 0
    ensures Config.RATING_MIN as real <= FoldRatings(p, ratings).avgRating <= Config.RATING_MAX as real
    decreases |ratings|
  {
    var n := |ratings| - 1;
    var front := FoldRatings(p, ratings[..n]);
    if n > 0 {
      AverageStaysInRange(p, ratings[..n]);
      FoldRatingsTotal(p, ratings[..n]);
      assert front.numReviews > 0;
    }
    assert front.numReviews == 0 || Config.RATING_MIN as real <= front.avgRating <= Config.RATING_MAX as real by {
      if n == 0 { assert ratings[..n] == []; }
    }
    FoldStep(front, ratings[n]);
  }

  lemma FoldStep(p: Product, rating: int)
    requires p.numReviews == 0 || Config.RATING_MIN as real <= p.avgRating <= Config.RATING_MAX as real
    requires Config.RATING_MIN <= rating <= Config.RATING_MAX
    ensures Config.RATING_MIN as real <= FoldRating(p, rating).avgRating <= Config.RATING_MAX as real
  {
    FoldRatingTotal(p, rating);
    MeanStep(p.avgRating, p.numReviews as real, rating as real, FoldRating(p, rating).avgRating);
  }

  /**
   * The arithmetic behind `FoldStep`: a new average `a` over `m + 1` ratings
   * whose total is the old total plus a rating in [1, 5] stays in [1, 5].
   */
  lemma MeanStep(avg: real, m: real, rating: real, a: real)
    requires m >= 0.0 && (m == 0.0 || 1.0 <= avg <= 5.0) && 1.0 <= rating <= 5.0
    requires a * (m + 1.0) == avg * m + rating
    ensures 1.0 <= a <= 5.0
  {
    var n := m + 1.0;
    if m == 0.0 {
      assert a * n == a;
    } else {
      var total := avg * m;
      ScaleMonotone(1.0, avg, m);
      ScaleMonotone(avg, 5.0, m);
      assert m <= total <= 5.0 * m;
      assert a * n == total + rating;
      assert 1.0 * n == m + 1.0 && 5.0 * n == 5.0 * m + 5.0;
      ScaleCancel(1.0, a, n);
      ScaleCancel(a, 5.0, n);
    }
  }

  lemma ScaleMonotone(a: real, b: real, c: real)
    requires a <= b && c >= 0.0
    ensures a * c <= b * c
  {
  }

  lemma ScaleCancel(a: real, b: real, c: real)
    requires c > 0.0 && a * c <= b * c
    ensures a <= b
  {
  }

  /** Applying the reviews in `rids` one after another, collecting the recorded tasks. */
  function ApplyAll(w: World, rids: seq<nat>, batchMode: bool): (World, seq<Task>)
    decreases |rids|
  {
    if rids == [] then (w, [])
    else
      var front := ApplyAll(w, rids[..|rids| - 1], batchMode);
      var last := UpdateAverageRating(front.0, rids[|rids| - 1], batchMode);
      (last.0, front.1 + last.1)
  }

  /** The ratings of the reviews `rids`. */
  function RatingsOf(reviews: map<nat, Review>, rids: seq<nat>): (r: seq<int>)
    requires forall i :: 0 <= i < |rids| ==> rids[i] in reviews
    ensures |r| == |rids|
    decreases |rids|
  {
    if rids == [] then []
    else RatingsOf(reviews, rids[..|rids| - 1]) + [reviews[rids[|rids| - 1]].rating]
  }

  /** Distinct existing reviews of `pid`, none folded in yet. */
  predicate FreshReviewsOf(store: Store, pid: string, rids: seq<nat>) {
    && pid in store.products
    && (forall i :: 0 <= i < |rids| ==> rids[i] in store.reviews)
    && (forall i :: 0 <= i < |rids| ==> store.reviews[rids[i]].productKey == pid && !store.reviews[rids[i]].ratingAdded)
    && (forall i, j :: 0 <= i < j < |rids| ==> rids[i] != rids[j])
  }

  /**
   * Submitting any list of fresh reviews for one product marks exactly those
   * reviews as folded in and leaves every other review as it was.
   */
  lemma {:induction false} ApplyAllMarksReviews(w: World, pid: string, rids: seq<nat>, batchMode: bool)
    requires FreshReviewsOf(w.store, pid, rids)
    ensures ApplyAll(w, rids, batchMode).0.store.reviews.Keys == w.store.reviews.Keys
    ensures forall i :: 0 <= i < |rids| ==>
      ApplyAll(w, rids, batchMode).0.store.reviews[rids[i]] == w.store.reviews[rids[i]].(ratingAdded := true)
    ensures forall rid :: rid in w.store.reviews && rid !in rids ==>
      ApplyAll(w, rids, batchMode).0.store.reviews[rid] == w.store.reviews[rid]
    ensures pid in ApplyAll(w, rids, batchMode).0.store.products
    decreases |rids|
  {
    if rids != [] {
      var n := |rids| - 1;
      var front := rids[..n];
      FreshFront(w.store, pid, rids);
      ApplyAllMarksReviews(w, pid, front, batchMode);
      var mid := ApplyAll(w, front, batchMode).0;
      var r := ApplyAll(w, rids, batchMode).0;
      assert r == UpdateAverageRating(mid, rids[n], batchMode).0;
      assert rids[n] !in front;
      assert mid.store.reviews[rids[n]] == w.store.reviews[rids[n]];
      assert Applies(mid.store, rids[n]);
      assert r.store.reviews == mid.store.reviews[rids[n] := w.store.reviews[rids[n]].(ratingAdded := true)];
      forall i | 0 <= i < |rids|
        ensures r.store.reviews[rids[i]] == w.store.reviews[rids[i]].(ratingAdded := true)
      {
        if i < n {
          assert front[i] == rids[i];
        }
      }
      forall rid | rid in w.store.reviews && rid !in rids
        ensures r.store.reviews[rid] == w.store.reviews[rid]
      {
        assert rid !in front;
      }
    }
  }

  /** A prefix of a list of fresh reviews is itself fresh. */
  lemma FreshFront(store: Store, pid: string, rids: seq<nat>)
    requires FreshReviewsOf(store, pid, rids) && rids != []
    ensures FreshReviewsOf(store, pid, rids[..|rids| - 1])
  {
    assert forall i :: 0 <= i < |rids| - 1 ==> rids[..|rids| - 1][i] == rids[i];
  }

  /** After the earlier reviews of a fresh list, the next one is still unfolded and its transaction commits. */
  lemma NextApplies(w: World, pid: string, rids: seq<nat>, batchMode: bool)
    requires FreshReviewsOf(w.store, pid, rids) && rids != []
    ensures var mid := ApplyAll(w, rids[..|rids| - 1], batchMode).0;
      && Applies(mid.store, rids[|rids| - 1])
      && mid.store.reviews[rids[|rids| - 1]] == w.store.reviews[rids[|rids| - 1]]
  {
    var n := |rids| - 1;
    FreshFront(w.store, pid, rids);
    ApplyAllMarksReviews(w, pid, rids[..n], batchMode);
    assert rids[n] !in rids[..n];
  }

  /** Applying reviews never touches the index. */
  lemma {:induction false} ApplyAllKeepsIndex(w: World, rids: seq<nat>, batchMode: bool)
    ensures ApplyAll(w, rids, batchMode).0.index == w.index
    decreases |rids|
  {
    if rids != [] {
      ApplyAllKeepsIndex(w, rids[..|rids| - 1], batchMode);
    }
  }

  /** In immediate mode each fresh review records one reindex task for its product; in batch mode none is recorded. */
  lemma {:induction false} ApplyAllRecordsTasks(w: World, pid: string, rids: seq<nat>, batchMode: bool)
    requires FreshReviewsOf(w.store, pid, rids)
    ensures ApplyAll(w, rids, batchMode).1 == (if batchMode then [] else seq(|rids|, _ => ReindexProduct(pid)))
    decreases |rids|
  {
    if rids != [] {
      var n := |rids| - 1;
      FreshFront(w.store, pid, rids);
      ApplyAllRecordsTasks(w, pid, rids[..n], batchMode);
      NextApplies(w, pid, rids, batchMode);
      var mid := ApplyAll(w, rids[..n], batchMode);
      var last := UpdateAverageRating(mid.0, rids[n], batchMode);
      assert ApplyAll(w, rids, batchMode).1 == mid.1 + last.1;
      if !batchMode {
        assert mid.1 + last.1 == seq(|rids|, _ => ReindexProduct(pid));
      }
    }
  }

  /**
   * Submitting any list of fresh reviews for one product folds exactly their
   * ratings into it, in order.
   */
  lemma {:induction false} ApplyAllFoldsRatings(w: World, pid: string, rids: seq<nat>, batchMode: bool)
    requires FreshReviewsOf(w.store, pid, rids)
    ensures pid in ApplyAll(w, rids, batchMode).0.store.products
    ensures ApplyAll(w, rids, batchMode).0.store.products[pid]
         == FoldRatings(w.store.products[pid], RatingsOf(w.store.reviews, rids))
    decreases |rids|
  {
    if rids != [] {
      var n := |rids| - 1;
      FreshFront(w.store, pid, rids);
      ApplyAllFoldsRatings(w, pid, rids[..n], batchMode);
      NextApplies(w, pid, rids, batchMode);
      var mid := ApplyAll(w, rids[..n], batchMode).0;
      var rv := w.store.reviews[rids[n]];
      var after := UpdateAverageRating(mid, rids[n], batchMode).0;
      assert ApplyAll(w, rids, batchMode).0 == after;
      assert after.store.products[pid] == FoldRating(mid.store.products[pid], rv.rating);
      var ratings := RatingsOf(w.store.reviews, rids);
      assert ratings == RatingsOf(w.store.reviews, rids[..n]) + [rv.rating];
      assert ratings[..n] == RatingsOf(w.store.reviews, rids[..n]);
    }
  }

  /**
   * The running average equals the mean of the submitted ratings, and the
   * review count their number, for a product with no review folded in yet.
   */
  lemma SubmittedReviewsAverage(w: World, pid: string, rids: seq<nat>, batchMode: bool)
    requires FreshReviewsOf(w.store, pid, rids) && |rids| > 0
    requires w.store.products[pid].numReviews == 0
    ensures pid in ApplyAll(w, rids, batchMode).0.store.products
    ensures ApplyAll(w, rids, batchMode).0.store.products[pid].avgRating == Mean(RatingsOf(w.store.reviews, rids))
    ensures ApplyAll(w, rids, batchMode).0.store.products[pid].numReviews == |rids|
  {
    ApplyAllFoldsRatings(w, pid, rids, batchMode);
    RunningAverageIsMean(w.store.products[pid], RatingsOf(w.store.reviews, rids));
  }

  /**
   * Reviews rated 4 then 1 on a product with none: the average reads 4 after
   * the first and 2.5 after the second, whether or not the product was
   * reindexed in between.
   */
  lemma FourThenOne(p: Product, reindexed: bool)
    requires p.numReviews == 0
    ensures FoldRating(p, 4).avgRating == 4.0
    ensures FoldRating(FoldRating(p, 4).(needsReviewReindex := !reindexed), 1).avgRating == 2.5
    ensures FoldRating(FoldRating(p, 4).(needsReviewReindex := !reindexed), 1).numReviews == 2
  {
    var q1 := FoldRating(p, 4);
    assert q1.numReviews == 1 && q1.avgRating == 4.0;
    var q2 := FoldRating(q1.(needsReviewReindex := !reindexed), 1);
    assert q2.avgRating == 4.0 + (1.0 - 4.0) / 2.0;
  }
}
